=== FILE: README.md ===
# osintbot, modelled in Dafny

osintbot watches a handful of Telegram news channels, filters their messages
and republishes the ones that pass. It runs in two generations:

- `main.py` sends a rewritten message straight to the output chat.
- `bot.py` stores every screened message in an SQLite store, where a review
  API (`api_server.py`) and a mobile app (`ApiContext.tsx`) let an operator
  approve, reject, archive or delete it.

This project models the decision logic of both pipelines and the operations
around them as pure Dafny functions over immutable values. It also proves
what they promise:

- **Screening order.** Messages with no text or no sender are dropped
  first. Then come the allow-list, blocked keywords, links and emoji,
  duplicate hashes, store keys that are already taken, and messages that are
  too young. In `bot.py` the age check, as written, raises for every dated
  message; see "## Findings".
- **Model gates.** The geopolitical, importance and translation gates, and
  the red/black photo filter.
- **Hash file.** What is appended to it, and when.
- **Store.** The item store with its unique message ids, its status
  transitions and its newest-first paging.
- **Endpoints and client.** The review endpoints, the app's reducer, and
  its single and batch actions.
- **Session reassembly.** How the Telegram session string is cut into
  environment variables and put back together.

## Modules

- `common.dfy` (module `Common`): `Option`, counting and selection helpers.
- `text.dfy` (module `Text`): strings: stripping, case mapping, word splitting, word order.
- `config.dfy` (module `Config`): the settings, channel table, keyword lists and session reassembly.
- `media.dfy` (module `MediaGate`): the red/black pixel rule of the photo filter.
- `fingerprint.dfy` (module `Fingerprint`): hashtag removal, the similarity hash, the store's message id.
- `scoring.dfy` (module `Scoring`): the content-quality and bias scores.
- `store.dfy` (module `Store`): the `posts` and `user_actions` tables and their updates.
- `store_query.dfy` (module `StoreQuery`): `get_posts`: filter, newest first, paging.
- `tally.dfy` (module `Tally`): the grouped counts behind the analytics.
- `store_analytics.dfy` (module `StoreAnalytics`): `get_analytics`.
- `inbound.dfy` (module `Inbound`): a channel message, link and keyword matching, media download.
- `pipeline_bot.dfy` (module `BotPipeline`): `process_channel` in `bot.py`.
- `pipeline_main.dfy` (module `MainPipeline`): the channel loop of `main.py`.
- `api.dfy` (module `Api`): the review endpoints of `api_server.py`.
- `client.dfy` (module `Client`): the app's `ApiContext` state and flows.
- `split_session.dfy` (module `SplitSession`): `split_session_string` and its round trip through the environment.

MD5, the language-model calls, the media download, the photo's pixels, the
clock and the environment are parameters: the properties hold for every
digest function and every answer.

## Model

| member | source | states |
|---|---|---|
| Config.ChannelTable | config.py:75-84 | Only `firstreportsnews` accepts every sender, and its priority is 2; every other channel names its senders and has priority 1. |
| Config.ChannelNamesPrefixFree | config.py:75-84 | No channel name is a prefix of another, so channel name plus text never collides across channels. |
| Config.ZionistTermsBlocked | config.py:87-101 | Each of the six zionist-family bias terms is also a blocked keyword. |
| Text.Lower | bot.py:142 | `str.lower()`: never shorter than the input, every character already lower-case, and character for character when there is no dotted capital İ. |
| Text.LowerAppend | bot.py:142 | Lower-casing a concatenation lower-cases each part. |
| Text.LowerOfLowered | bot.py:142 | A string already in lower case is its own lower-case form. |
| Text.LowerIsLowered | utils.py:24 | Lower-casing twice is the same as once. |
| Text.DottedCapitalKeywordMatches | bot.py:142-144 | "DEM PARTİSİ" lowers to "dem parti̇si̇", each İ becoming `i` plus a combining dot, and so contains "dem parti". |
| Config.ParseInt | config.py:52-55 | `int()` of a string: a result exists only when the stripped text is non-empty. |
| Config.ParseIntRoundTrip | config.py:55 | `int(str(n)) == n` for every natural `n`. |
| Config.ParseIntNegativeRoundTrip | config.py:55 | `int("-" + str(n)) == -n`. |
| Config.ParseIntRejectsBlank | config.py:55 | A blank `API_ID` is not an integer. |
| Config.LoadSettings | config.py:52-72 | Loading succeeds iff all five required variables are set and `API_ID` parses. On failure it names the first missing variable in check order, or `API_ID` when that does not parse. On success every field is the variable's value, and `CSV_FILE` defaults to `gpt_full_log.csv`. |
| Config.PartName | split_session.py:27-28 | Every part variable is named `SESSION_B64_` followed by its number. |
| Config.PartNameInjective | config.py:16-17 | Different part numbers name different variables. |
| Config.SessionPartsFrom | config.py:14-21 | Parts are read from `SESSION_B64_i` on while they are set and non-empty, never beyond part 9. Each part is the variable's value, and the first unset or empty one stops the scan. |
| Config.SessionFile | config.py:9-49 | The temporary session file is used iff the session string is longer than 100 characters and decodes; otherwise the local `multi_session.session`. |
| SplitSession.Chunk | split_session.py:18-21 | The chunks join back to the input. Each is non-empty and at most `m` long, and all but the last are exactly `m` long. There are `ceil(n/m)` of them. |
| SplitSession.SplitSessionString | split_session.py:7-21 | A string that fits is not split, and a zero length with a long string raises. A negative length gives no parts. Otherwise the parts join back to the string, are at most `maxLength` long and number `ceil(n/maxLength)`. |
| SplitSession.PartsEnv | split_session.py:27-28 | The environment the split asks for maps `SESSION_B64_k` to the k-th part, and nothing else. |
| SplitSession.PartsReadBack | config.py:14-21 | Reading part variables from number `i` returns the chunks from `i - 1`, up to the ninth. |
| SplitSession.ReadBackAll | config.py:11-23 | The reassembled session string is the join of at most the first nine parts. |
| SplitSession.FirstPartsJoinWhole | config.py:16 | The first nine non-empty chunks join to the whole string iff there are at most nine. |
| SplitSession.ReassemblyRoundTrip | config.py:11-23 | Splitting and then reassembling returns the original string iff there are at most nine parts. |
| MediaGate.RedAndBlackDisjoint | utils.py:85-86 | No pixel is both red and black. |
| MediaGate.FlaggedPixelsPartition | utils.py:85-87 | Red/black pixels count as the red count plus the black count. |
| MediaGate.IsRedOrBlackHeavy | utils.py:79-91 | An image that cannot be read is not heavy, and neither is an empty one. Otherwise the image is heavy iff (red + black) / total ≥ threshold. |
| MediaGate.FlaggedRatioAtMostOne | utils.py:87 | Red plus black never exceeds the pixel count. |
| MediaGate.UniformRedIsFlagged | utils.py:85-88 | An all-red image is heavy at the default threshold 0.7. |
| MediaGate.UniformGreyIsNotFlagged | utils.py:85-88 | An all-grey image is never heavy at a positive threshold. |
| MediaGate.NonPositiveThresholdFlagsAll | utils.py:87-88 | With threshold ≤ 0 every readable non-empty image is heavy. |
| Fingerprint.HashtagEnd | utils.py:95 | A match of `#\S+\s*` spans at least two characters and stays inside the text. |
| Fingerprint.RemoveHashtags | utils.py:93-95 | The result has no hashtag left, is no longer than the input, and leaves hashtag-free text untouched. A first character that does not start a hashtag is kept. |
| Fingerprint.RemoveHashtagsFixesFree | utils.py:93-95 | Text without a hashtag match is unchanged. |
| Fingerprint.RemoveHashtagsIdempotent | utils.py:93-95 | Removing hashtags twice is the same as once. |
| Fingerprint.RemoveLeadingHashtag | utils.py:95 | A leading `#tag` and the whitespace after it vanish, and the rest is processed alone. |
| Fingerprint.NonLatinHashtagRemoved | utils.py:95 | A hashtag in Japanese script and the space after it vanish, just as a Latin one does. |
| Fingerprint.SpaceRunOfGap | utils.py:95 | `\s*` consumes exactly the whitespace gap before a non-space. |
| Fingerprint.StripPunctuation | utils.py:24 | `[^\w\s]` removal keeps only word and space characters taken from the input. Text without punctuation is unchanged. |
| Fingerprint.DropInsignificant | utils.py:26-28 | Keeps exactly the words that are not stop words and are longer than two characters. |
| Fingerprint.DropInsignificantKeepsCounts | utils.py:26-28 | Each kept word occurs as often as in the input; stop words and words of two characters or fewer occur zero times. |
| Fingerprint.SignificantWords | utils.py:24-28 | Every word returned is significant and contains no whitespace. |
| Fingerprint.Take | utils.py:31 | `ws[:n]`: a prefix of the list, of length `n` when there are enough words. |
| Fingerprint.SimilarityWords | utils.py:21-31 | The ten smallest significant words, or all of them when there are fewer, sorted. They are drawn from the text's significant words with multiplicity, and no word left out is smaller than one chosen. |
| Fingerprint.SmallestAreSignificant | utils.py:30-31 | The first `n` of the sorted words number `min(n, |ws|)` and are the smallest words of the list, with multiplicity; all are significant. |
| Fingerprint.SimilarityTextDeterminesWords | utils.py:31 | Splitting the similarity text gives back the chosen words. |
| Fingerprint.IsSimilarContent | utils.py:34-37 | True iff the digest of the ten smallest significant words, space-joined, is recorded. Any text with the same significant words as a text whose digest is recorded is similar. |
| Fingerprint.RecordedTextIsSimilar | utils.py:21-37 | Once a text's digest is recorded, that text and every rewording with the same significant words are similar. |
| Fingerprint.SimilarVerdictIgnoresCase | utils.py:24-37 | A text and its lower-case form get the same verdict against any recorded set. |
| Fingerprint.SimilarVerdictIgnoresLateWords | utils.py:30-37 | Adding significant words that sort after the tenth smallest never changes the verdict. |
| Fingerprint.SimilarityHashIgnoresOrder | utils.py:30 | Texts with the same significant words in any order hash alike. |
| Fingerprint.SimilarityHashIgnoresCase | utils.py:24 | Lower-casing the text does not change the similarity hash. |
| Fingerprint.SimilarityHashIgnoresLateWords | utils.py:30-31 | Adding words that sort after the tenth does not change the hash. |
| Fingerprint.SmallestIgnoreLate | utils.py:30-31 | The first `n` sorted words are unchanged by words that sort after the n-th. |
| Fingerprint.MessageId | bot.py:160 | `<channel>_<number>` starts with the channel name followed by `_`. |
| Fingerprint.MessageIdInjective | bot.py:160 | Different channel/number pairs give different store keys. |
| Fingerprint.ContentKeySeparatesChannels | bot.py:152 | Equal `channel + text` inputs come from equal pairs unless one channel name prefixes the other. |
| Scoring.TermsPresent | bot.py:38-62 | Counts matched terms; never more than the list has. |
| Scoring.TermsPresentZero | bot.py:38-62 | The count is zero iff no term occurs in the text. |
| Scoring.TermsPresentCounts | bot.py:38-62 | A term that occurs makes the count at least one. |
| Scoring.TermsAbsentFromEmpty | bot.py:38-62 | Empty text contains none of a list of non-empty terms. |
| Scoring.Capped | bot.py:38-62 | `min(count * step, cap)`: in [0, cap], equal to the cap iff the product reaches it. |
| Scoring.LengthSignal | bot.py:29-35 | +0.3 iff the length is 80-250, +0.2 elsewhere in 50-300, −0.1 iff it is above 300, 0 otherwise. |
| Scoring.PunctuationSignal | bot.py:65-67 | −0.2 iff `!`, `?` and `...` together occur more than three times, otherwise 0. |
| Scoring.CapitalSignal | bot.py:70-71 | +0.1 iff one of the first ten characters is upper-case. |
| Scoring.ExtendedCapitalsEarnBonus | bot.py:70-71 | Texts starting with Turkish İ, Polish Ł or Czech Ž earn the capital bonus. |
| Scoring.Signals | bot.py:26-71 | Each signal stays within the range the source allows for it. |
| Scoring.Clamp01 | bot.py:73 | The result lies in [0, 1], and values already inside are unchanged. |
| Scoring.ContentQuality | bot.py:24-73 | The quality score lies in [0, 1]. |
| Scoring.CappedMonotone | bot.py:38-62 | A larger term count never gives a smaller capped signal. |
| Scoring.QualityMonotone | bot.py:24-73 | Raising a bonus or lowering the promotion penalty never lowers the clamped score. |
| Scoring.PromoNeverRaises | bot.py:58-62 | Of two texts alike in every other signal, the one with at least as many promotion terms scores no higher. |
| Scoring.BiasScore | bot.py:75-85 | In [0, 1]: 0.25 per bias term present, 1.0 iff four or more are present, 0 iff none is. |
| Scoring.EmptyTextScoresBase | bot.py:24-85 | Empty text scores the base quality 0.5 and bias 0. |
| Scoring.BiasScoreIgnoresCase | bot.py:77-84 | The bias score is the same for the text and its lower-case form. |
| Scoring.StrongSignalsSaturate | bot.py:24-73 | Text of 50-300 characters with a capital among its first ten, "breaking", "official" and "government", no promotion terms and little punctuation scores exactly 1.0. |
| Store.EmptyValid | database.py:22-45 | The empty store meets the schema's uniqueness invariants. |
| Store.AddPost | database.py:155-196 | The insert fails iff a required field is missing or the message id is taken, and a failed insert changes nothing. Otherwise it appends one row under a fresh id, with the given fields and their defaults. Store invariants are kept. |
| Store.AddPostTwice | database.py:191-194 | Adding the same message a second time fails and leaves the store as after the first add. |
| Store.FindByMessageId | bot.py:160-164 | Finds a row iff the message id is taken, and the row found carries that id. |
| Store.AddedIsFound | database.py:155-196 | After a successful add the message id is found. |
| Store.FindById | database.py:234-265 | Finds a row iff the id is present, and the row found has that id. |
| Store.Restatus | database.py:240-251 | Sets the status and keeps the content. `posted_at` is stamped iff the status is posted, and `processed_at` iff it is processed. A Twitter URL given replaces the old one. |
| Store.RestatusedTwice | database.py:240-251 | Setting the same status twice at the same time, without a link, is the same as setting it once. |
| Store.UpdatePostStatus | database.py:234-265 | Succeeds iff the id exists, and a failure changes nothing. Only the row with that id changes, as `Restatus` describes. Actions and counters are untouched and store invariants are kept. |
| Store.SameKeysValid | database.py:22-45 | Changing rows without touching ids or message ids keeps the store valid. |
| Store.AnyTransitionAccepted | database.py:234-265 | Any status string is accepted for an existing item, and the row then has it. |
| Store.FindByIdAt | database.py:234-265 | With increasing ids, looking up a row's id finds that row. |
| Store.AddUserAction | database.py:267-279 | Appends exactly one action row with a fresh, larger id; posts are unchanged. |
| Store.ArchiveStale | database.py:357-361 | Every stale row becomes archived and every other row is unchanged. |
| Store.CleanupOldPosts | database.py:349-368 | Archives exactly the rows older than the cutoff that are neither posted nor pending. The count returned is their number. Nothing else changes. |
| Store.CleanupTwice | database.py:349-368 | A second cleanup with the same arguments changes nothing and reports the same count. |
| Store.StaleCountStable | database.py:357-363 | Archiving does not change the number of rows counted stale. |
| StoreQuery.SelectDistinct | database.py:213 | Filtering keeps ids distinct. |
| StoreQuery.Insert | database.py:215 | Insertion into the newest-first list adds exactly the one item. |
| StoreQuery.InsertMembers | database.py:215 | Members after insertion are the old ones plus the new item. |
| StoreQuery.InsertOrdered | database.py:215 | Insertion keeps the list newest-first. |
| StoreQuery.InsertDistinct | database.py:215 | Insertion of a new id keeps ids distinct. |
| StoreQuery.Sort | database.py:215 | Sorting is a permutation of its input. |
| StoreQuery.SortOrdered | database.py:215 | The sorted list is newest-first. |
| StoreQuery.SortDistinct | database.py:215 | Sorting keeps ids distinct. |
| StoreQuery.InsertCount | database.py:215 | Insertion adds one to a count exactly when the new item matches. |
| StoreQuery.SortCount | database.py:215 | Sorting preserves every count. |
| StoreQuery.PositionIsRank | database.py:215-217 | In a newest-first list with distinct ids, an item's position is the number of items newer than it. |
| StoreQuery.Page | database.py:216-217 | `LIMIT`/`OFFSET`: the page is the slice starting at the offset, of the size SQLite gives. |
| StoreQuery.GetPosts | database.py:198-232 | Every item returned is in the store and matches the status filter. The page size follows SQLite's rules, and never exceeds a non-negative limit. In a valid store the items are newest first, and each sits at its rank among the matching rows. |
| StoreQuery.GetPostsMembers | database.py:213-215 | The ordered rows are exactly the matching rows. |
| StoreQuery.GetPostsOrdered | database.py:215-217 | A page is newest first and positioned by rank. |
| StoreQuery.FilteredPageHasStatus | database.py:213 | Filtering by a status returns only items with that status. |
| StoreAnalytics.GetAnalytics | database.py:281-347 | The total counts the items created in the window. The by-status, by-channel and daily groups each sum to that total. Averages are 0 with no items and in [0, 1] when scores are. |
| StoreAnalytics.SumsBounded | database.py:331-344 | Score sums lie between 0 and the row count. |
| StoreAnalytics.AverageBounded | database.py:331-344 | An average of scores in [0, 1] lies in [0, 1]. |
| StoreAnalytics.AveragesInRange | database.py:331-344 | Window averages lie in [0, 1] when stored scores do. |
| StoreAnalytics.StatusCountsExact | database.py:293-299 | Status keys are distinct, and each count equals the number of window items with that status. |
| StoreAnalytics.ActionCountsExact | database.py:322-328 | Action-type keys are distinct, and each count equals the number of window actions of that type. |
| Inbound.SenderName | bot.py:130 | The first name when set, otherwise the title; empty only when both are. |
| Inbound.AnyTermOfSuffix | config.py:87-94 | A term of an appended list still matches against the combined list. |
| Inbound.LinkNeedsAddress | bot.py:148-150 | `https://` followed by a non-space is a link; a bare scheme is not. |
| Inbound.FetchMedia | bot.py:188-203 | Heavy iff a photo was downloaded to a path and its pixels are red/black heavy. A video flag needs a downloaded video. A path comes only from a download, and no media gives no kind. |
| BotPipeline.BotContext | bot.py:144-150 | The pass uses the configured blocked keywords and emoji. |
| BotPipeline.Screen | bot.py:126-172 | A stop, when there is one, is one of the screening reasons. The age check is as evidently intended: the age is the UTC instant `now` minus the message's UTC date, and under five minutes stops the message. |
| BotPipeline.ScreenAsWritten | bot.py:166-171 | A message stopped before the age check is stopped for the same reason as in `Screen`, at any clock reading. An undated message that gets that far passes. A dated one raises, and only where `Screen` would pass it or stop it as too recent. |
| BotPipeline.DatedMessageRaises | bot.py:166-171 | Every dated message that `Screen` passes makes the checks as written raise. |
| BotPipeline.ProcessMessageAsWritten | bot.py:126-289 | The loop body as written raises exactly when its checks do. It publishes, or asks the model about, only undated messages. |
| BotPipeline.OldDatedMessageRaises | bot.py:166-171 | A dated, old enough, accepted message is published by the intended loop body, while the body as written raises before scoring it. |
| BotPipeline.ScreenPassesIffNoFailure | bot.py:126-172 | A message passes screening iff it fails none of the checks. |
| BotPipeline.ScreenIsFirstFailure | bot.py:126-172 | A stopped message fails the check that stopped it and passes every earlier check. |
| BotPipeline.ScreenPassed | bot.py:127-164 | A message that passes has text and a sender, and its store key is free. |
| BotPipeline.SeenOnlyIfInSet | bot.py:155-157 | Only a hash already in the set read at the start stops a message as seen. |
| BotPipeline.ProcessMessage | bot.py:118-289 | The loop body keeps the store valid and adds no actions. A hash is saved iff the message is stored as rejected or published, and the hash saved is the message's key. |
| BotPipeline.Classify | bot.py:206-285 | After the model is asked, the same hash and store guarantees hold. |
| BotPipeline.StoreAndPost | bot.py:247-285 | A hash is saved iff the item is published. In a valid store, an input that violates nothing adds exactly one posted row and changes nothing else. |
| BotPipeline.PostedFreshRow | bot.py:247-278 | The pending insert followed by the posted update is the one new row, restatused. |
| BotPipeline.ScreenedLeavesNoTrace | bot.py:126-172 | A screened-out message changes neither the store nor the hash file, and costs no model call. |
| BotPipeline.HeavyPhotoDropped | bot.py:195-203 | A heavy photo is dropped before the model, unstored and unhashed; otherwise the model is asked. |
| BotPipeline.DeclinedStoredAsRejected | bot.py:209-235 | An empty or SKIP answer stores exactly one rejected, non-geopolitical row with the scores and saves the hash. |
| BotPipeline.ShortTranslationDropped | bot.py:238-240 | A translation under ten characters is neither stored nor hashed. |
| BotPipeline.RestatusFreshRow | bot.py:278 | Restatusing the freshly appended row changes only that row. |
| BotPipeline.AcceptedIsPublished | bot.py:247-285 | An accepted translation is stored under a fresh id as posted and stamped. Its hash is saved and nothing else changes. |
| BotPipeline.ClassifyAccepted | bot.py:247-285 | The same, stated for the model's verdict once past screening. |
| BotPipeline.RowRecords | bot.py:247-265 | The stored row records the channel, message, scores, classification and translation. |
| BotPipeline.ZionistTextBlocked | bot.py:144-146 | Text with a zionist-family term is stopped as a blocked keyword and leaves the store unchanged. |
| BotPipeline.DottedCapitalsBlocked | bot.py:141-146 | "DEM PARTİSİ", in Turkish capitals, fails the blocked-keyword check. |
| BotPipeline.PassFrom | bot.py:126-289 | No message before the published one was published. With none published, every message is handled. |
| BotPipeline.ProcessChannel | bot.py:118-289 | At most four messages are handled and none before the publication is published; all of them are handled when nothing is. |
| BotPipeline.PassAfterFirst | bot.py:126-289 | After an unpublished first message the pass continues with the second. |
| BotPipeline.HashSetReadOnce | bot.py:155-157 | A duplicate later in the same pass is not stopped as seen, even if the first copy's hash was saved. |
| MainPipeline.Screen | main.py:244-282 | A stop, when there is one, is a screening reason. |
| MainPipeline.DottedCapitalsBlocked | main.py:262-266 | "DEM PARTİSİ", in Turkish capitals, fails the blocked-keyword check. |
| MainPipeline.ScreenPassesIffNoFailure | main.py:244-282 | A message passes screening iff it fails no check. |
| MainPipeline.ScreenIsFirstFailure | main.py:244-282 | A stopped message fails the check that stopped it and passes every earlier one. |
| MainPipeline.EmptyAllowListAcceptsNobody | main.py:258-260 | An empty allow-list stops every message with text and a sender. |
| MainPipeline.GeoAcceptsYesInAnyCase | main.py:122-126 | "yes" in any case is accepted, and a failed call is a no. |
| MainPipeline.GeoRejectsOthers | main.py:122-126 | A stripped answer that is not three letters, and "NO", are rejected. |
| MainPipeline.Importance | main.py:142-147 | A failed importance call yields "Bilinmiyor". |
| MainPipeline.Decide | main.py:284-344 | The geo question is always asked, and a translation needs the importance answer. A hash is saved iff the message is sent, and it is the message's key. A sent message carries the translation, and goes to Twitter iff the importance is one of the two top levels. |
| MainPipeline.ProcessMessage | main.py:244-355 | Model calls are made in order, a hash is saved iff the message is sent, and the Twitter flag follows importance. |
| MainPipeline.ScreenedBeforeModel | main.py:244-282 | A screened-out message costs no model call and leaves no hash. |
| MainPipeline.GeoGate | main.py:284-286 | After screening, the geo answer alone decides whether importance is asked. |
| MainPipeline.UnimportantNotTranslated | main.py:288-303 | "Önemsiz" is dropped before translation; every other level is translated. |
| MainPipeline.HeavyPhotoAfterTranslation | main.py:315-332 | A heavy photo is dropped after translation, and its hash is not saved. |
| MainPipeline.AcceptedIsSent | main.py:302-344 | A message past every gate is sent and its hash saved, even with an empty translation; only the top two levels go to Twitter. |
| MainPipeline.ChannelRun | main.py:244 | A channel run handles `min(4, history)` messages. |
| MainPipeline.SavedHashes | main.py:344 | A run appends at most one hash per message. |
| MainPipeline.OneHashPerSend | main.py:336-344 | A pass appends one hash per message sent: the keys of the sent messages, in the order they were read, and nothing else. |
| MainPipeline.SavedAreSentKeys | main.py:344-355 | Steps that save their own message's key exactly when they send append the sent messages' keys, in order. |
| MainPipeline.SavedMatchesSent | main.py:344-355 | When each step saves iff it sends, the lines appended number the sends. |
| MainPipeline.RepostJudgedAlike | main.py:244-344 | A copy with the same text, sender and media gets the same outcome. |
| MainPipeline.ScreenAlike | main.py:244-282 | Screening looks only at text and sender. |
| MainPipeline.RepostSentTwice | main.py:236-344 | A repost within one pass is sent twice and its hash appended twice. |
| MainPipeline.MainPass | main.py:236-355 | A pass has one run per configured channel, each at most four messages. |
| MainPipeline.SentCountBounded | main.py:355 | A run sends no more messages than it has. |
| MainPipeline.NewMessagesBounded | main.py:355 | A pass sends at most four messages per channel. |
| MainPipeline.PassSendsAtMostTwelve | main.py:42-55 | A pass over the three channels sends at most twelve messages. |
| Api.ClampLimit | api_server.py:74-77 | `limit` is forced into [1, 100], and in-range values are unchanged. |
| Api.ClampDays | api_server.py:252-256 | Analytics `days` is forced into [1, 30], and in-range values are unchanged. |
| Api.RetentionDays | api_server.py:398-402 | Cleanup `days` is raised to at least 7. |
| Api.GetPostsEndpoint | api_server.py:62-97 | Fails iff `limit` or `offset` does not parse. Otherwise the limit is the parsed value clamped into [1, 100], or 50 by default, and the offset is the parsed value, or 0. The items are the `get_posts` page for that limit and offset: store items matching the status, where item i has exactly offset + i newer matching items. |
| Api.PostsPagesTile | api_server.py:62-97 | Paging with a fixed limit of at most 50 misses and repeats nothing: the pages at offset o and o + limit together are the page at o of twice the limit. |
| StoreQuery.GetPostsPagesTile | database.py:198-232 | Two adjacent `get_posts` pages of the same size make up the page of twice the size. |
| Api.GetPostAsWritten | api_server.py:99-124 | An item found is in the store and has the requested id. |
| Api.GetPostMissesOlderItems | api_server.py:105-106 | An item with at least 50 newer items is not found, though it exists. |
| Api.GetPostById | api_server.py:99-124 | Found iff the id exists, and the item has it. |
| Api.GetPostByIdExact | api_server.py:99-124 | Every stored item is found by its id. |
| Api.ActionStatus | api_server.py:150-158 | The new status is `processed` iff the action is not one of the five valid ones. |
| Api.ActionStatusInjective | api_server.py:150-156 | Different valid actions give different statuses. |
| Api.ForwardedUrl | api_server.py:161-163 | A Twitter URL is forwarded only for `post_twitter` with a non-empty URL. |
| Api.PostAction | api_server.py:126-189 | A missing body is a 500. An invalid action is a 400, and a missing item is a 404. Every failure leaves the store unchanged. On success the item takes the action's status with its content kept. `posted_at` or `processed_at` is stamped as `update_post_status` does, and the Twitter link changes only for `post_twitter`. Exactly one action row is recorded, and the store stays valid. |
| Api.PostTwitterRecordsUrl | api_server.py:161-166 | `post_twitter` with a URL makes the item posted, with that URL and the posting time. |
| Api.BatchStatus | api_server.py:212-219 | The batch status is `processed` iff the action is not delete, archive, approve or reject. |
| Api.BatchStatusAgainstSingle | api_server.py:150-158 | The batch status map agrees with the single-item map except for `post_twitter`, which the batch marks `processed`. |
| Api.BatchStep | api_server.py:209-229 | One id succeeds iff it exists. It changes only that item: status set, content kept, and timestamps stamped as `update_post_status` does. It appends one action row only on success. |
| Api.BatchAction | api_server.py:191-244 | A missing body is a 500 and an empty id list or action is a 400; both leave the store unchanged. Otherwise there is one result per id, succeeding iff the item exists, and the count is the number of successes. Exactly the successful items get the batch status, with content kept and timestamps stamped as `update_post_status` does. One action row per success is appended, and the store stays valid. |
| Api.ActionPostIds | api_server.py:223 | One post id per action row, in order: the k-th id is the k-th action's post. |
| Api.AnalyticsEndpoint | api_server.py:246-271 | Fails iff `days` does not parse. Otherwise it reports `get_analytics` for the parsed `days` clamped into [1, 30], or 7 by default. |
| Api.AnalyticsWindowCapped | api_server.py:252-256 | Any `days` of 30 or more reports the same analytics as 30. |
| Api.RequestedDays | api_server.py:399-401 | Absent `days` is 30, a boolean compares as 1 or 0, and any other non-number makes the comparison fail. |
| Api.CleanupEndpoint | api_server.py:392-417 | Fails with 500 iff `days` is not a number or boolean. Otherwise it sweeps with 30 when `days` is absent, with `days` when it is at least 7, and with 7 otherwise. |
| Api.CleanupKeepsLastWeek | api_server.py:392-417 | A cleanup that runs never archives an item from the last seven days, whatever `days` says. |
| Api.ResolveMediaPath | api_server.py:319-338 | A name containing `..` or starting with `/` is refused. Names already under `media/` are kept, and others are placed there. |
| Api.MediaPathConfined | api_server.py:326-338 | Every served path lies under `media/` and contains no `..`. |
| Api.ServeMedia | api_server.py:319-342 | Refused iff the path is refused. Otherwise the existing file is served, and a missing file is reported as such. |
| Client.Merge | mobile-app/src/context/ApiContext.tsx:97 | `{...post, ...updates}`: fields given overwrite the item's, and the rest are kept. |
| Client.UpdateMatching | mobile-app/src/context/ApiContext.tsx:95-99 | Only items with the id change, and they are merged. |
| Client.Reduce | mobile-app/src/context/ApiContext.tsx:78-104 | Each action changes only its own field. Setting data clears `loading`, and an unknown action changes nothing. |
| Client.UpdateUnlistedIsNoop | mobile-app/src/context/ApiContext.tsx:92-100 | Updating an id that is not listed changes nothing. |
| Client.UpdateIdempotent | mobile-app/src/context/ApiContext.tsx:92-100 | Applying the same update twice equals applying it once. |
| Client.UpdatesOnDistinctIdsCommute | mobile-app/src/context/ApiContext.tsx:92-100 | Updates to different ids commute. |
| Client.OrElse | mobile-app/src/context/ApiContext.tsx:162 | JavaScript `a \|\| b`: an absent or empty string falls back. |
| Client.ErrorMessage | mobile-app/src/context/ApiContext.tsx:155-198 | 404 gives the not-found text, 500 the server-error text, 401 the authentication text and 403 the permission text, and no answer gives the network text. Other server answers give the server's `error`, then `message`, then the default. |
| Client.FixedCodesIgnoreBody | mobile-app/src/context/ApiContext.tsx:164-176 | For 404, 500, 401 and 403 the message depends on the code alone, not on the body or the default. |
| Client.OtherCodesShowServerError | mobile-app/src/context/ApiContext.tsx:162 | For any other code a non-empty server `error` is what is shown; without one, `message` and then the default. |
| Client.ServerErrorHidesBody | mobile-app/src/context/ApiContext.tsx:159-176 | A 500 shows the fixed text whatever the body says, and a 400 shows the server's error. |
| Client.FetchPosts | mobile-app/src/context/ApiContext.tsx:200-225 | There are at most three attempts, and every one before the last failed retryably. Loading ends, and the last attempt decides the posts or the error. |
| Client.FetchRetriesBounded | mobile-app/src/context/ApiContext.tsx:217-220 | A fetch makes at most three requests, and a non-retryable failure makes only one. |
| Client.PerformAction | mobile-app/src/context/ApiContext.tsx:227-255 | On success the item takes the server's new status with its other fields kept, the other items are untouched, and nothing else in the state changes. A failure keeps the items, stores the error message and clears loading, and changes nothing else. |
| Client.PerformActionMirrorsServer | mobile-app/src/context/ApiContext.tsx:240-246 | After a successful action the app shows the status the server stored. |
| Client.UpdateEach | mobile-app/src/context/ApiContext.tsx:272-280 | Repeated updates change only the items. |
| Client.UpdateEachEffect | mobile-app/src/context/ApiContext.tsx:272-280 | Listed items with one of the ids take the status with their other fields kept, and every other item is unchanged. |
| Client.BatchStatusAsWritten | mobile-app/src/context/ApiContext.tsx:277 | The app's batch status is `deleted` iff the action is delete. |
| Client.BatchStatusMismatch | mobile-app/src/context/ApiContext.tsx:277 | For archive, approve and reject the app's status disagrees with the server's. |
| Client.BatchActionAsWritten | mobile-app/src/context/ApiContext.tsx:257-289 | After success the matching items take the app's status with their other fields kept, every other item is unchanged, and the rest of the state is as before. A failure stores the error, clears loading and changes nothing else. |
| Client.BatchArchiveShownAsProcessed | mobile-app/src/context/ApiContext.tsx:277 | For an archive batch, a listed item shows processed as written and archived once corrected. An unlisted item is the same in both. |
| Client.BatchAction | mobile-app/src/context/ApiContext.tsx:257-289 | After success the matching items take the server's batch status with their other fields kept, and the other items and the rest of the state are unchanged. A failure stores the error, clears loading and changes nothing else. |
| Client.BatchAgreesWithSingleAction | mobile-app/src/context/ApiContext.tsx:272-280 | Apart from `post_twitter`, the corrected batch shows the same status as a single action. |

## Left out

- Telegram I/O is not modelled: the client, message download, sending to the chat and to Twitter, and the sleeps between sends. Messages, downloads and replies are parameters.
- MD5 is a parameter `hash`; digest collisions are not reasoned about.
- OpenAI calls are not modelled: each answer is a parameter, and `None` stands for a call that raised. Token usage and CSV logging are dropped.
- Reading and appending `sent_hashes.txt` is a set parameter plus the list of lines a pass appends.
- Image decoding and resizing with PIL and numpy are not modelled. The filter receives the decoded pixels, or `None` when opening failed.
- Base64 decoding and temporary-file creation in `get_session_file` are one parameter `decodes` and one path; the local file's existence does not change the result.
- The outer `while True` loops, their sleeps and their top-level exception handlers are not modelled; one pass is.
- Login, JWT, rate limits, password hashing and `seed_users` are not modelled because they are not part of the decisions.
- The login, health, logo, header, index and stats endpoints are left out; they serve no item decision.
- The `notes` keyword of `update_post_status` is dropped: no caller passes it and the posts table has no such column.
- `get_post_by_message_id` is called by `bot.py` but not defined in `database.py`; it is modelled as a lookup by message id.
- Timestamps are whole seconds, not ISO strings. `ORDER BY created_at DESC` breaks ties by larger id.
  - The source compares text, not instants. SQLite's `CURRENT_TIMESTAMP` writes `created_at` as UTC 'YYYY-MM-DD HH:MM:SS'. The cleanup and analytics cutoffs are `datetime.now().isoformat()`, which is local time written as 'YYYY-MM-DDTHH:MM:SS.ffffff'.
  - Since ' ' sorts before 'T', every row created on the cutoff's calendar date compares as earlier than the cutoff, whatever its time of day. The cleanup (database.py:354-361) counts it as stale, and the analytics window (database.py:288-338) leaves it out. A server clock that is not on UTC moves the cutoff by the offset as well.
  - Api.CleanupKeepsLastWeek and the analytics window of StoreAnalytics.GetAnalytics and Api.AnalyticsEndpoint therefore hold for the integer model's instants. In the source they hold only up to that boundary day and the time-zone offset.
- The app's `Partial<Post>` update carries only status and Twitter URL; other fields are carried along unchanged.
- `fetchAnalytics`, `fetchStats`, the stored API URL (`loadApiUrl` and `setApiUrl`), toast messages and the retry delay timing are not modelled.
- `telegram_conflict_bot.py`, `split_session_simple.py`, `start.py`, the `check_*` scripts and the app's screens are outside the modelled core.
- `\s` is Python's full `str.isspace` set.
- Text.Lower: lower-cases ASCII, Latin-1, all of Latin Extended-A and Cyrillic with its supplement; İ becomes `i` plus a combining dot above, as in Python. Greek (with its final-sigma rule), Armenian, Georgian, Latin Extended-B and the other cased scripts, and letter-like capitals such as the Kelvin sign, are left unchanged where Python lower-cases them.
- BotPipeline.Screen: the age check is modelled as intended, with the age measured from a UTC clock reading `now`. As written, `bot.py` raises at that check for every dated message; "## Findings" records this, and `BotPipeline.ScreenAsWritten` models it. The loop body, the pass and their lemmas use the intended check.
- BotPipeline.Screen: the keyword test sees the text as `Text.Lower` gives it, so a keyword spelled in capitals of an unmapped script (Greek, say) is missed where Python catches it.
- MainPipeline.Screen: the keyword test sees the text as `Text.Lower` gives it, so a keyword spelled in capitals of an unmapped script (Greek, say) is missed where Python catches it.
- Scoring.CapitalSignal: a capital counts only in the scripts `Text.Lower` maps; Greek, Armenian and other capitals for which Python's `isupper` holds earn no bonus here.
- Fingerprint.StripPunctuation: `\w` is modelled for ASCII, the letters and numerals of Latin-1, Latin Extended-A and -B, Greek, Cyrillic, Hebrew and Arabic. Letters and digits of other scripts (CJK, Devanagari, Thai, ...) are deleted as punctuation where Python keeps them.
- Scoring.ContentQuality: scores are exact reals. Python adds floats, so 0.8 + 0.15 gives 0.9500000000000001 and a score can differ from the model's in its last bits; the clamp makes the saturated 1.0 and the empty-text 0.5 exact in both.
- Api.CleanupKeepsLastWeek: `days` is an integer or boolean here. A float `days` (10.5) is accepted by Python and sweeps with a fractional cutoff, and a `days` so large that the cutoff falls before year 1 makes Python raise and answer 500; neither is modelled.
- Store.AddPost: a key present with the value `None` is taken as absent, so the model applies the `.get` default (0.0, 0.0, `pending`, 1) where Python inserts NULL.
- StoreAnalytics.GetAnalytics: the per-channel and per-day groups are kept in first-occurrence order; the source sorts them by count and by date.
- Config.ParseInt: accepts optional sign and ASCII digits only; Python's underscores and non-ASCII digits are not modelled.
- Scoring.ContentQuality: its own contract states only the [0, 1] range. The exact sum is fixed by its signal functions; `EmptyTextScoresBase`, `StrongSignalsSaturate`, `QualityMonotone` and `PromoNeverRaises` state what follows from it.
- Scoring.Signals: states each signal's range, not its exact value. `LengthSignal`, `PunctuationSignal`, `CapitalSignal` and `Capped` state the exact values.
- Scoring.TermsPresent: states only the upper bound. `TermsPresentZero` and `TermsPresentCounts` give the zero and non-zero cases, not the exact count.
- MainPipeline.Importance: states only the failed-call default; a reply is stripped.
- Fingerprint.SignificantWords: states that each word is significant, not that every significant word is kept. `DropInsignificant` states that per word.
- Api.GetPostAsWritten: states only that a found item is genuine. `GetPostMissesOlderItems` shows what it misses.

## Findings

| source | as written | input that shows it | evidently intended | confidence | as-written member | corrected member |
|---|---|---|---|---|---|---|
| api_server.py:105-106 | `get_post` searches only `db.get_posts()`, the 50 newest items. | A store of 51 items; asking for the oldest gives 404 although it exists. | Look the item up by id in the whole store. | high, not executed | Api.GetPostAsWritten, Api.GetPostMissesOlderItems | Api.GetPostById, Api.GetPostByIdExact |
| mobile-app/src/context/ApiContext.tsx:277 | After a batch the app sets `deleted` for delete and `processed` for everything else. | A batch archive: the server stores `archived`, the app shows `processed`. | Show the status the server stores for the action. | high, not executed | Client.BatchStatusAsWritten, Client.BatchActionAsWritten, Client.BatchStatusMismatch, Client.BatchArchiveShownAsProcessed | Client.BatchAction, Client.BatchAgreesWithSingleAction |
| bot.py:166-171 | The age is `datetime.now() - message.date`: naive local time minus Telegram's timezone-aware UTC date, which raises `TypeError`. There is no `try` around it, so `process_channel` ends with the exception. | Any dated message with text, an allowed sender, no blocked term, link or emoji, an unseen hash and a free store key. | Compute the age against the current UTC time and skip only messages younger than five minutes. | high, not executed | BotPipeline.ScreenAsWritten, BotPipeline.ProcessMessageAsWritten, BotPipeline.DatedMessageRaises, BotPipeline.OldDatedMessageRaises | BotPipeline.Screen, BotPipeline.ProcessMessage, BotPipeline.AcceptedIsPublished |

=== FILE: api.dfy ===
/**
  The decision logic of the review API's endpoints over the item store:
  parameter parsing and clamping, action validation, the action-to-status
  maps, per-item batch results, and the media path check. Authentication,
  rate limiting and HTTP plumbing are outside the model; a handler that
  raises answers 500, here `ServerError`.
*/
module Api {
  import opened Common
  import opened Text
  import opened Config
  import opened Store
  import opened StoreQuery
  import opened StoreAnalytics

  /** Page size when the request gives none, also `get_posts`'s own default. */
  const DefaultLimit: int := 50
  const MaxLimit: int := 100
  const DefaultAnalyticsDays: int := 7
  const MaxAnalyticsDays: int := 30
  const DefaultRetentionDays: int := 30
  const MinRetentionDays: int := 7

  // ---------------------------------------------------------------------------
  // Parameter clamping
  // ---------------------------------------------------------------------------

  /** `limit` forced into [1, 100]. */
  function ClampLimit(limit: int): (r: int)
    ensures 1 <= r <= MaxLimit
    ensures 1 <= limit <= MaxLimit ==> r == limit
    ensures limit > MaxLimit ==> r == MaxLimit
    ensures limit < 1 ==> r == 1
  {
    if limit > MaxLimit then MaxLimit else if limit < 1 then 1 else limit
  }

  /** Analytics `days` forced into [1, 30]. */
  function ClampDays(days: int): (r: int)
    ensures 1 <= r <= MaxAnalyticsDays
    ensures 1 <= days <= MaxAnalyticsDays ==> r == days
    ensures days > MaxAnalyticsDays ==> r == MaxAnalyticsDays
    ensures days < 1 ==> r == 1
  {
    if days > MaxAnalyticsDays then MaxAnalyticsDays else if days < 1 then 1 else days
  }

  /** Cleanup `days` raised to at least 7, with no upper bound. */
  function RetentionDays(days: int): (r: int)
    ensures r >= MinRetentionDays
    ensures days >= MinRetentionDays ==> r == days
    ensures days < MinRetentionDays ==> r == MinRetentionDays
  {
    if days < MinRetentionDays then MinRetentionDays else days
  }

  /** A query-string integer: absent gives the default, present goes through `int()`. */
  function IntArg(arg: Option<string>, default: int): Option<int> {
    match arg
    case None => Some(default)
    case Some(s) => ParseInt(s)
  }

  // ---------------------------------------------------------------------------
  // GET /api/posts and GET /api/posts/<id>
  // ---------------------------------------------------------------------------

  datatype PostsReply = PostsPage(posts: seq<Post>, limit: int, offset: int) | PostsError

  /**
    `get_posts()`: `limit` defaults to 50 and is clamped into [1, 100];
    `offset` defaults to 0 and is passed on unclamped; a value `int()`
    rejects makes the handler fail.
  */
  function GetPostsEndpoint(db: Db, status: Option<string>, limitArg: Option<string>, offsetArg: Option<string>): (r: PostsReply)
    ensures r.PostsError? <==> IntArg(limitArg, DefaultLimit).None? || IntArg(offsetArg, 0).None?
    ensures r.PostsPage? ==> 1 <= r.limit <= MaxLimit && |r.posts| <= r.limit
    ensures r.PostsPage? && limitArg.None? ==> r.limit == DefaultLimit
    ensures r.PostsPage? && limitArg.Some? ==>
      ParseInt(limitArg.value).Some? && r.limit == ClampLimit(ParseInt(limitArg.value).value)
    ensures r.PostsPage? && offsetArg.None? ==> r.offset == 0
    ensures r.PostsPage? && offsetArg.Some? ==> Some(r.offset) == ParseInt(offsetArg.value)
    ensures r.PostsPage? ==> forall i :: 0 <= i < |r.posts| ==> r.posts[i] in db.posts && Selected(r.posts[i], status)
    ensures r.PostsPage? ==> r.posts == GetPosts(db, status, r.limit, r.offset)
    ensures r.PostsPage? && Valid(db) ==> forall i :: 0 <= i < |r.posts| ==> Rank(db.posts, status, r.posts[i]) == Skip(r.offset) + i
  {
    var limit := IntArg(limitArg, DefaultLimit);
    var offset := IntArg(offsetArg, 0);
    if limit.None? || offset.None? then PostsError
    else
      var l := ClampLimit(limit.value);
      PostsPage(GetPosts(db, status, l, offset.value), l, offset.value)
  }

  /**
    A client paging through `/api/posts` with a fixed `limit` of at most 50
    sees every item once: the pages at `offset` and `offset + limit` together
    are the page at `offset` with twice the limit.
  */
  lemma PostsPagesTile(db: Db, status: Option<string>, limit: nat, offset: nat)
    requires 1 <= limit && 2 * limit <= MaxLimit
    ensures
      var first := GetPostsEndpoint(db, status, Some(NatToString(limit)), Some(NatToString(offset)));
      var second := GetPostsEndpoint(db, status, Some(NatToString(limit)), Some(NatToString(offset + limit)));
      var both := GetPostsEndpoint(db, status, Some(NatToString(2 * limit)), Some(NatToString(offset)));
      first.PostsPage? && second.PostsPage? && both.PostsPage? && first.posts + second.posts == both.posts
  {
    NumericPostsArgs(db, status, limit, offset);
    NumericPostsArgs(db, status, limit, offset + limit);
    NumericPostsArgs(db, status, 2 * limit, offset);
    GetPostsPagesTile(db, status, limit, offset);
  }

  /** Decimal `limit` and `offset` within range reach `get_posts` unchanged. */
  lemma NumericPostsArgs(db: Db, status: Option<string>, limit: nat, offset: nat)
    requires 1 <= limit <= MaxLimit
    ensures GetPostsEndpoint(db, status, Some(NatToString(limit)), Some(NatToString(offset)))
      == PostsPage(GetPosts(db, status, limit, offset), limit, offset)
  {
    ParseIntRoundTrip(limit);
    ParseIntRoundTrip(offset);
  }

  /**
    `get_post(post_id)` as written: it searches `db.get_posts()`, whose
    default limit is 50, so only the 50 newest items can be found.
  */
  function GetPostAsWritten(db: Db, id: int): (r: Option<Post>)
    ensures r.Some? ==> r.value in db.posts && r.value.id == id
  {
    FindById(GetPosts(db, None, DefaultLimit, 0), id)
  }

  /** `get_post(post_id)` as evidently intended: a lookup by id over the whole table. */
  function GetPostById(db: Db, id: int): (r: Option<Post>)
    ensures r.Some? <==> HasPost(db.posts, id)
    ensures r.Some? ==> r.value in db.posts && r.value.id == id
  {
    FindById(db.posts, id)
  }

  /** In a valid store the lookup by id returns exactly the row carrying that id. */
  lemma GetPostByIdExact(db: Db, i: nat)
    requires Valid(db) && i < |db.posts|
    ensures GetPostById(db, db.posts[i].id) == Some(db.posts[i])
  {
    FindByIdAt(db.posts, i);
  }

  /**
    An item with at least 50 newer items is reported missing by `get_post`
    although it is stored; the corrected lookup finds it. A store of 51
    items created at distinct times, queried for the oldest, is an instance.
  */
  lemma GetPostMissesOlderItems(db: Db, k: nat)
    requires Valid(db) && k < |db.posts|
    requires Rank(db.posts, None, db.posts[k]) >= DefaultLimit
    ensures GetPostAsWritten(db, db.posts[k].id) == None
    ensures GetPostById(db, db.posts[k].id) == Some(db.posts[k])
  {
    var p := db.posts[k];
    var page := GetPosts(db, None, DefaultLimit, 0);
    forall i | 0 <= i < |page| ensures page[i].id != p.id {
      assert Rank(db.posts, None, page[i]) == i < DefaultLimit;
      assert page[i] != p;
      var a :| 0 <= a < |db.posts| && db.posts[a] == page[i];
      assert a != k;
    }
    assert !HasPost(page, p.id);
    FindByIdAt(db.posts, k);
  }

  // ---------------------------------------------------------------------------
  // POST /api/posts/<id>/action
  // ---------------------------------------------------------------------------

  const PostTwitter: string := "post_twitter"
  const ValidActions: seq<string> := [PostTwitter, "delete", "archive", "approve", "reject"]

  /** The single-item `status_map`, with `processed` for anything else. */
  function ActionStatus(action: string): (status: string)
    ensures status != Processed <==> action in ValidActions
  {
    if action == PostTwitter then Posted
    else if action == "delete" then Deleted
    else if action == "archive" then Archived
    else if action == "approve" then Approved
    else if action == "reject" then Rejected
    else Processed
  }

  /** Distinct valid actions lead to distinct statuses. */
  lemma ActionStatusInjective(a: string, b: string)
    requires a in ValidActions && b in ValidActions && a != b
    ensures ActionStatus(a) != ActionStatus(b)
  {
  }

  /** The body of an action request; `None` fields are absent keys. */
  datatype ActionBody = ActionBody(actionType: Option<string>, notes: Option<string>, twitterUrl: Option<string>)

  datatype ActionReply = BadRequest | NotFound | ServerError | Done(newStatus: string)

  datatype ActionResult = ActionResult(db: Db, reply: ActionReply)

  /** `if not action_type`, then membership in the valid list. */
  predicate IsValidAction(action: Option<string>) {
    action.Some? && action.value != "" && action.value in ValidActions
  }

  /** The Twitter link passed on: only for `post_twitter`, and only when non-empty. */
  function ForwardedUrl(body: ActionBody): (url: Option<string>)
    ensures url.Some? ==> body.actionType == Some(PostTwitter) && body.twitterUrl == url && url.value != ""
  {
    if body.actionType == Some(PostTwitter) && body.twitterUrl.Some? && body.twitterUrl.value != "" then body.twitterUrl
    else None
  }

  /**
    `post_action(post_id)`: a body that is not JSON fails; a missing, empty
    or unknown action is refused with 400 before the store is touched; an
    unknown id gives 404 with nothing recorded; otherwise the item takes the
    mapped status and exactly one action row is appended.
  */
  function PostAction(db: Db, postId: int, body: Option<ActionBody>, now: int): (r: ActionResult)
    ensures body.None? <==> r.reply == ServerError
    ensures body.Some? ==> (r.reply == BadRequest <==> !IsValidAction(body.value.actionType))
    ensures r.reply == NotFound <==> body.Some? && IsValidAction(body.value.actionType) && !HasPost(db.posts, postId)
    ensures !r.reply.Done? ==> r.db == db
    ensures r.reply.Done? ==> body.Some? && IsValidAction(body.value.actionType) && HasPost(db.posts, postId)
    ensures r.reply.Done? ==> r.reply.newStatus == ActionStatus(body.value.actionType.value)
    ensures r.reply.Done? ==>
      && |r.db.posts| == |db.posts|
      && (forall i :: 0 <= i < |db.posts| && db.posts[i].id == postId ==>
            Restatused(db.posts[i], r.db.posts[i], r.reply.newStatus, ForwardedUrl(body.value), now))
      && (forall i :: 0 <= i < |db.posts| && db.posts[i].id != postId ==> r.db.posts[i] == db.posts[i])
    ensures r.reply.Done? ==>
      && |r.db.actions| == |db.actions| + 1
      && r.db.actions[..|db.actions|] == db.actions
      && r.db.actions[|db.actions|].postId == postId
      && r.db.actions[|db.actions|].actionType == body.value.actionType.value
      && r.db.actions[|db.actions|].notes == Some(body.value.notes.GetOr(""))
    ensures r.reply.Done? && body.value.actionType != Some(PostTwitter) ==>
      forall i :: 0 <= i < |db.posts| ==> r.db.posts[i].twitterUrl == db.posts[i].twitterUrl
    ensures Valid(db) ==> Valid(r.db)
  {
    match body
    case None => ActionResult(db, ServerError)
    case Some(b) =>
      if !IsValidAction(b.actionType) then ActionResult(db, BadRequest)
      else
        var status := ActionStatus(b.actionType.value);
        var updated := UpdatePostStatus(db, postId, status, ForwardedUrl(b), now);
        if !updated.success then ActionResult(db, NotFound)
        else ActionResult(AddUserAction(updated.db, postId, b.actionType.value, Some(b.notes.GetOr("")), now), Done(status))
  }

  /** A published item records the Twitter link it was given. */
  lemma PostTwitterRecordsUrl(db: Db, i: nat, url: string, notes: Option<string>, now: int)
    requires i < |db.posts| && url != ""
    ensures PostAction(db, db.posts[i].id, Some(ActionBody(Some(PostTwitter), notes, Some(url))), now).reply == Done(Posted)
    ensures PostAction(db, db.posts[i].id, Some(ActionBody(Some(PostTwitter), notes, Some(url))), now).db.posts[i].twitterUrl == Some(url)
    ensures PostAction(db, db.posts[i].id, Some(ActionBody(Some(PostTwitter), notes, Some(url))), now).db.posts[i].postedAt == Some(now)
  {
    assert PostTwitter in ValidActions;
  }

  // ---------------------------------------------------------------------------
  // POST /api/posts/batch-action
  // ---------------------------------------------------------------------------

  /** The batch `status_map`: no entry for `post_twitter`, `processed` for anything unlisted. */
  function BatchStatus(action: string): (status: string)
    ensures status == Processed <==> action !in ["delete", "archive", "approve", "reject"]
  {
    if action == "delete" then Deleted
    else if action == "archive" then Archived
    else if action == "approve" then Approved
    else if action == "reject" then Rejected
    else Processed
  }

  /** The two maps agree on every action except `post_twitter`, which a batch turns into `processed`. */
  lemma BatchStatusAgainstSingle(action: string)
    ensures action != PostTwitter ==> BatchStatus(action) == ActionStatus(action)
    ensures BatchStatus(PostTwitter) == Processed && ActionStatus(PostTwitter) == Posted
  {
  }

  datatype BatchBody = BatchBody(postIds: Option<seq<int>>, actionType: Option<string>, notes: Option<string>)

  datatype ItemResult = ItemResult(postId: int, success: bool)

  datatype BatchReply = BatchBadRequest | BatchServerError | BatchDone(results: seq<ItemResult>, successfulCount: nat)

  /** Ids of the successful results, in order. */
  function SucceededIds(results: seq<ItemResult>): seq<int> {
    if |results| == 0 then []
    else
      var last := results[|results| - 1];
      SucceededIds(results[..|results| - 1]) + (if last.success then [last.postId] else [])
  }

  /** Post ids of a run of action rows, in order. */
  function ActionPostIds(actions: seq<UserAction>): (ids: seq<int>)
    ensures |ids| == |actions|
    ensures forall k :: 0 <= k < |ids| ==> ids[k] == actions[k].postId
  {
    if |actions| == 0 then []
    else ActionPostIds(actions[..|actions| - 1]) + [actions[|actions| - 1].postId]
  }

  /** One iteration of the batch loop: the status update, and an action row when it succeeded. */
  function BatchStep(db: Db, id: int, action: string, notes: string, now: int): (r: (Db, bool))
    ensures r.1 <==> HasPost(db.posts, id)
    ensures |r.0.posts| == |db.posts|
    ensures forall i :: 0 <= i < |db.posts| ==> r.0.posts[i].id == db.posts[i].id
    ensures forall i :: 0 <= i < |db.posts| ==>
      if db.posts[i].id == id then Restatused(db.posts[i], r.0.posts[i], BatchStatus(action), None, now)
      else r.0.posts[i] == db.posts[i]
    ensures r.1 ==>
      && |r.0.actions| == |db.actions| + 1
      && r.0.actions[..|db.actions|] == db.actions
      && r.0.actions[|db.actions|].postId == id
      && r.0.actions[|db.actions|].actionType == action
    ensures !r.1 ==> r.0.actions == db.actions
    ensures Valid(db) ==> Valid(r.0)
  {
    var updated := UpdatePostStatus(db, id, BatchStatus(action), None, now);
    if updated.success then (AddUserAction(updated.db, id, action, Some(notes), now), true)
    else (updated.db, false)
  }

  /** `not post_ids or not action_type`. */
  predicate BatchRefused(b: BatchBody) {
    b.postIds.None? || |b.postIds.value| == 0 || b.actionType.None? || b.actionType.value == ""
  }

  /**
    `batch_action()`: refuses an empty id list or action with 400, but does
    not validate the action. Each id in turn gets the batch status; the
    result list has one entry per id, in order, successful exactly for the
    ids present in the store; `successful_count` counts them, and one action
    row is appended per success, in the same order.
  */
  method BatchAction(db: Db, body: Option<BatchBody>, now: int) returns (next: Db, reply: BatchReply)
    ensures body.None? <==> reply == BatchServerError
    ensures reply == BatchBadRequest <==> body.Some? && BatchRefused(body.value)
    ensures !reply.BatchDone? ==> next == db
    ensures reply.BatchDone? ==> body.Some? && !BatchRefused(body.value)
    ensures reply.BatchDone? ==> |reply.results| == |body.value.postIds.value|
    ensures reply.BatchDone? ==> forall i :: 0 <= i < |reply.results| ==>
      reply.results[i].postId == body.value.postIds.value[i] &&
      (reply.results[i].success <==> HasPost(db.posts, body.value.postIds.value[i]))
    ensures reply.BatchDone? ==> reply.successfulCount == |SucceededIds(reply.results)|
    ensures reply.BatchDone? ==>
      |next.actions| >= |db.actions| && next.actions[..|db.actions|] == db.actions &&
      ActionPostIds(next.actions[|db.actions|..]) == SucceededIds(reply.results)
    ensures reply.BatchDone? ==> forall i :: |db.actions| <= i < |next.actions| ==>
      next.actions[i].actionType == body.value.actionType.value
    ensures |next.posts| == |db.posts|
    ensures reply.BatchDone? ==> forall i :: 0 <= i < |db.posts| ==>
      if db.posts[i].id in body.value.postIds.value
      then Restatused(db.posts[i], next.posts[i], BatchStatus(body.value.actionType.value), None, now)
      else next.posts[i] == db.posts[i]
    ensures Valid(db) ==> Valid(next)
  {
    if body.None? {
      return db, BatchServerError;
    }
    var b := body.value;
    if BatchRefused(b) {
      return db, BatchBadRequest;
    }
    var ids := b.postIds.value;
    var action := b.actionType.value;
    var status := BatchStatus(action);
    var notes := b.notes.GetOr("");
    var results: seq<ItemResult> := [];
    var count := 0;
    next := db;
    for k := 0 to |ids|
      invariant BatchLoop(db, ids, k, action, status, now, next, results, count)
      invariant Valid(db) ==> Valid(next)
    {
      var step := BatchStep(next, ids[k], action, notes, now);
      BatchLoopStep(db, ids, k, action, now, next, results, count, step.0, step.1);
      results := results + [ItemResult(ids[k], step.1)];
      if step.1 {
        count := count + 1;
      }
      next := step.0;
    }
    assert ids[..|ids|] == ids;
    reply := BatchDone(results, count);
  }

  /**
    After the ids in `done` were processed, `cur` keeps the ids of `orig`
    position by position, every post whose id was processed has been
    restatused to the batch status at `now`, and the others are untouched.
  */
  predicate BatchedSoFar(orig: seq<Post>, cur: seq<Post>, done: seq<int>, status: string, now: int) {
    && |cur| == |orig|
    && (forall i :: 0 <= i < |orig| ==> cur[i].id == orig[i].id)
    && (forall i :: 0 <= i < |orig| ==>
         if orig[i].id in done then Restatused(orig[i], cur[i], status, None, now) else cur[i] == orig[i])
  }

  /** One more id processed by a step that restatuses its posts to the batch status. */
  lemma BatchedStep(orig: seq<Post>, cur: seq<Post>, nxt: seq<Post>, done: seq<int>, id: int, status: string, now: int)
    requires BatchedSoFar(orig, cur, done, status, now)
    requires |nxt| == |cur| && forall i :: 0 <= i < |cur| ==> nxt[i].id == cur[i].id
    requires forall i :: 0 <= i < |cur| ==>
      if cur[i].id == id then Restatused(cur[i], nxt[i], status, None, now) else nxt[i] == cur[i]
    ensures BatchedSoFar(orig, nxt, done + [id], status, now)
  {
    forall i | 0 <= i < |orig|
      ensures if orig[i].id in done + [id] then Restatused(orig[i], nxt[i], status, None, now) else nxt[i] == orig[i]
    {
      assert orig[i].id in done + [id] <==> orig[i].id in done || orig[i].id == id;
      if orig[i].id in done && cur[i].id == id {
        RestatusedTwice(orig[i], cur[i], nxt[i], status, now);
      }
    }
  }

  /**
    The batch loop after `k` ids: one result per id so far, the posts
    batched, the count of successes, and one action row of the batch's type
    per success appended after the existing rows.
  */
  predicate BatchLoop(db: Db, ids: seq<int>, k: nat, action: string, status: string, now: int,
                      next: Db, results: seq<ItemResult>, count: nat) {
    && k <= |ids| && |results| == k
    && (forall i :: 0 <= i < k ==> results[i].postId == ids[i] && (results[i].success <==> HasPost(db.posts, ids[i])))
    && BatchedSoFar(db.posts, next.posts, ids[..k], status, now)
    && count == |SucceededIds(results)|
    && |next.actions| >= |db.actions| && next.actions[..|db.actions|] == db.actions
    && ActionPostIds(next.actions[|db.actions|..]) == SucceededIds(results)
    && (forall i :: |db.actions| <= i < |next.actions| ==> next.actions[i].actionType == action)
  }

  /** One iteration of the batch loop, with the effect `BatchStep` promises, keeps `BatchLoop`. */
  lemma BatchLoopStep(db: Db, ids: seq<int>, k: nat, action: string, now: int,
                      next: Db, results: seq<ItemResult>, count: nat, after: Db, ok: bool)
    requires k < |ids| && BatchLoop(db, ids, k, action, BatchStatus(action), now, next, results, count)
    requires ok <==> HasPost(next.posts, ids[k])
    requires |after.posts| == |next.posts|
    requires forall i :: 0 <= i < |next.posts| ==> after.posts[i].id == next.posts[i].id
    requires forall i :: 0 <= i < |next.posts| ==>
      if next.posts[i].id == ids[k] then Restatused(next.posts[i], after.posts[i], BatchStatus(action), None, now)
      else after.posts[i] == next.posts[i]
    requires ok ==>
      && |after.actions| == |next.actions| + 1
      && after.actions[..|next.actions|] == next.actions
      && after.actions[|next.actions|].postId == ids[k]
      && after.actions[|next.actions|].actionType == action
    requires !ok ==> after.actions == next.actions
    ensures BatchLoop(db, ids, k + 1, action, BatchStatus(action), now, after,
                      results + [ItemResult(ids[k], ok)], if ok then count + 1 else count)
  {
    var id := ids[k];
    SameIdsSamePosts(next.posts, db.posts, id);
    var item := ItemResult(id, ok);
    BatchStepActions(db.actions, next.actions, after.actions, results, item, action);
    BatchedStep(db.posts, next.posts, after.posts, ids[..k], id, BatchStatus(action), now);
    assert ids[..k + 1] == ids[..k] + [id];
    ResultsStep(db.posts, ids, k, results, item);
  }

  /** The result list grows by the entry for `ids[k]`, and its successes by at most that one. */
  lemma ResultsStep(posts: seq<Post>, ids: seq<int>, k: nat, results: seq<ItemResult>, item: ItemResult)
    requires k < |ids| && |results| == k && item.postId == ids[k]
    requires item.success <==> HasPost(posts, ids[k])
    requires forall i :: 0 <= i < k ==> results[i].postId == ids[i] && (results[i].success <==> HasPost(posts, ids[i]))
    ensures forall i :: 0 <= i < k + 1 ==>
      (results + [item])[i].postId == ids[i] && ((results + [item])[i].success <==> HasPost(posts, ids[i]))
    ensures |SucceededIds(results + [item])| == |SucceededIds(results)| + (if item.success then 1 else 0)
  {
    assert (results + [item])[..|results|] == results;
  }

  /** Two tables with the same ids position by position hold the same ids. */
  lemma SameIdsSamePosts(a: seq<Post>, b: seq<Post>, id: int)
    requires |a| == |b| && forall i :: 0 <= i < |a| ==> a[i].id == b[i].id
    ensures HasPost(a, id) <==> HasPost(b, id)
  {
    if HasPost(a, id) {
      var i :| 0 <= i < |a| && a[i].id == id;
      assert b[i].id == id;
    }
    if HasPost(b, id) {
      var i :| 0 <= i < |b| && b[i].id == id;
      assert a[i].id == id;
    }
  }

  /** One batch step keeps the new action rows in step with the successful results. */
  lemma BatchStepActions(base: seq<UserAction>, before: seq<UserAction>, after: seq<UserAction>,
                         results: seq<ItemResult>, item: ItemResult, action: string)
    requires |before| >= |base| && before[..|base|] == base
    requires forall i :: |base| <= i < |before| ==> before[i].actionType == action
    requires ActionPostIds(before[|base|..]) == SucceededIds(results)
    requires item.success ==> |after| == |before| + 1 && after[..|before|] == before && after[|before|].postId == item.postId
    requires item.success ==> after[|before|].actionType == action
    requires !item.success ==> after == before
    ensures |after| >= |base| && after[..|base|] == base
    ensures ActionPostIds(after[|base|..]) == SucceededIds(results + [item])
    ensures forall i :: |base| <= i < |after| ==> after[i].actionType == action
  {
    assert (results + [item])[..|results|] == results;
    if item.success {
      assert after[..|base|] == before[..|base|];
      assert after[|base|..][..|after[|base|..]| - 1] == before[|base|..];
    }
  }

  // ---------------------------------------------------------------------------
  // GET /api/analytics and POST /api/cleanup
  // ---------------------------------------------------------------------------

  /**
    `get_analytics()`: `days` defaults to 7 and is clamped into [1, 30]; a
    value `int()` rejects makes the handler fail.
  */
  function AnalyticsEndpoint(db: Db, daysArg: Option<string>, now: int): (r: Option<Analytics>)
    ensures r.None? <==> IntArg(daysArg, DefaultAnalyticsDays).None?
    ensures r.Some? ==> exists d :: 1 <= d <= MaxAnalyticsDays && r.value == GetAnalytics(db, d, now)
    ensures r.Some? ==> r.value == GetAnalytics(db, ClampDays(IntArg(daysArg, DefaultAnalyticsDays).value), now)
    ensures r.Some? && daysArg.Some? ==>
      ParseInt(daysArg.value).Some? && r.value == GetAnalytics(db, ClampDays(ParseInt(daysArg.value).value), now)
    ensures daysArg.None? ==> r == Some(GetAnalytics(db, DefaultAnalyticsDays, now))
  {
    match IntArg(daysArg, DefaultAnalyticsDays)
    case None => None
    case Some(d) => Some(GetAnalytics(db, ClampDays(d), now))
  }

  /** Any window of 30 days or more reports the same analytics as exactly 30 days. */
  lemma AnalyticsWindowCapped(db: Db, days: nat, now: int)
    requires days >= MaxAnalyticsDays
    ensures AnalyticsEndpoint(db, Some(NatToString(days)), now) == AnalyticsEndpoint(db, Some(NatToString(MaxAnalyticsDays)), now)
    ensures AnalyticsEndpoint(db, Some(NatToString(days)), now).Some?
  {
    ParseIntRoundTrip(days);
    ParseIntRoundTrip(MaxAnalyticsDays);
  }

  /**
    The `days` member of the cleanup request body as JSON delivers it: absent,
    an integer, a boolean (Python compares `True` and `False` as 1 and 0), or
    anything else — a string, `null`, a list or an object.
  */
  datatype DaysField = DaysAbsent | DaysInt(n: int) | DaysBool(b: bool) | DaysOther

  /** The number `days < 7` compares, or `None` when the comparison raises `TypeError`. */
  function RequestedDays(days: DaysField): (r: Option<int>)
    ensures r.None? <==> days.DaysOther?
  {
    match days
    case DaysAbsent => Some(DefaultRetentionDays)
    case DaysInt(n) => Some(n)
    case DaysBool(b) => Some(if b then 1 else 0)
    case DaysOther => None
  }

  /**
    `cleanup_posts()`: `days` defaults to 30 and is raised to at least 7
    before sweeping; a `days` that cannot be compared with 7 makes the handler
    answer 500 (`None`) before the store is touched.
  */
  function CleanupEndpoint(db: Db, days: DaysField, now: int): (r: Option<Cleaned>)
    ensures r.None? <==> days.DaysOther?
    ensures days.DaysAbsent? ==> r == Some(CleanupOldPosts(db, DefaultRetentionDays, now))
    ensures days.DaysInt? && days.n >= MinRetentionDays ==> r == Some(CleanupOldPosts(db, days.n, now))
    ensures days.DaysInt? && days.n < MinRetentionDays ==> r == Some(CleanupOldPosts(db, MinRetentionDays, now))
    ensures days.DaysBool? ==> r == Some(CleanupOldPosts(db, MinRetentionDays, now))
  {
    match RequestedDays(days)
    case None => None
    case Some(d) => Some(CleanupOldPosts(db, RetentionDays(d), now))
  }

  /** Whatever the request says, the sweep never archives an item created within the last 7 days. */
  lemma CleanupKeepsLastWeek(db: Db, days: DaysField, now: int)
    ensures var r := CleanupEndpoint(db, days, now);
      r.Some? ==> forall i :: 0 <= i < |db.posts| && r.value.db.posts[i] != db.posts[i] ==>
        db.posts[i].createdAt < now - MinRetentionDays * SecondsPerDay
  {
    if !days.DaysOther? {
      var d := RetentionDays(RequestedDays(days).value);
      assert d * SecondsPerDay >= MinRetentionDays * SecondsPerDay;
    }
  }

  // ---------------------------------------------------------------------------
  // GET /api/media/<path>
  // ---------------------------------------------------------------------------

  const MediaDir: string := "media/"

  /**
    The path check of `serve_media(filename)`: a name containing `..` or
    starting with `/` is refused (400); a name already under `media/` is
    kept, any other is placed under `media/`.
  */
  function ResolveMediaPath(filename: string): (r: Option<string>)
    ensures r.None? <==> Contains(filename, "..") || StartsWith(filename, "/")
    ensures r.Some? && StartsWith(filename, MediaDir) ==> r.value == filename
    ensures r.Some? && !StartsWith(filename, MediaDir) ==> r.value == MediaDir + filename
  {
    if Contains(filename, "..") || StartsWith(filename, "/") then None
    else if StartsWith(filename, MediaDir) then Some(filename)
    else Some(MediaDir + filename)
  }

  /** Every served path lies under `media/` and has no `..` in it. */
  lemma MediaPathConfined(filename: string)
    requires ResolveMediaPath(filename).Some?
    ensures StartsWith(ResolveMediaPath(filename).value, MediaDir)
    ensures !Contains(ResolveMediaPath(filename).value, "..")
  {
    var path := ResolveMediaPath(filename).value;
    if !StartsWith(filename, MediaDir) {
      assert path[..|MediaDir|] == MediaDir;
      forall i ensures !OccursAt(path, "..", i) {
        if 0 <= i && i + 2 <= |path| {
          if i >= |MediaDir| {
            assert path[i..i + 2] == filename[i - |MediaDir|..i - |MediaDir| + 2];
            assert !OccursAt(filename, "..", i - |MediaDir|);
          } else {
            assert path[i] == MediaDir[i];
          }
        }
      }
    }
  }

  datatype MediaReply = MediaRefused | MediaMissing | MediaFile(path: string)

  /** `serve_media(filename)`, with the file-system lookup as a parameter. */
  function ServeMedia(filename: string, exists_: string -> bool): (r: MediaReply)
    ensures r.MediaRefused? <==> ResolveMediaPath(filename).None?
    ensures r.MediaFile? ==> Some(r.path) == ResolveMediaPath(filename) && exists_(r.path)
    ensures r.MediaMissing? ==> ResolveMediaPath(filename).Some? && !exists_(ResolveMediaPath(filename).value)
  {
    match ResolveMediaPath(filename)
    case None => MediaRefused
    case Some(path) => if exists_(path) then MediaFile(path) else MediaMissing
  }
}

=== FILE: client.dfy ===
/**
  The review app's shared state (`ApiContext`): a reducer over the list of
  items, the analytics, the statistics, a loading flag, an error message
  and the server address, and the three flows that change the item list —
  fetching a page with retries, acting on one item, and acting on several.
  Network replies are inputs; notifications, logging, timers and device
  storage are not modelled.
*/
module Client {
  import opened Common
  import opened Store
  import opened StoreAnalytics
  import opened Api

  /** The fields of an item the app changes; the others are carried along untouched. */
  datatype ClientPost = ClientPost(id: int, status: string, twitterUrl: Option<string>, details: string)

  /** A partial item (`Partial<Post>`): the fields present overwrite the item's. */
  datatype PostUpdate = PostUpdate(status: Option<string>, twitterUrl: Option<string>)

  /** The statistics summary shown on the dashboard. */
  datatype Stats = Stats(
    totalPosts: nat, pendingPosts: nat, postedCount: nat, deletedCount: nat, archivedCount: nat,
    postRate: real, deleteRate: real)

  datatype ApiState = ApiState(
    posts: seq<ClientPost>,
    analytics: Option<Analytics>,
    stats: Option<Stats>,
    loading: bool,
    error: Option<string>,
    apiUrl: string)

  /** The default server address. */
  const DefaultApiUrl: string := "https://web-production-a5f83.up.railway.app"

  const InitialState: ApiState := ApiState([], None, None, false, None, DefaultApiUrl)

  datatype Action =
    | SetLoading(on: bool)
    | SetError(message: Option<string>)
    | SetPosts(items: seq<ClientPost>)
    | SetAnalytics(analytics: Analytics)
    | SetStats(stats: Stats)
    | SetApiUrl(url: string)
    | UpdatePost(postId: int, updates: PostUpdate)
    | Unrecognised(tag: string)          // any other action type

  /** `{ ...post, ...updates }`. */
  function Merge(p: ClientPost, u: PostUpdate): (q: ClientPost)
    ensures q.id == p.id && q.details == p.details
    ensures u.status.Some? ==> q.status == u.status.value
    ensures u.status.None? ==> q.status == p.status
    ensures u.twitterUrl.None? ==> q.twitterUrl == p.twitterUrl
  {
    p.(status := u.status.GetOr(p.status), twitterUrl := if u.twitterUrl.Some? then u.twitterUrl else p.twitterUrl)
  }

  /** `posts.map(post => post.id === id ? { ...post, ...updates } : post)`. */
  function UpdateMatching(posts: seq<ClientPost>, id: int, u: PostUpdate): (r: seq<ClientPost>)
    ensures |r| == |posts|
    ensures forall i :: 0 <= i < |posts| ==> r[i].id == posts[i].id
    ensures forall i :: 0 <= i < |posts| && posts[i].id != id ==> r[i] == posts[i]
    ensures forall i :: 0 <= i < |posts| && posts[i].id == id ==> r[i] == Merge(posts[i], u)
  {
    seq(|posts|, i requires 0 <= i < |posts| => if posts[i].id == id then Merge(posts[i], u) else posts[i])
  }

  /** `apiReducer`. */
  function Reduce(s: ApiState, a: Action): (r: ApiState)
    ensures a.SetError? || a.SetPosts? || a.SetAnalytics? || a.SetStats? ==> !r.loading
    ensures a.SetLoading? ==> r.loading == a.on && r.(loading := s.loading) == s
    ensures a.SetApiUrl? ==> r.apiUrl == a.url && r.(apiUrl := s.apiUrl) == s
    ensures a.UpdatePost? ==> r.(posts := s.posts) == s
    ensures a.Unrecognised? ==> r == s
    ensures !a.SetPosts? && !a.UpdatePost? ==> r.posts == s.posts
  {
    match a
    case SetLoading(on) => s.(loading := on)
    case SetError(m) => s.(error := m, loading := false)
    case SetPosts(items) => s.(posts := items, loading := false)
    case SetAnalytics(x) => s.(analytics := Some(x), loading := false)
    case SetStats(x) => s.(stats := Some(x), loading := false)
    case SetApiUrl(url) => s.(apiUrl := url)
    case UpdatePost(id, u) => s.(posts := UpdateMatching(s.posts, id, u))
    case Unrecognised(_) => s
  }

  /** Whether some item in the list has the id. */
  predicate Listed(posts: seq<ClientPost>, id: int) {
    exists i :: 0 <= i < |posts| && posts[i].id == id
  }

  /** Updating an id that is not listed changes nothing. */
  lemma UpdateUnlistedIsNoop(s: ApiState, id: int, u: PostUpdate)
    requires !Listed(s.posts, id)
    ensures Reduce(s, UpdatePost(id, u)) == s
  {
    var r := Reduce(s, UpdatePost(id, u));
    assert r.posts == s.posts by {
      forall i | 0 <= i < |s.posts| ensures r.posts[i] == s.posts[i] {
        assert s.posts[i].id != id;
      }
    }
  }

  /** Applying the same update twice is the same as applying it once. */
  lemma UpdateIdempotent(s: ApiState, id: int, u: PostUpdate)
    ensures Reduce(Reduce(s, UpdatePost(id, u)), UpdatePost(id, u)) == Reduce(s, UpdatePost(id, u))
  {
    var once := Reduce(s, UpdatePost(id, u));
    var twice := Reduce(once, UpdatePost(id, u));
    assert twice.posts == once.posts by {
      forall i | 0 <= i < |s.posts| ensures twice.posts[i] == once.posts[i] {
        if s.posts[i].id == id {
          assert Merge(Merge(s.posts[i], u), u) == Merge(s.posts[i], u);
        }
      }
    }
  }

  /** Updates to two different ids can be applied in either order. */
  lemma UpdatesOnDistinctIdsCommute(s: ApiState, a: int, u: PostUpdate, b: int, v: PostUpdate)
    requires a != b
    ensures Reduce(Reduce(s, UpdatePost(a, u)), UpdatePost(b, v)) == Reduce(Reduce(s, UpdatePost(b, v)), UpdatePost(a, u))
  {
    var ab := Reduce(Reduce(s, UpdatePost(a, u)), UpdatePost(b, v));
    var ba := Reduce(Reduce(s, UpdatePost(b, v)), UpdatePost(a, u));
    assert ab.posts == ba.posts by {
      forall i | 0 <= i < |s.posts| ensures ab.posts[i] == ba.posts[i] {
      }
    }
  }

  // ---------------------------------------------------------------------------
  // Error messages
  // ---------------------------------------------------------------------------

  /** How a request failed: the server answered, no answer came, or the request could not be made. */
  datatype ApiError =
    | Responded(status: int, dataError: Option<string>, dataMessage: Option<string>)
    | NoResponse
    | NotSent(message: Option<string>)

  /** A request's outcome: the server's answer, or how it failed. */
  datatype Reply<T> = Ok(value: T) | Err(error: ApiError)

  const NotFoundMessage: string := "The requested resource was not found. Please check your API URL."
  const ServerErrorMessage: string := "Internal server error. Please try again later."
  const UnauthorizedMessage: string := "Authentication failed. Please check your credentials."
  const ForbiddenMessage: string := "You do not have permission to perform this action."
  const NetworkMessage: string := "Unable to connect to the server. Please check your internet connection and API URL."

  /** JavaScript's `a || b` on optional strings: an absent or empty `a` gives `b`. */
  function OrElse(a: Option<string>, b: string): (r: string)
    ensures a.Some? && a.value != "" ==> r == a.value
    ensures a.None? || a.value == "" ==> r == b
  {
    if a.Some? && a.value != "" then a.value else b
  }

  /**
    The message `handleApiError` stores: a fixed text for 404, 500, 401 and
    403 and for a request with no answer, otherwise the server's `error`,
    then its `message`, then the error's own message, then the default.
  */
  function ErrorMessage(e: ApiError, default: string): (m: string)
    ensures e.Responded? && e.status == 404 ==> m == NotFoundMessage
    ensures e.Responded? && e.status == 500 ==> m == ServerErrorMessage
    ensures e.Responded? && e.status == 401 ==> m == UnauthorizedMessage
    ensures e.Responded? && e.status == 403 ==> m == ForbiddenMessage
    ensures e.Responded? && e.status !in {404, 500, 401, 403} ==>
      m == OrElse(e.dataError, OrElse(e.dataMessage, default))
    ensures e.NoResponse? ==> m == NetworkMessage
    ensures e.NotSent? ==> m == OrElse(e.message, default)
  {
    match e
    case Responded(status, dataError, dataMessage) =>
      if status == 404 then NotFoundMessage
      else if status == 500 then ServerErrorMessage
      else if status == 401 then UnauthorizedMessage
      else if status == 403 then ForbiddenMessage
      else OrElse(dataError, OrElse(dataMessage, default))
    case NoResponse => NetworkMessage
    case NotSent(message) => OrElse(message, default)
  }

  /**
    For 404, 500, 401 and 403 the message depends on the code alone: the
    body the server sent and the caller's default never show.
  */
  lemma FixedCodesIgnoreBody(status: int, e1: Option<string>, m1: Option<string>, d1: string,
                             e2: Option<string>, m2: Option<string>, d2: string)
    requires status in {404, 500, 401, 403}
    ensures ErrorMessage(Responded(status, e1, m1), d1) == ErrorMessage(Responded(status, e2, m2), d2)
  {
  }

  /**
    For any other code the server's own `error` text, when non-empty, is
    what the user sees; only without one do its `message` and then the
    default show.
  */
  lemma OtherCodesShowServerError(status: int, err: string, m: Option<string>, d: string)
    requires status !in {404, 500, 401, 403} && err != ""
    ensures ErrorMessage(Responded(status, Some(err), m), d) == err
    ensures ErrorMessage(Responded(status, None, m), d) == OrElse(m, d)
  {
  }

  /** A server-side failure is reported with the fixed text, whatever the server wrote in its body. */
  lemma ServerErrorHidesBody(dataError: Option<string>, dataMessage: Option<string>, default: string)
    ensures ErrorMessage(Responded(500, dataError, dataMessage), default) == ServerErrorMessage
    ensures ErrorMessage(Responded(400, Some("Invalid action type"), dataMessage), default) == "Invalid action type"
  {
  }

  // ---------------------------------------------------------------------------
  // fetchPosts
  // ---------------------------------------------------------------------------

  /** The result of one `GET /api/posts`: the page's items, or an error with its code. */
  datatype Attempt = Fetched(items: seq<ClientPost>) | AttemptFailed(code: string, error: ApiError)

  /** A timeout or a network failure: the two codes that are retried. */
  predicate Retryable(a: Attempt) {
    a.AttemptFailed? && (a.code == "ECONNABORTED" || a.code == "NETWORK_ERROR")
  }

  /** Retries after the first attempt. */
  const MaxRetries: nat := 2

  datatype Fetch = Fetch(state: ApiState, attempts: nat)

  /**
    `fetchPosts(..., retryCount)`: set loading, make attempt `retryCount`;
    on success store the page and clear the error; on a retryable failure
    with retries left, try again; otherwise store the error message. Every
    attempt but the last failed retryably, and the last decides the state.
  */
  function FetchPosts(s: ApiState, attempt: nat -> Attempt, retryCount: nat): (r: Fetch)
    requires retryCount <= MaxRetries
    decreases MaxRetries - retryCount
    ensures 1 <= r.attempts <= MaxRetries + 1 - retryCount
    ensures forall k :: retryCount <= k < retryCount + r.attempts - 1 ==> Retryable(attempt(k))
    ensures !r.state.loading
    ensures r.state.apiUrl == s.apiUrl && r.state.analytics == s.analytics && r.state.stats == s.stats
    ensures var last := attempt(retryCount + r.attempts - 1);
      && (last.Fetched? ==> r.state.posts == last.items && r.state.error.None?)
      && (last.AttemptFailed? ==> r.state.posts == s.posts && r.state.error == Some(ErrorMessage(last.error, "Failed to fetch posts")))
  {
    var loading := Reduce(s, SetLoading(true));
    match attempt(retryCount)
    case Fetched(items) => Fetch(Reduce(Reduce(loading, SetPosts(items)), SetError(None)), 1)
    case AttemptFailed(code, error) =>
      if retryCount < MaxRetries && Retryable(attempt(retryCount)) then
        var rest := FetchPosts(loading, attempt, retryCount + 1);
        Fetch(rest.state, rest.attempts + 1)
      else
        Fetch(Reduce(loading, SetError(Some(ErrorMessage(error, "Failed to fetch posts")))), 1)
  }

  /** A fetch makes at most three requests, and never retries a failure that is not a timeout or network error. */
  lemma {:induction false} FetchRetriesBounded(s: ApiState, attempt: nat -> Attempt)
    ensures FetchPosts(s, attempt, 0).attempts <= 3
    ensures !Retryable(attempt(0)) ==> FetchPosts(s, attempt, 0).attempts == 1
  {
  }

  // ---------------------------------------------------------------------------
  // performAction and batchAction
  // ---------------------------------------------------------------------------

  /**
    `performAction`: after a successful request the item takes the status
    the server reports; a failed request leaves the items and stores the
    error message.
  */
  function PerformAction(s: ApiState, postId: int, reply: Reply<string>): (r: ApiState)
    ensures |r.posts| == |s.posts|
    ensures reply.Ok? ==> forall i :: 0 <= i < |s.posts| && s.posts[i].id == postId ==> r.posts[i] == s.posts[i].(status := reply.value)
    ensures forall i :: 0 <= i < |s.posts| && s.posts[i].id != postId ==> r.posts[i] == s.posts[i]
    ensures reply.Ok? ==> r.(posts := s.posts) == s
    ensures reply.Err? ==> r.posts == s.posts && r.error == Some(ErrorMessage(reply.error, "Failed to perform action"))
    ensures reply.Err? ==> r == s.(error := Some(ErrorMessage(reply.error, "Failed to perform action")), loading := false)
  {
    match reply
    case Ok(newStatus) => Reduce(s, UpdatePost(postId, PostUpdate(Some(newStatus), None)))
    case Err(e) => Reduce(s, SetError(Some(ErrorMessage(e, "Failed to perform action"))))
  }

  /**
    After a single action the app shows the status the server stored: for
    an item the server found, the item's new status in the app is the one
    the server's store now holds.
  */
  lemma PerformActionMirrorsServer(db: Db, s: ApiState, i: nat, j: nat, body: ActionBody, now: int)
    requires i < |db.posts| && j < |s.posts| && s.posts[j].id == db.posts[i].id
    requires PostAction(db, db.posts[i].id, Some(body), now).reply.Done?
    ensures var server := PostAction(db, db.posts[i].id, Some(body), now);
      PerformAction(s, db.posts[i].id, Ok(server.reply.newStatus)).posts[j].status == server.db.posts[i].status
  {
  }

  /** Applies `UPDATE_POST` with the same update to each id in turn. */
  function UpdateEach(s: ApiState, ids: seq<int>, u: PostUpdate): (r: ApiState)
    decreases |ids|
    ensures r.(posts := s.posts) == s
    ensures |r.posts| == |s.posts|
  {
    if |ids| == 0 then s else UpdateEach(Reduce(s, UpdatePost(ids[0], u)), ids[1..], u)
  }

  /**
    Updating each id of a list gives every listed item with one of those
    ids the update's status, all its other fields kept, and leaves every
    other item as it was.
  */
  lemma {:induction false} UpdateEachEffect(s: ApiState, ids: seq<int>, status: string)
    decreases |ids|
    ensures var r := UpdateEach(s, ids, PostUpdate(Some(status), None));
      forall i :: 0 <= i < |s.posts| ==>
        && r.posts[i].id == s.posts[i].id
        && (s.posts[i].id in ids ==> r.posts[i] == s.posts[i].(status := status))
        && (s.posts[i].id !in ids ==> r.posts[i] == s.posts[i])
  {
    if |ids| > 0 {
      var u := PostUpdate(Some(status), None);
      var next := Reduce(s, UpdatePost(ids[0], u));
      UpdateEachEffect(next, ids[1..], status);
      forall i | 0 <= i < |s.posts| && s.posts[i].id in ids && s.posts[i].id !in ids[1..]
        ensures s.posts[i].id == ids[0]
      {
      }
    }
  }

  /** The status the app writes after a batch: `deleted` for delete, `processed` for anything else. */
  function BatchStatusAsWritten(action: string): (status: string)
    ensures status == Deleted <==> action == "delete"
  {
    if action == "delete" then Deleted else Processed
  }

  /**
    The app's batch status disagrees with the status the server stores for
    archive, approve and reject: an archived batch shows as processed.
  */
  lemma BatchStatusMismatch()
    ensures BatchStatusAsWritten("archive") == Processed && BatchStatus("archive") == Archived
    ensures BatchStatusAsWritten("approve") != BatchStatus("approve")
    ensures BatchStatusAsWritten("reject") != BatchStatus("reject")
  {
  }

  /**
    `batchAction`, as written: after a successful request every listed
    item with one of the ids takes `BatchStatusAsWritten(action)` and every
    other item is unchanged; a failed request stores the error message.
  */
  function BatchActionAsWritten(s: ApiState, ids: seq<int>, action: string, reply: Reply<()>): (r: ApiState)
    ensures |r.posts| == |s.posts|
    ensures reply.Ok? ==> forall i :: 0 <= i < |s.posts| ==>
      && (s.posts[i].id in ids ==> r.posts[i] == s.posts[i].(status := BatchStatusAsWritten(action)))
      && (s.posts[i].id !in ids ==> r.posts[i] == s.posts[i])
    ensures reply.Ok? ==> r.(posts := s.posts) == s
    ensures reply.Err? ==> r.posts == s.posts && r.error == Some(ErrorMessage(reply.error, "Failed to perform batch action"))
    ensures reply.Err? ==> r == s.(error := Some(ErrorMessage(reply.error, "Failed to perform batch action")), loading := false)
  {
    match reply
    case Ok(_) =>
      UpdateEachEffect(s, ids, BatchStatusAsWritten(action));
      UpdateEach(s, ids, PostUpdate(Some(BatchStatusAsWritten(action)), None))
    case Err(e) => Reduce(s, SetError(Some(ErrorMessage(e, "Failed to perform batch action"))))
  }

  /**
    `batchAction` with the server's status map: every listed item with one
    of the ids takes the status the server stores for the action, and every
    other item is unchanged.
  */
  function BatchAction(s: ApiState, ids: seq<int>, action: string, reply: Reply<()>): (r: ApiState)
    ensures |r.posts| == |s.posts|
    ensures reply.Ok? ==> forall i :: 0 <= i < |s.posts| ==>
      && (s.posts[i].id in ids ==> r.posts[i] == s.posts[i].(status := BatchStatus(action)))
      && (s.posts[i].id !in ids ==> r.posts[i] == s.posts[i])
    ensures reply.Ok? ==> r.(posts := s.posts) == s
    ensures reply.Err? ==> r.posts == s.posts && r.error == Some(ErrorMessage(reply.error, "Failed to perform batch action"))
    ensures reply.Err? ==> r == s.(error := Some(ErrorMessage(reply.error, "Failed to perform batch action")), loading := false)
  {
    match reply
    case Ok(_) =>
      UpdateEachEffect(s, ids, BatchStatus(action));
      UpdateEach(s, ids, PostUpdate(Some(BatchStatus(action)), None))
    case Err(e) => Reduce(s, SetError(Some(ErrorMessage(e, "Failed to perform batch action"))))
  }

  /**
    The two batch updates differ only where the status maps do: an archived
    item shows as processed as written and as archived once corrected, and an
    item not in the batch is the same in both.
  */
  lemma BatchArchiveShownAsProcessed(s: ApiState, ids: seq<int>, i: nat)
    requires i < |s.posts|
    ensures s.posts[i].id in ids ==>
      && BatchActionAsWritten(s, ids, "archive", Ok(())).posts[i].status == Processed
      && BatchAction(s, ids, "archive", Ok(())).posts[i].status == Archived
    ensures s.posts[i].id !in ids ==>
      BatchActionAsWritten(s, ids, "archive", Ok(())).posts[i] == BatchAction(s, ids, "archive", Ok(())).posts[i]
  {
    BatchStatusMismatch();
  }

  /**
    The corrected batch agrees with the single-item path for every action
    but `post_twitter`, which the server's batch map sends to processed.
  */
  lemma BatchAgreesWithSingleAction(s: ApiState, ids: seq<int>, action: string, i: nat)
    requires i < |s.posts| && s.posts[i].id in ids && action != PostTwitter
    ensures BatchAction(s, ids, action, Ok(())).posts[i].status == ActionStatus(action)
  {
    BatchStatusAgainstSingle(action);
  }
}

=== FILE: common.dfy ===
/** Small shared vocabulary: an optional value and counting over sequences. */
module Common {

  /** A value that may be absent; stands for Python's `None`. */
  datatype Option<+T> = None | Some(value: T) {

    /** The wrapped value, or `default` when absent (Python's `x or default` on a nullable field). */
    function GetOr(default: T): T {
      match this
      case Some(v) => v
      case None => default
    }
  }

  /** The smaller of two integers. */
  function Min(a: int, b: int): int {
    if a <= b then a else b
  }

  /** Number of positions of `s` at which `p` holds. */
  function CountWhere<T>(s: seq<T>, p: T -> bool): (n: nat)
    ensures n <= |s|
  {
    if |s| == 0 then 0 else (if p(s[0]) then 1 else 0) + CountWhere(s[1..], p)
  }

  /** Counting distributes over concatenation. */
  lemma {:induction false} CountWhereAppend<T>(a: seq<T>, b: seq<T>, p: T -> bool)
    ensures CountWhere(a + b, p) == CountWhere(a, p) + CountWhere(b, p)
  {
    if |a| == 0 {
      assert a + b == b;
    } else {
      assert (a + b)[1..] == a[1..] + b;
      CountWhereAppend(a[1..], b, p);
    }
  }

  /** Two predicates that agree on every element give the same count. */
  lemma {:induction false} CountWhereCongruent<T>(s: seq<T>, p: T -> bool, q: T -> bool)
    requires forall i :: 0 <= i < |s| ==> p(s[i]) == q(s[i])
    ensures CountWhere(s, p) == CountWhere(s, q)
  {
    if |s| > 0 {
      CountWhereCongruent(s[1..], p, q);
    }
  }

  /** Every element satisfies `p`: the count is the length. */
  lemma {:induction false} CountWhereAll<T>(s: seq<T>, p: T -> bool)
    requires forall i :: 0 <= i < |s| ==> p(s[i])
    ensures CountWhere(s, p) == |s|
  {
    if |s| > 0 {
      CountWhereAll(s[1..], p);
    }
  }

  /** No element satisfies `p`: the count is zero. */
  lemma {:induction false} CountWhereNone<T>(s: seq<T>, p: T -> bool)
    requires forall i :: 0 <= i < |s| ==> !p(s[i])
    ensures CountWhere(s, p) == 0
  {
    if |s| > 0 {
      CountWhereNone(s[1..], p);
    }
  }

  /** The elements satisfying `p`, in order (a list comprehension with an `if`). */
  function Select<T>(s: seq<T>, p: T -> bool): (r: seq<T>)
    ensures |r| == CountWhere(s, p)
    ensures forall x :: x in r ==> x in s && p(x)
  {
    if |s| == 0 then []
    else if p(s[0]) then [s[0]] + Select(s[1..], p)
    else Select(s[1..], p)
  }

  /** Counting `f` among the selected elements is counting `p && f` among all of them. */
  lemma {:induction false} SelectCount<T>(s: seq<T>, p: T -> bool, f: T -> bool, g: T -> bool)
    requires forall x :: g(x) == (p(x) && f(x))
    ensures CountWhere(Select(s, p), f) == CountWhere(s, g)
  {
    if |s| > 0 {
      SelectCount(s[1..], p, f, g);
      if p(s[0]) {
        assert ([s[0]] + Select(s[1..], p))[1..] == Select(s[1..], p);
      }
    }
  }

  /** `[key(x) for x in s]`. */
  function Project<T, V>(s: seq<T>, key: T -> V): (r: seq<V>)
    ensures |r| == |s|
    ensures forall i :: 0 <= i < |s| ==> r[i] == key(s[i])
  {
    if |s| == 0 then [] else [key(s[0])] + Project(s[1..], key)
  }

  /** A value occurs in the projection as often as elements map to it (`g` tests for mapping to `v`). */
  lemma {:induction false} ProjectCount<T, V>(s: seq<T>, key: T -> V, v: V, g: T -> bool)
    requires forall x :: g(x) == (key(x) == v)
    ensures multiset(Project(s, key))[v] == CountWhere(s, g)
  {
    if |s| > 0 {
      ProjectCount(s[1..], key, v, g);
      assert Project(s, key) == [key(s[0])] + Project(s[1..], key);
    }
  }
}

=== FILE: config.dfy ===
/**
  Start-up configuration: the required environment variables, the session
  string reassembled from numbered parts, and the constant tables the
  pipelines filter with. The process environment is a `map` from variable
  name to value; a name outside the map is an unset variable.
*/
module Config {
  import opened Common
  import opened Text

  type Env = map<string, string>

  /** `os.getenv(name)`. */
  function Getenv(env: Env, name: string): Option<string> {
    if name in env then Some(env[name]) else None
  }

  // ---------------------------------------------------------------------------
  // Constant tables
  // ---------------------------------------------------------------------------

  /** One monitored channel: its language, the senders accepted from it, and its priority. */
  datatype ChannelConfig = ChannelConfig(name: string, lang: string, allowedSenders: seq<string>, priority: int)

  /** `CHANNELS`, in declaration order. */
  const Channels: seq<ChannelConfig> := [
    ChannelConfig("conflict_tr", "tr", ["ConflictTR"], 1),
    ChannelConfig("ww3media", "tr", ["3. Dünya Savaşı"], 1),
    ChannelConfig("ateobreaking", "ru", ["Ateo Breaking"], 1),
    ChannelConfig("firstreportsnews", "en", [], 2)
  ]

  /** `BLOCKED_EMOJIS`: party and celebration emoji, each one code point. */
  const BlockedEmojis: seq<string> := [
    "\U{1F389}", "\U{1F381}", "\U{1F38A}", "\U{1F388}", "\U{1F382}",
    "\U{1F387}", "\U{1F386}", "\U{1F973}", "\U{1F380}", "\U{1F39F}"
  ]

  /** The keywords both pipelines block, before the bias terms added for the store-backed one. */
  const BaseBlockedKeywords: seq<string> := [
    "advertiser", "sponsor", "sponsored", "promotion", "telegram premium",
    "reklam", "sponsor", "sponsorlu", "taksit", "indirim", "kampanya",
    "dem parti", "dem partisi", "özgür özel", "chp", "akp", "ımamoğlu", "imamoglu",
    "conflicttr", "ww3media", "ateobreaking", "dunyadantr", "dunyadan_tr"
  ]

  /** The six zionist-family terms shared by the blocked keywords and the bias lexicon. */
  const ZionistTerms: seq<string> := ["zionist", "siyonist", "zionism", "siyonizm", "zionist regime", "sionist"]

  /** `BLOCKED_KEYWORDS`. */
  const BlockedKeywords: seq<string> := BaseBlockedKeywords + ZionistTerms

  /** `BIAS_KEYWORDS`. */
  const BiasKeywords: seq<string> := ZionistTerms + ["puppet government", "puppet regime", "puppet state", "evil empire", "axis of evil"]

  /** `MESSAGE_LIMIT`: messages read per channel and pass. */
  const MessageLimit: nat := 4

  /** `LOOP_INTERVAL`: seconds between passes. */
  const LoopInterval: nat := 300

  /** `MEDIA_THRESHOLD`: share of red or black pixels that drops a photo. */
  const MediaThreshold: real := 0.7

  /** Name of the local session file used when no decodable session string is configured. */
  const LocalSessionFile: string := "multi_session.session"

  /** `firstreportsnews` is the one channel open to every sender, at priority 2; the others name their senders and have priority 1. */
  lemma ChannelTable()
    ensures forall k :: 0 <= k < |Channels| ==>
      (|Channels[k].allowedSenders| == 0 <==> Channels[k].name == "firstreportsnews")
    ensures forall k :: 0 <= k < |Channels| ==>
      Channels[k].priority == (if |Channels[k].allowedSenders| == 0 then 2 else 1)
  {
  }

  /**
    No channel name is a prefix of another, so by
    `Fingerprint.ContentKeySeparatesChannels` two channels never produce the
    same content-hash input.
  */
  lemma ChannelNamesPrefixFree()
    ensures forall i, j :: 0 <= i < |Channels| && 0 <= j < |Channels| && i != j ==>
      !StartsWith(Channels[i].name, Channels[j].name)
  {
    // The four names begin with four different letters.
    assert Channels[0].name[0] == 'c' && Channels[1].name[0] == 'w';
    assert Channels[2].name[0] == 'a' && Channels[3].name[0] == 'f';
    forall i, j | 0 <= i < |Channels| && 0 <= j < |Channels| && i != j
      ensures !StartsWith(Channels[i].name, Channels[j].name)
    {
      FirstCharSeparates(Channels[i].name, Channels[j].name);
    }
  }

  /** Strings with different first characters are not prefixes of one another. */
  lemma FirstCharSeparates(a: string, b: string)
    requires |a| > 0 && |b| > 0 && a[0] != b[0]
    ensures !StartsWith(a, b)
  {
    if |b| <= |a| {
      assert a[..|b|][0] != b[0];
    }
  }

  /** The keyword "dem parti" is blocked by both pipelines. */
  lemma DemPartiBlocked()
    ensures BaseBlockedKeywords[11] == "dem parti"
    ensures BlockedKeywords[11] == "dem parti"
  {
    assert BlockedKeywords[11] == BaseBlockedKeywords[11];
  }

  /** Every zionist-family bias term is also a blocked keyword. */
  lemma ZionistTermsBlocked()
    ensures forall k :: 0 <= k < |ZionistTerms| ==> ZionistTerms[k] in BlockedKeywords
  {
    forall k | 0 <= k < |ZionistTerms| ensures ZionistTerms[k] in BlockedKeywords {
      assert BlockedKeywords[|BaseBlockedKeywords| + k] == ZionistTerms[k];
    }
  }

  // ---------------------------------------------------------------------------
  // Integer parsing
  // ---------------------------------------------------------------------------

  /** Value of a string of decimal digits. */
  function DigitsValue(s: string): (n: int)
    requires forall i :: 0 <= i < |s| ==> IsDigit(s[i])
    ensures n >= 0
  {
    if |s| == 0 then 0
    else
      assert IsDigit(s[|s| - 1]);
      DigitsValue(s[..|s| - 1]) * 10 + (s[|s| - 1] as int - '0' as int)
  }

  /** Reading back a printed number gives the number. */
  lemma {:induction false} DigitsValueOfNatToString(n: nat)
    ensures DigitsValue(NatToString(n)) == n
  {
    var s := NatToString(n);
    if n >= 10 {
      assert s[..|s| - 1] == NatToString(n / 10);
      DigitsValueOfNatToString(n / 10);
    }
  }

  predicate AllDigits(s: string) {
    forall i :: 0 <= i < |s| ==> IsDigit(s[i])
  }

  /**
    Python `int(s)` on a string: surrounding whitespace is ignored, one
    optional sign, then at least one ASCII digit; anything else raises
    `ValueError`, here `None`.
  */
  function ParseInt(s: string): (r: Option<int>)
    ensures r.Some? ==> |Strip(s)| > 0
  {
    var t := Strip(s);
    if |t| > 0 && (t[0] == '-' || t[0] == '+') then
      var digits := t[1..];
      if |digits| > 0 && AllDigits(digits) then
        var v: int := if t[0] == '-' then -DigitsValue(digits) else DigitsValue(digits);
        Some(v)
      else None
    else if |t| > 0 && AllDigits(t) then Some(DigitsValue(t))
    else None
  }

  /** `int(str(n)) == n` for a non-negative `n`, and for its negation with a leading `-`. */
  lemma ParseIntRoundTrip(n: nat)
    ensures ParseInt(NatToString(n)) == Some(n as int)
  {
    var s := NatToString(n);
    StripUnpadded(s);
    DigitsValueOfNatToString(n);
    assert s[0] != '-' && s[0] != '+' by { assert IsDigit(s[0]); }
  }

  /** `int("-" + str(n)) == -n`. */
  lemma ParseIntNegativeRoundTrip(n: nat)
    ensures ParseInt("-" + NatToString(n)) == Some(-(n as int))
  {
    var s := NatToString(n);
    var m := "-" + s;
    assert m[|m| - 1] == s[|s| - 1];
    assert !IsSpace(m[|m| - 1]) by { assert IsDigit(s[|s| - 1]); }
    StripUnpadded(m);
    assert m[1..] == s;
    DigitsValueOfNatToString(n);
  }

  /** A blank string is not a number. */
  lemma ParseIntRejectsBlank(s: string)
    requires forall i :: 0 <= i < |s| ==> IsSpace(s[i])
    ensures ParseInt(s) == None
  {
  }

  // ---------------------------------------------------------------------------
  // Required settings
  // ---------------------------------------------------------------------------

  /** The settings read at import time. */
  datatype Settings = Settings(apiId: int, apiHash: string, openAiKey: string, botToken: string, chatId: string, csvFile: string)

  /** Why loading stopped: a required variable is unset, or `API_ID` is not an integer. */
  datatype ConfigError = Missing(name: string) | InvalidInteger(name: string)

  datatype Loaded = Ok(settings: Settings) | Failed(error: ConfigError)

  /** The five variables whose absence raises `ValueError`, in the order they are checked. */
  const RequiredNames: seq<string> := ["API_ID", "API_HASH", "OPENAI_API_KEY", "BOT_TOKEN", "CHAT_ID"]

  /** Default of `CSV_FILE`. */
  const DefaultCsvFile: string := "gpt_full_log.csv"

  /**
    Module-level settings: each required variable is read in turn and the
    first unset one raises; `API_ID` is converted with `int` right after it
    is read. A variable set to the empty string counts as present.
  */
  function LoadSettings(env: Env): (r: Loaded)
    ensures r.Ok? <==> (forall k :: 0 <= k < |RequiredNames| ==> RequiredNames[k] in env)
                       && "API_ID" in env && ParseInt(env["API_ID"]).Some?
    ensures r.Ok? ==> "API_ID" in env && ParseInt(env["API_ID"]) == Some(r.settings.apiId)
    ensures r.Ok? ==> Getenv(env, "API_HASH") == Some(r.settings.apiHash)
    ensures r.Ok? ==> Getenv(env, "OPENAI_API_KEY") == Some(r.settings.openAiKey)
    ensures r.Ok? ==> Getenv(env, "BOT_TOKEN") == Some(r.settings.botToken)
    ensures r.Ok? ==> Getenv(env, "CHAT_ID") == Some(r.settings.chatId)
    ensures r.Ok? ==> r.settings.csvFile == (if "CSV_FILE" in env then env["CSV_FILE"] else DefaultCsvFile)
    ensures r.Failed? && r.error.Missing? ==>
      exists k :: 0 <= k < |RequiredNames| && r.error.name == RequiredNames[k] && RequiredNames[k] !in env
        && forall j :: 0 <= j < k ==> RequiredNames[j] in env
    ensures r.Failed? && r.error.InvalidInteger? ==> r.error.name == "API_ID" && "API_ID" in env && ParseInt(env["API_ID"]).None?
  {
    assert RequiredNames[0] == "API_ID" && RequiredNames[1] == "API_HASH" && RequiredNames[2] == "OPENAI_API_KEY";
    assert RequiredNames[3] == "BOT_TOKEN" && RequiredNames[4] == "CHAT_ID";
    if "API_ID" !in env then Failed(Missing("API_ID"))
    else
      match ParseInt(env["API_ID"])
      case None => Failed(InvalidInteger("API_ID"))
      case Some(apiId) =>
        if "API_HASH" !in env then Failed(Missing("API_HASH"))
        else if "OPENAI_API_KEY" !in env then Failed(Missing("OPENAI_API_KEY"))
        else if "BOT_TOKEN" !in env then Failed(Missing("BOT_TOKEN"))
        else if "CHAT_ID" !in env then Failed(Missing("CHAT_ID"))
        else
          Ok(Settings(apiId, env["API_HASH"], env["OPENAI_API_KEY"], env["BOT_TOKEN"], env["CHAT_ID"],
                      Getenv(env, "CSV_FILE").GetOr(DefaultCsvFile)))
  }

  // ---------------------------------------------------------------------------
  // Session reassembly
  // ---------------------------------------------------------------------------

  /** Highest part number consulted: `range(1, 10)`. */
  const MaxSessionParts: nat := 9

  /** `f"SESSION_B64_{i}"`. */
  function PartName(i: nat): (r: string)
    ensures |r| > 12 && r[..12] == "SESSION_B64_"
  {
    "SESSION_B64_" + NatToString(i)
  }

  /** Different part numbers name different variables. */
  lemma PartNameInjective(i: nat, j: nat)
    ensures PartName(i) == PartName(j) ==> i == j
  {
    if PartName(i) == PartName(j) {
      assert NatToString(i) == PartName(i)[12..];
      assert NatToString(j) == PartName(j)[12..];
      NatToStringInjective(i, j);
    }
  }

  /** A set, non-empty variable (Python truthiness of `os.getenv(...)`). */
  predicate IsSetNonEmpty(env: Env, name: string) {
    name in env && env[name] != ""
  }

  /** The parts `SESSION_B64_i`, `SESSION_B64_{i+1}`, ... up to the first unset or empty one, and never past 9. */
  function SessionPartsFrom(env: Env, i: nat): (parts: seq<string>)
    requires 1 <= i <= MaxSessionParts + 1
    ensures |parts| <= MaxSessionParts + 1 - i
    ensures forall j :: i <= j < i + |parts| ==> IsSetNonEmpty(env, PartName(j)) && parts[j - i] == env[PartName(j)]
    ensures i + |parts| <= MaxSessionParts ==> !IsSetNonEmpty(env, PartName(i + |parts|))
    decreases MaxSessionParts + 1 - i
  {
    if i > MaxSessionParts || !IsSetNonEmpty(env, PartName(i)) then []
    else
      var rest := SessionPartsFrom(env, i + 1);
      var parts := [env[PartName(i)]] + rest;
      assert forall k :: 1 <= k < |parts| ==> parts[k] == rest[k - 1];
      parts
  }

  /** `''.join(parts)`. */
  function Concat(parts: seq<string>): (s: string)
    ensures |parts| == 0 ==> s == ""
  {
    if |parts| == 0 then "" else parts[0] + Concat(parts[1..])
  }

  /**
    The session string `get_session_file` ends up with: a non-empty
    `SESSION_B64` as is; otherwise the joined parts. The empty string stands
    for "no session string" (an unset or empty `SESSION_B64` and no parts).
  */
  function SessionString(env: Env): (s: string)
    ensures IsSetNonEmpty(env, "SESSION_B64") ==> s == env["SESSION_B64"]
    ensures !IsSetNonEmpty(env, "SESSION_B64") ==> s == Concat(SessionPartsFrom(env, 1))
  {
    if IsSetNonEmpty(env, "SESSION_B64") then env["SESSION_B64"] else Concat(SessionPartsFrom(env, 1))
  }

  /** Length a session string must exceed before it is treated as base64 session data. */
  const MinEncodedSessionLength: nat := 100

  /**
    `get_session_file`. `decodes(s)` says whether base64-decoding `s` and
    writing the temporary file succeed, and `tempPath` is the name of that
    file; base64 and the file system are outside the model. A string of at
    most 100 characters, or one that fails to decode, falls back to the local
    session file.
  */
  function SessionFile(env: Env, decodes: string -> bool, tempPath: string): (path: string)
    ensures path == tempPath || path == LocalSessionFile
    ensures path != LocalSessionFile ==> |SessionString(env)| > MinEncodedSessionLength && decodes(SessionString(env))
    ensures |SessionString(env)| > MinEncodedSessionLength && decodes(SessionString(env)) ==> path == tempPath
  {
    var s := SessionString(env);
    if |s| > MinEncodedSessionLength && decodes(s) then tempPath else LocalSessionFile
  }
}

=== FILE: fingerprint.dfy ===
/**
  Content fingerprints: hashtag removal, the normalised word list behind the
  near-duplicate ("similarity") hash, and the two keys the pipeline
  deduplicates on: the exact content hash and the store's message id.

  MD5 is not modelled: every hash is taken through a caller-supplied
  function `hash`, so the properties below hold for any digest function.
*/
module Fingerprint {
  import opened Common
  import opened Text

  // ---------------------------------------------------------------------------
  // Hashtag removal: re.sub(r"#\S+\s*", "", text)
  // ---------------------------------------------------------------------------

  /** A match of `#\S+` starts at the head of `s`. */
  predicate StartsHashtag(s: string) {
    |s| > 1 && s[0] == '#' && !IsSpace(s[1])
  }

  /** Every `#` is followed by whitespace or ends the text, so `#\S+` matches nowhere. */
  predicate HashtagFree(s: string) {
    forall i :: 0 <= i < |s| ==> NoHashtagAt(s, i)
  }

  /** Position `i` does not start a `#\S` match. */
  predicate NoHashtagAt(s: string, i: nat)
    requires i < |s|
  {
    s[i] == '#' ==> i + 1 == |s| || IsSpace(s[i + 1])
  }

  /** Where a match of `#\S+\s*` at the head of `s` ends: past the token and the whitespace after it. */
  function HashtagEnd(s: string): (n: nat)
    requires StartsHashtag(s)
    ensures 2 <= n <= |s|
  {
    var tag := 1 + NonSpaceRun(s[1..]);
    tag + SpaceRun(s[tag..])
  }

  /**
    Scans left to right; at each `#` followed by a non-space character it
    deletes the `#`, the greedy run of non-space characters after it and the
    greedy run of whitespace after that; every other character is kept.
  */
  function RemoveHashtags(s: string): (r: string)
    ensures |r| <= |s|
    ensures HashtagFree(r)
    ensures '#' !in s ==> r == s
    ensures |s| > 0 && !StartsHashtag(s) ==> |r| > 0 && r[0] == s[0]
    decreases |s|
  {
    if |s| == 0 then ""
    else if StartsHashtag(s) then RemoveHashtags(s[HashtagEnd(s)..])
    else
      var rest := RemoveHashtags(s[1..]);
      var r := [s[0]] + rest;
      assert NoHashtagAt(r, 0);
      assert forall i :: 1 <= i < |r| ==> NoHashtagAt(r, i) by {
        forall i | 1 <= i < |r| ensures NoHashtagAt(r, i) {
          assert NoHashtagAt(rest, i - 1);
        }
      }
      r
  }

  /** Text without a hashtag match is a fixed point. */
  lemma {:induction false} RemoveHashtagsFixesFree(s: string)
    requires HashtagFree(s)
    ensures RemoveHashtags(s) == s
    decreases |s|
  {
    if |s| > 0 {
      assert NoHashtagAt(s, 0);
      assert !StartsHashtag(s);
      assert HashtagFree(s[1..]) by {
        forall i | 0 <= i < |s[1..]| ensures NoHashtagAt(s[1..], i) {
          assert NoHashtagAt(s, i + 1);
        }
      }
      RemoveHashtagsFixesFree(s[1..]);
      assert s == [s[0]] + s[1..];
    }
  }

  /** Applying the removal twice is the same as applying it once. */
  lemma RemoveHashtagsIdempotent(s: string)
    ensures RemoveHashtags(RemoveHashtags(s)) == RemoveHashtags(s)
  {
    RemoveHashtagsFixesFree(RemoveHashtags(s));
  }

  /**
    A leading hashtag token `#tag`, ended by whitespace or by the end of the
    text, is deleted together with all the whitespace that follows it, and the
    removal continues on the rest of the text.
  */
  lemma RemoveLeadingHashtag(s: string, tag: string, gap: string, rest: string)
    requires s == "#" + tag + gap + rest
    requires IsWord(tag)
    requires forall i :: 0 <= i < |gap| ==> IsSpace(gap[i])
    requires |gap| > 0 || |rest| == 0
    requires |rest| == 0 || !IsSpace(rest[0])
    ensures RemoveHashtags(s) == RemoveHashtags(rest)
  {
    var after := gap + rest;
    assert s[1..] == tag + after;
    assert StartsHashtag(s) by {
      assert s[1] == tag[0];
    }
    assert |after| == 0 || IsSpace(after[0]) by {
      if |gap| > 0 { assert after[0] == gap[0]; }
    }
    NonSpaceRunOfWord(tag, after);
    assert s[1 + |tag|..] == after;
    SpaceRunOfGap(gap, rest);
    assert HashtagEnd(s) == 1 + |tag| + |gap|;
    assert s[1 + |tag| + |gap|..] == rest;
  }

  /** A hashtag in any script goes: `#\S+` asks only for non-space characters, so a Japanese tag is removed like a Latin one. */
  lemma NonLatinHashtagRemoved(rest: string)
    requires |rest| == 0 || !IsSpace(rest[0])
    ensures RemoveHashtags("#" + "\U{6771}\U{4EAC}" + " " + rest) == RemoveHashtags(rest)
  {
    var tag := "\U{6771}\U{4EAC}";
    assert IsWord(tag) by {
      assert !IsSpace(tag[0]) && !IsSpace(tag[1]);
    }
    RemoveLeadingHashtag("#" + tag + " " + rest, tag, " ", rest);
  }

  lemma {:induction false} SpaceRunOfGap(gap: string, rest: string)
    requires forall i :: 0 <= i < |gap| ==> IsSpace(gap[i])
    requires |rest| == 0 || !IsSpace(rest[0])
    ensures SpaceRun(gap + rest) == |gap|
  {
    if |gap| > 0 {
      assert (gap + rest)[1..] == gap[1..] + rest;
      SpaceRunOfGap(gap[1..], rest);
    } else {
      assert gap + rest == rest;
    }
  }

  // ---------------------------------------------------------------------------
  // Similarity word list: lower, strip punctuation, split, filter, sort, take 10
  // ---------------------------------------------------------------------------

  /**
    Regex `\w` on a `str` (a character that is alphanumeric, or `_`) for the
    scripts the channels use: ASCII; the letters and numerals of Latin-1
    (including ª, µ, º, ², ³, ¹, ¼, ½, ¾); Latin Extended-A and -B; Greek;
    Cyrillic and its supplement; Hebrew; Arabic letters and Arabic-Indic
    digits. Combining marks, signs and punctuation of these blocks are not word
    characters.
  */
  predicate IsWordChar(c: char) {
    || 'a' <= c <= 'z' || 'A' <= c <= 'Z' || '0' <= c <= '9' || c == '_'
    || c == '\U{AA}' || c == '\U{B2}' || c == '\U{B3}' || c == '\U{B5}' || c == '\U{B9}' || c == '\U{BA}'
    || ('\U{BC}' <= c <= '\U{BE}')
    || ('\U{C0}' <= c <= '\U{24F}' && c != '\U{D7}' && c != '\U{F7}')
    || IsGreekWordChar(c)
    || ('\U{400}' <= c <= '\U{481}') || ('\U{48A}' <= c <= '\U{52F}')
    || ('\U{5D0}' <= c <= '\U{5EA}') || ('\U{5EF}' <= c <= '\U{5F2}')
    || IsArabicWordChar(c)
  }

  /** Letters of the Greek and Coptic block (its tonos, numeral signs and question mark excluded). */
  predicate IsGreekWordChar(c: char) {
    || ('\U{370}' <= c <= '\U{374}') || c == '\U{376}' || c == '\U{377}'
    || ('\U{37A}' <= c <= '\U{37D}') || c == '\U{37F}'
    || c == '\U{386}' || ('\U{388}' <= c <= '\U{38A}') || c == '\U{38C}'
    || ('\U{38E}' <= c <= '\U{3A1}') || ('\U{3A3}' <= c <= '\U{3F5}') || ('\U{3F7}' <= c <= '\U{3FF}')
  }

  /** Letters and digits of the Arabic block (its vowel marks, punctuation and signs excluded). */
  predicate IsArabicWordChar(c: char) {
    || ('\U{620}' <= c <= '\U{64A}') || ('\U{660}' <= c <= '\U{669}')
    || c == '\U{66E}' || c == '\U{66F}' || ('\U{671}' <= c <= '\U{6D3}') || c == '\U{6D5}'
    || c == '\U{6E5}' || c == '\U{6E6}' || ('\U{6EE}' <= c <= '\U{6FC}') || c == '\U{6FF}'
  }

  /** The words `get_content_similarity_hash` drops before sorting. */
  const StopWords: set<string> := {
    "the", "a", "an", "and", "or", "but", "in", "on", "at", "to", "for", "of",
    "with", "by", "is", "are", "was", "were", "has", "have", "had"
  }

  /** Number of words kept for the similarity text. */
  const SimilarityWordCount: nat := 10

  /** `re.sub(r'[^\w\s]', '', s)`: deletes every character that is neither a word character nor whitespace. */
  function StripPunctuation(s: string): (r: string)
    ensures |r| <= |s|
    ensures forall i :: 0 <= i < |r| ==> (IsWordChar(r[i]) || IsSpace(r[i])) && r[i] in s
    ensures (forall i :: 0 <= i < |s| ==> IsWordChar(s[i]) || IsSpace(s[i])) ==> r == s
  {
    if |s| == 0 then ""
    else
      var rest := StripPunctuation(s[1..]);
      assert forall i :: 0 <= i < |rest| ==> rest[i] in s by {
        forall i | 0 <= i < |rest| ensures rest[i] in s { assert rest[i] in s[1..]; }
      }
      if IsWordChar(s[0]) || IsSpace(s[0]) then
        assert s == [s[0]] + s[1..];
        [s[0]] + rest
      else rest
  }

  /** A word the similarity list may hold: lower-case word characters, at least three, not a stop word. */
  predicate IsSignificant(w: string) {
    && |w| > 2
    && w !in StopWords
    && forall i :: 0 <= i < |w| ==> IsWordChar(w[i]) && LowerChar(w[i]) == w[i]
  }

  /** `[w for w in words if w not in common_words and len(w) > 2]`, order kept. */
  function DropInsignificant(ws: seq<string>): (r: seq<string>)
    ensures |r| <= |ws|
    ensures forall k :: 0 <= k < |r| ==> r[k] in ws && r[k] !in StopWords && |r[k]| > 2
    ensures forall k :: 0 <= k < |ws| && ws[k] !in StopWords && |ws[k]| > 2 ==> ws[k] in r
  {
    DropInsignificantCounts(ws);
    KeepEach(ws)
  }

  /** Membership facts of the filter, read off its counts. */
  lemma DropInsignificantCounts(ws: seq<string>)
    ensures |KeepEach(ws)| <= |ws|
    ensures forall k :: 0 <= k < |KeepEach(ws)| ==> KeepEach(ws)[k] in ws && KeepEach(ws)[k] !in StopWords && |KeepEach(ws)[k]| > 2
    ensures forall k :: 0 <= k < |ws| && ws[k] !in StopWords && |ws[k]| > 2 ==> ws[k] in KeepEach(ws)
    ensures KeepsSignificantCounts(ws, KeepEach(ws))
  {
    var r := KeepEach(ws);
    KeepEachCounts(ws);
    forall k | 0 <= k < |r| ensures r[k] in ws && r[k] !in StopWords && |r[k]| > 2 {
      assert multiset(r)[r[k]] > 0;
    }
    forall k | 0 <= k < |ws| && ws[k] !in StopWords && |ws[k]| > 2 ensures ws[k] in r {
      assert multiset(ws)[ws[k]] > 0;
    }
  }

  /** The significant-word filter keeps each word that is not a stop word and has three or more characters exactly as often as it occurs, and no other word. */
  lemma DropInsignificantKeepsCounts(ws: seq<string>)
    ensures KeepsSignificantCounts(ws, DropInsignificant(ws))
  {
    KeepEachCounts(ws);
  }

  /** The filter behind `DropInsignificant`, one word at a time. */
  function KeepEach(ws: seq<string>): seq<string> {
    if |ws| == 0 then []
    else (if Kept(ws[0]) then [ws[0]] else []) + KeepEach(ws[1..])
  }

  /** The filter keeps every significant-length non-stop word as often as it occurs, and nothing else. */
  lemma {:induction false} KeepEachCounts(ws: seq<string>)
    ensures |KeepEach(ws)| <= |ws|
    ensures KeepsSignificantCounts(ws, KeepEach(ws))
  {
    if |ws| > 0 {
      KeepEachCounts(ws[1..]);
      var head := if Kept(ws[0]) then [ws[0]] else [];
      var r := KeepEach(ws);
      assert r == head + KeepEach(ws[1..]);
      assert ws == [ws[0]] + ws[1..];
      forall w ensures multiset(r)[w] == if Kept(w) then multiset(ws)[w] else 0 {
        assert multiset(ws)[w] == multiset([ws[0]])[w] + multiset(ws[1..])[w];
        assert multiset(r)[w] == multiset(head)[w] + multiset(KeepEach(ws[1..]))[w];
      }
    }
  }

  /** `r` holds each word that is neither a stop word nor shorter than three characters exactly as often as `ws` does, and no other word. */
  ghost predicate KeepsSignificantCounts(ws: seq<string>, r: seq<string>) {
    forall w :: multiset(r)[w] == if Kept(w) then multiset(ws)[w] else 0
  }

  /** The list comprehension's condition: not a stop word, and three or more characters. */
  predicate Kept(w: string) {
    w !in StopWords && |w| > 2
  }

  /** The significant words of `text` in their original order. */
  function SignificantWords(text: string): (ws: seq<string>)
    ensures forall k :: 0 <= k < |ws| ==> IsSignificant(ws[k]) && IsWord(ws[k])
  {
    var lowered := Lower(text);
    var cleaned := StripPunctuation(lowered);
    var words := Words(cleaned);
    var r := DropInsignificant(words);
    assert forall k :: 0 <= k < |r| ==> IsSignificant(r[k]) && IsWord(r[k]) by {
      forall k | 0 <= k < |r| ensures IsSignificant(r[k]) && IsWord(r[k]) {
        var w := r[k];
        assert w in words;
        var j :| 0 <= j < |words| && words[j] == w;
        forall i | 0 <= i < |w| ensures IsWordChar(w[i]) && LowerChar(w[i]) == w[i] {
          assert w[i] in cleaned;
          var a :| 0 <= a < |cleaned| && cleaned[a] == w[i];
          assert w[i] in lowered;
          var b :| 0 <= b < |lowered| && lowered[b] == w[i];
          assert LowerChar(lowered[b]) == lowered[b];
          assert !IsSpace(w[i]);
        }
      }
    }
    r
  }

  /** Python `s[:n]`. */
  function Take(s: seq<string>, n: nat): (r: seq<string>)
    ensures |r| <= n && |r| <= |s|
    ensures r == s[..|r|]
    ensures |s| >= n ==> |r| == n
  {
    if |s| <= n then s else s[..n]
  }

  /** The ten smallest significant words, ascending: the list the similarity hash is taken over. */
  function SimilarityWords(text: string): (ws: seq<string>)
    ensures |ws| == Min(SimilarityWordCount, |SignificantWords(text)|)
    ensures Sorted(ws)
    ensures forall k :: 0 <= k < |ws| ==> IsSignificant(ws[k])
    ensures forall k :: 0 <= k < |ws| ==> ws[k] in SignificantWords(text)
    ensures AreSmallest(ws, SignificantWords(text))
  {
    var sig := SignificantWords(text);
    SmallestAreSignificant(sig, SimilarityWordCount);
    Take(SortWords(sig), SimilarityWordCount)
  }

  /**
    The first `n` words of the sorted list are the `n` smallest of `ws`, with
    multiplicity: a sub-multiset, sorted, of words of the list, each no larger
    than any word left out.
  */
  lemma SmallestAreSignificant(ws: seq<string>, n: nat)
    requires forall k :: 0 <= k < |ws| ==> IsSignificant(ws[k])
    ensures var r := Take(SortWords(ws), n);
      && |r| == Min(n, |ws|)
      && Sorted(r)
      && (forall k :: 0 <= k < |r| ==> r[k] in ws && IsSignificant(r[k]))
      && AreSmallest(r, ws)
  {
    var sorted := SortWords(ws);
    var r := Take(sorted, n);
    assert Sorted(r) by {
      forall i, j | 0 <= i < j < |r| ensures LexLe(r[i], r[j]) {
        assert r[i] == sorted[i] && r[j] == sorted[j];
      }
    }
    forall k | 0 <= k < |r| ensures r[k] in ws && IsSignificant(r[k]) {
      assert r[k] == sorted[k];
      assert r[k] in multiset(sorted);
      var j :| 0 <= j < |ws| && ws[j] == r[k];
    }
    PrefixOfSortedAreSmallest(sorted, ws, |r|);
  }

  /** A prefix of a sorted rearrangement of `ws` holds the smallest words of `ws`. */
  lemma PrefixOfSortedAreSmallest(sorted: seq<string>, ws: seq<string>, m: nat)
    requires Sorted(sorted) && multiset(sorted) == multiset(ws) && m <= |sorted|
    ensures AreSmallest(sorted[..m], ws)
  {
    var r, rest := sorted[..m], sorted[m..];
    assert sorted == r + rest;
    assert multiset(ws) == multiset(r) + multiset(rest);
    forall w, k | w in multiset(ws) - multiset(r) && 0 <= k < |r| ensures LexLe(r[k], w) {
      assert w in multiset(rest);
      var j :| 0 <= j < |rest| && rest[j] == w;
      assert sorted[m + j] == w && r[k] == sorted[k];
    }
  }

  /** `r` is drawn from `ws`, with multiplicity, and no word of `ws` left out is smaller than a word of `r`. */
  predicate AreSmallest(r: seq<string>, ws: seq<string>) {
    && multiset(r) <= multiset(ws)
    && forall w, k :: w in multiset(ws) - multiset(r) && 0 <= k < |r| ==> LexLe(r[k], w)
  }

  /** `' '.join(filtered_words[:10])`, the text that is hashed. */
  function SimilarityText(text: string): string {
    Join(SimilarityWords(text), " ")
  }

  /** `get_content_similarity_hash(text)` with MD5 replaced by `hash`. */
  function SimilarityHash(hash: string -> string, text: string): string {
    hash(SimilarityText(text))
  }

  /**
    `is_similar_content(text, sent_hashes)`: the text repeats a recorded one
    when the digest of its ten smallest significant words is recorded. In
    particular any text whose significant words, as a multiset, equal those of
    a text whose digest is recorded is similar, whatever their order.
  */
  function IsSimilarContent(hash: string -> string, text: string, sentHashes: set<string>): (r: bool)
    ensures r <==> hash(Join(SimilarityWords(text), " ")) in sentHashes
    ensures forall t :: SimilarityHash(hash, t) in sentHashes && multiset(SignificantWords(t)) == multiset(SignificantWords(text)) ==> r
  {
    assert forall t :: multiset(SignificantWords(t)) == multiset(SignificantWords(text)) ==> SimilarityHash(hash, t) == SimilarityHash(hash, text) by {
      forall t | multiset(SignificantWords(t)) == multiset(SignificantWords(text))
        ensures SimilarityHash(hash, t) == SimilarityHash(hash, text)
      {
        SimilarityHashIgnoresOrder(hash, t, text);
      }
    }
    SimilarityHash(hash, text) in sentHashes
  }

  /** Once a text's digest is recorded, that text and every rewording with the same significant words are similar. */
  lemma RecordedTextIsSimilar(hash: string -> string, t1: string, t2: string, sentHashes: set<string>)
    requires multiset(SignificantWords(t2)) == multiset(SignificantWords(t1))
    ensures IsSimilarContent(hash, t1, sentHashes + {SimilarityHash(hash, t1)})
    ensures IsSimilarContent(hash, t2, sentHashes + {SimilarityHash(hash, t1)})
  {
  }

  /** Upper- and lower-case spellings of a text get the same verdict against any recorded set. */
  lemma SimilarVerdictIgnoresCase(hash: string -> string, text: string, sentHashes: set<string>)
    ensures IsSimilarContent(hash, Lower(text), sentHashes) == IsSimilarContent(hash, text, sentHashes)
  {
    SimilarityHashIgnoresCase(hash, text);
  }

  /** Adding significant words that sort after the tenth-smallest one never changes the verdict. */
  lemma SimilarVerdictIgnoresLateWords(hash: string -> string, t1: string, t2: string, extra: seq<string>, sentHashes: set<string>)
    requires |SignificantWords(t1)| >= SimilarityWordCount
    requires multiset(SignificantWords(t2)) == multiset(SignificantWords(t1)) + multiset(extra)
    requires forall k :: 0 <= k < |extra| ==> LexLe(SortWords(SignificantWords(t1))[SimilarityWordCount - 1], extra[k])
    ensures IsSimilarContent(hash, t2, sentHashes) == IsSimilarContent(hash, t1, sentHashes)
  {
    SimilarityHashIgnoresLateWords(hash, t1, t2, extra);
  }

  /** The hashed text splits back into exactly the similarity word list. */
  lemma SimilarityTextDeterminesWords(text: string)
    ensures Words(SimilarityText(text)) == SimilarityWords(text)
  {
    var ws := SimilarityWords(text);
    assert forall k :: 0 <= k < |ws| ==> IsWord(ws[k]) by {
      forall k | 0 <= k < |ws| ensures IsWord(ws[k]) {
        var j :| 0 <= j < |SignificantWords(text)| && SignificantWords(text)[j] == ws[k];
      }
    }
    WordsOfJoin(ws);
  }

  /** Texts whose significant words agree as a multiset (same words, any order) get the same similarity hash. */
  lemma SimilarityHashIgnoresOrder(hash: string -> string, t1: string, t2: string)
    requires multiset(SignificantWords(t1)) == multiset(SignificantWords(t2))
    ensures SimilarityHash(hash, t1) == SimilarityHash(hash, t2)
  {
    SortedUnique(SortWords(SignificantWords(t1)), SortWords(SignificantWords(t2)));
  }

  /** Case does not matter: a text and its lower-cased form get the same similarity hash. */
  lemma SimilarityHashIgnoresCase(hash: string -> string, text: string)
    ensures SimilarityHash(hash, Lower(text)) == SimilarityHash(hash, text)
  {
    LowerIsLowered(text);
  }

  /**
    Significant words that sort at or after the tenth-smallest one do not reach
    the hashed text: adding them leaves the similarity hash unchanged.
  */
  lemma SimilarityHashIgnoresLateWords(hash: string -> string, t1: string, t2: string, extra: seq<string>)
    requires |SignificantWords(t1)| >= SimilarityWordCount
    requires multiset(SignificantWords(t2)) == multiset(SignificantWords(t1)) + multiset(extra)
    requires forall k :: 0 <= k < |extra| ==> LexLe(SortWords(SignificantWords(t1))[SimilarityWordCount - 1], extra[k])
    ensures SimilarityHash(hash, t1) == SimilarityHash(hash, t2)
  {
    SmallestIgnoreLate(SignificantWords(t1), SignificantWords(t2), extra, SimilarityWordCount);
  }

  /** The `n` smallest words of a list are unchanged by adding words not smaller than the `n`-th smallest. */
  lemma SmallestIgnoreLate(a: seq<string>, b: seq<string>, extra: seq<string>, n: nat)
    requires 0 < n <= |a|
    requires multiset(b) == multiset(a) + multiset(extra)
    requires forall k :: 0 <= k < |extra| ==> LexLe(SortWords(a)[n - 1], extra[k])
    ensures Take(SortWords(a), n) == Take(SortWords(b), n)
  {
    var s1 := SortWords(a);
    var s2 := SortWords(b);
    var tail := SortWords(s1[n..] + extra);
    var c := s1[..n] + tail;
    Regroup(s1, n, extra, tail);
    SortedPrefixThenLater(s1, n, extra, tail);
    SortedUnique(c, s2);
    assert c[..n] == s1[..n];
  }

  /** Putting the first `n` words back in front of a rearrangement of the rest and `extra` keeps the multiset. */
  lemma Regroup(s1: seq<string>, n: nat, extra: seq<string>, tail: seq<string>)
    requires n <= |s1|
    requires multiset(tail) == multiset(s1[n..] + extra)
    ensures multiset(s1[..n] + tail) == multiset(s1) + multiset(extra)
  {
    assert s1 == s1[..n] + s1[n..];
  }

  /** Keeping the first `n` words of a sorted list and sorting the rest together with words not smaller than the `n`-th stays sorted. */
  lemma SortedPrefixThenLater(s1: seq<string>, n: nat, extra: seq<string>, tail: seq<string>)
    requires Sorted(s1) && 0 < n <= |s1|
    requires Sorted(tail)
    requires multiset(tail) == multiset(s1[n..] + extra)
    requires forall k :: 0 <= k < |extra| ==> LexLe(s1[n - 1], extra[k])
    ensures Sorted(s1[..n] + tail)
  {
    var c := s1[..n] + tail;
    forall i, j | 0 <= i < n <= j < |c| ensures LexLe(c[i], c[j]) {
      var y := tail[j - n];
      assert c[j] == y && c[i] == s1[i];
      assert y in multiset(tail);
      assert y in multiset(s1[n..]) + multiset(extra);
      if y in multiset(s1[n..]) {
        var k :| 0 <= k < |s1[n..]| && s1[n..][k] == y;
        assert s1[n + k] == y;
      } else {
        var k :| 0 <= k < |extra| && extra[k] == y;
        if i < n - 1 { LexLeTransitive(s1[i], s1[n - 1], y); }
      }
    }
    forall i, j | 0 <= i < j < |c| ensures LexLe(c[i], c[j]) {
      if j < n {
        assert c[i] == s1[i] && c[j] == s1[j];
      } else if i >= n {
        assert c[i] == tail[i - n] && c[j] == tail[j - n];
      }
    }
  }

  // ---------------------------------------------------------------------------
  // Deduplication keys
  // ---------------------------------------------------------------------------

  /** `md5((channel + raw_text).encode())`: the exact-duplicate key. */
  function ContentHash(hash: string -> string, channel: string, rawText: string): string {
    hash(channel + rawText)
  }

  /** `f"{channel}_{message.id}"`: the store's unique key for a message. */
  function MessageId(channel: string, messageId: nat): (r: string)
    ensures |r| > |channel| + 1 && StartsWith(r, channel)
    ensures r[|channel|] == '_'
  {
    channel + "_" + NatToString(messageId)
  }

  /** Distinct (channel, message) pairs never share a store key: the digits after the last `_` fix both parts. */
  lemma MessageIdInjective(c1: string, m1: nat, c2: string, m2: nat)
    ensures MessageId(c1, m1) == MessageId(c2, m2) ==> c1 == c2 && m1 == m2
  {
    var d1, d2 := NatToString(m1), NatToString(m2);
    var s1, s2 := MessageId(c1, m1), MessageId(c2, m2);
    assert s1 == (c1 + "_") + d1 && s2 == (c2 + "_") + d2;
    if |d1| < |d2| {
      var i := |s1| - |d1| - 1;
      if |s1| == |s2| {
        assert s1[i] == '_';
        assert s2[i] == d2[i - (|s2| - |d2|)];
        assert s1[i] != s2[i];
      }
    } else if |d2| < |d1| {
      var i := |s2| - |d2| - 1;
      if |s1| == |s2| {
        assert s2[i] == '_';
        assert s1[i] == d1[i - (|s1| - |d1|)];
        assert s1[i] != s2[i];
      }
    } else {
      assert d1 == s1[|s1| - |d1|..];
      assert d2 == s2[|s2| - |d2|..];
      NatToStringInjective(m1, m2);
      assert c1 == s1[..|c1|];
      assert c2 == s2[..|c2|];
    }
  }

  /**
    The content-hash input `channel + raw_text` is ambiguous only between
    channels one of whose names is a prefix of the other: otherwise equal
    inputs mean equal channel and equal text.
  */
  lemma ContentKeySeparatesChannels(c1: string, r1: string, c2: string, r2: string)
    ensures c1 + r1 == c2 + r2 ==> (c1 == c2 && r1 == r2) || StartsWith(c1, c2) || StartsWith(c2, c1)
    ensures c1 == c2 ==> (c1 + r1 == c2 + r2 <==> r1 == r2)
  {
    if c1 + r1 == c2 + r2 {
      if |c1| <= |c2| {
        assert c2[..|c1|] == (c2 + r2)[..|c1|];
      } else {
        assert c1[..|c2|] == (c1 + r1)[..|c2|];
      }
    }
    if c1 == c2 && c1 + r1 == c2 + r2 {
      assert r1 == (c1 + r1)[|c1|..];
    }
  }
}

=== FILE: inbound.dfy ===
/**
  What the two ingestion loops see of a channel message, and the text tests
  both apply before any model call: keyword and emoji matching and the
  link pattern `https?://\S+`.
*/
module Inbound {
  import opened Common
  import opened Text
  import opened MediaGate

  /** The sender's display attributes; an absent or empty attribute is "". */
  datatype Sender = Sender(firstName: string, title: string)

  /** The display name used for the allow-list: the first name when set, otherwise the title. */
  function SenderName(s: Sender): (name: string)
    ensures name == "" ==> s.firstName == "" && s.title == ""
    ensures s.firstName != "" ==> name == s.firstName
  {
    if s.firstName != "" then s.firstName else s.title
  }

  datatype MediaKind = NoMedia | VideoMedia | PhotoMedia

  /**
    One channel message: its number within the channel, its text ("" when
    it has none), its sender, the instant it was sent when it is dated, and
    the kind of media attached. Telegram dates are in UTC, as are the
    instants of the store.
  */
  datatype Message = Message(id: nat, text: string, sender: Option<Sender>, date: Option<int>, media: MediaKind)

  /** The text the checks look at: the message text stripped of surrounding whitespace. */
  function RawText(msg: Message): string {
    Strip(msg.text)
  }

  /** The result of a media download: it raised, or it returned a path (possibly none). */
  datatype Download = DownloadRaised | Downloaded(path: Option<string>)

  /** Some term of the list occurs in the text (`any(t in text for t in terms)`). */
  predicate AnyTerm(terms: seq<string>, text: string) {
    exists k :: 0 <= k < |terms| && Contains(text, terms[k])
  }

  /** A term of the later part of a list is a term of the whole list. */
  lemma AnyTermOfSuffix(base: seq<string>, extra: seq<string>, text: string, k: nat)
    requires k < |extra| && Contains(text, extra[k])
    ensures AnyTerm(base + extra, text)
  {
    assert (base + extra)[|base| + k] == extra[k];
  }

  /** A match of `https?://\S+` starts at `i`: the scheme, then at least one non-space character. */
  predicate LinkAt(s: string, i: int) {
    || (OccursAt(s, "http://", i) && i + 7 < |s| && !IsSpace(s[i + 7]))
    || (OccursAt(s, "https://", i) && i + 8 < |s| && !IsSpace(s[i + 8]))
  }

  /** `re.search(r"https?://\S+", s)` finds a match. */
  predicate HasUrl(s: string) {
    exists i :: 0 <= i < |s| && LinkAt(s, i)
  }

  /** A bare scheme with nothing after it is not a link, and an address right after it is. */
  lemma LinkNeedsAddress(before: string, c: char, after: string)
    requires !IsSpace(c)
    ensures HasUrl(before + "https://" + [c] + after)
    ensures !HasUrl("https://")
  {
    var s := before + "https://" + [c] + after;
    assert s[|before|..|before| + 8] == "https://";
    assert s[|before| + 8] == c;
    assert LinkAt(s, |before|);
    forall i | 0 <= i < |"https://"| ensures !LinkAt("https://", i) {
      if i == 1 {
        assert "https://"[1..8][0] != "http://"[0];
      } else if i == 0 {
        assert "https://"[..7] != "http://" by {
          assert "https://"[4] != "http://"[4];
        }
      }
    }
  }

  /** The media fields of a stored or sent item, and whether the photo is red/black heavy. */
  datatype Media = Media(kind: Option<string>, path: Option<string>, isVideo: bool, heavy: bool)

  /**
    Downloading the attachment: a failed download leaves no path and the
    message goes on. Only a downloaded photo is checked for red/black
    heaviness; a missing path cannot be opened and so is not heavy.
  */
  function FetchMedia(kind: MediaKind, download: Download, pixels: Option<seq<Pixel>>, threshold: real): (m: Media)
    ensures m.heavy <==>
      && kind == PhotoMedia && download.Downloaded? && download.path.Some?
      && IsRedOrBlackHeavy(pixels, threshold)
    ensures m.isVideo <==> kind == VideoMedia && download.Downloaded?
    ensures m.path.Some? ==> download.Downloaded? && m.path == download.path
    ensures m.kind.None? <==> kind == NoMedia
  {
    match kind
    case NoMedia => Media(None, None, false, false)
    case VideoMedia =>
      (match download
       case DownloadRaised => Media(Some("video"), None, false, false)
       case Downloaded(p) => Media(Some("video"), p, true, false))
    case PhotoMedia =>
      (match download
       case DownloadRaised => Media(Some("photo"), None, false, false)
       case Downloaded(p) => Media(Some("photo"), p, false, p.Some? && IsRedOrBlackHeavy(pixels, threshold)))
  }

  /** A model's answer: stripped, or "" when the call raised. */
  function Answer(reply: Option<string>): string {
    match reply
    case None => ""
    case Some(s) => Strip(s)
  }
}

=== FILE: media.dfy ===
/**
  The colour gate applied to downloaded photos: after decoding, an image is
  resized to 100x100 RGB pixels, and it is flagged when red-dominant and
  near-black pixels together make up at least `threshold` of it. Decoding and
  resizing are outside the model; the gate receives the decoded pixels, or
  `None` when opening or converting the file raised.
*/
module MediaGate {
  import opened Common

  /** One 8-bit colour channel. */
  type Channel = x: int | 0 <= x < 256

  datatype Pixel = Pixel(r: Channel, g: Channel, b: Channel)

  /** Side of the square the image is resized to before counting. */
  const ResizedSide: nat := 100

  /** Default threshold of the gate, also the configured `MEDIA_THRESHOLD`. */
  const DefaultThreshold: real := 0.7

  /** Red-dominant: R above 150, G and B below 80. */
  predicate IsRed(p: Pixel) {
    p.r > 150 && p.g < 80 && p.b < 80
  }

  /** Near-black: every channel below 50. */
  predicate IsBlack(p: Pixel) {
    p.r < 50 && p.g < 50 && p.b < 50
  }

  predicate IsRedOrBlack(p: Pixel) {
    IsRed(p) || IsBlack(p)
  }

  /** No pixel is both red and black, since red needs R > 150 and black R < 50. */
  lemma RedAndBlackDisjoint(p: Pixel)
    ensures !(IsRed(p) && IsBlack(p))
  {
  }

  /** Number of red-dominant pixels. */
  function RedCount(px: seq<Pixel>): nat {
    CountWhere(px, IsRed)
  }

  /** Number of near-black pixels. */
  function BlackCount(px: seq<Pixel>): nat {
    CountWhere(px, IsBlack)
  }

  /**
    The pixels the gate counts are exactly the red ones plus the black ones:
    since the classes are disjoint, no pixel is counted twice.
  */
  lemma {:induction false} FlaggedPixelsPartition(px: seq<Pixel>)
    ensures CountWhere(px, IsRedOrBlack) == RedCount(px) + BlackCount(px)
  {
    if |px| > 0 {
      RedAndBlackDisjoint(px[0]);
      FlaggedPixelsPartition(px[1..]);
    }
  }

  /**
    `is_image_red_or_black_heavy`: `None` (the decoder raised) is never
    flagged; otherwise the image is flagged when `(red + black) / total`
    reaches the threshold. An empty pixel sequence cannot come out of the
    resize; numpy's 0/0 there is NaN, which compares false.
  */
  function IsRedOrBlackHeavy(decoded: Option<seq<Pixel>>, threshold: real): (flagged: bool)
    ensures decoded.None? ==> !flagged
    ensures decoded.Some? && |decoded.value| == 0 ==> !flagged
    ensures decoded.Some? && |decoded.value| > 0 ==>
      (flagged <==> (RedCount(decoded.value) + BlackCount(decoded.value)) as real
                      >= threshold * |decoded.value| as real)
  {
    match decoded
    case None => false
    case Some(px) =>
      if |px| == 0 then false
      else
        var ratio := (RedCount(px) + BlackCount(px)) as real / |px| as real;
        ratio >= threshold
  }

  /** The flagged ratio never exceeds one: at most every pixel is counted once. */
  lemma FlaggedRatioAtMostOne(px: seq<Pixel>)
    ensures RedCount(px) + BlackCount(px) <= |px|
  {
    FlaggedPixelsPartition(px);
  }

  /** A uniformly pure-red image is flagged at the default threshold. */
  lemma UniformRedIsFlagged(px: seq<Pixel>)
    requires |px| > 0
    requires forall i :: 0 <= i < |px| ==> px[i] == Pixel(255, 0, 0)
    ensures IsRedOrBlackHeavy(Some(px), DefaultThreshold)
  {
    CountWhereAll(px, IsRed);
  }

  /** A uniformly mid-grey image has no red or black pixel and is never flagged at a positive threshold. */
  lemma UniformGreyIsNotFlagged(px: seq<Pixel>, threshold: real)
    requires threshold > 0.0
    requires forall i :: 0 <= i < |px| ==> px[i] == Pixel(128, 128, 128)
    ensures !IsRedOrBlackHeavy(Some(px), threshold)
  {
    CountWhereNone(px, IsRed);
    CountWhereNone(px, IsBlack);
  }

  /** A threshold of at most zero flags every image that decoded to at least one pixel. */
  lemma NonPositiveThresholdFlagsAll(px: seq<Pixel>, threshold: real)
    requires |px| > 0 && threshold <= 0.0
    ensures IsRedOrBlackHeavy(Some(px), threshold)
  {
  }
}

=== FILE: pipeline_bot.dfy ===
/**
  The store-backed ingestion chain (`process_channel`): each of a channel's
  newest messages is screened, scored, classified and translated by the
  model, and then stored as rejected or stored, sent and marked posted.
  The pass stops after the first message it publishes.

  The content digest, the media download, the photo decoding and the model
  reply are inputs. Sending is not modelled because its outcome does not
  matter: the row is marked posted either way. The hash file is the
  in-memory set read before the pass, plus the list of hashes the pass
  appends to it.
*/
module BotPipeline {
  import opened Common
  import opened Text
  import opened Config
  import opened Fingerprint
  import opened Scoring
  import opened MediaGate
  import opened Store
  import opened Inbound

  /** Messages younger than this many seconds are left for a later pass. */
  const MinAge: int := 300

  /** Translations shorter than this after stripping are dropped. */
  const MinTranslationLength: nat := 10

  /**
    The one channel being processed, the digest function, the hashes read
    from the hash file, and the blocked keyword and emoji lists.
  */
  datatype Context = Context(
    hash: string -> string,
    channel: ChannelConfig,
    sentHashes: set<string>,
    blockedKeywords: seq<string>,
    blockedEmojis: seq<string>)

  /** The context of a run: the configured `BLOCKED_KEYWORDS` and `BLOCKED_EMOJIS`. */
  function BotContext(hash: string -> string, channel: ChannelConfig, sentHashes: set<string>): (ctx: Context)
    ensures ctx.blockedKeywords == BlockedKeywords && ctx.blockedEmojis == BlockedEmojis
    ensures ctx.hash == hash && ctx.channel == channel && ctx.sentHashes == sentHashes
  {
    Context(hash, channel, sentHashes, BlockedKeywords, BlockedEmojis)
  }

  /** What the outside world answers for one message. */
  datatype Oracles = Oracles(
    download: Download,               // the media download
    pixels: Option<seq<Pixel>>,       // the downloaded photo's pixels, `None` when it cannot be opened
    reply: Option<string>)            // the model's reply, `None` when the call raised

  datatype Reason =
    | NoTextOrSender | SenderNotAllowed | BlockedKeyword | LinkOrEmoji
    | SeenHash | AlreadyStored | TooRecent | HeavyPhoto | TooShort

  /** The screening checks, in the order they are applied. */
  const ScreenOrder: seq<Reason> :=
    [NoTextOrSender, SenderNotAllowed, BlockedKeyword, LinkOrEmoji, SeenHash, AlreadyStored, TooRecent]

  /** The reasons the screening checks give, before scoring and before the model is asked. */
  predicate Screening(reason: Reason) {
    !reason.HeavyPhoto? && !reason.TooShort?
  }

  /** The key saved in the hash file: the digest of channel name and raw text. */
  function Key(ctx: Context, msg: Message): string {
    ContentHash(ctx.hash, ctx.channel.name, RawText(msg))
  }

  /** The store key of a message: `<channel>_<message number>`. */
  function StoreKey(ctx: Context, msg: Message): string {
    MessageId(ctx.channel.name, msg.id)
  }

  /** Whether a message fails one screening check, judged on its own. */
  predicate Fails(reason: Reason, ctx: Context, db: Db, msg: Message, now: int) {
    match reason
    case NoTextOrSender => msg.text == "" || msg.sender.None?
    case SenderNotAllowed =>
      msg.sender.Some? && |ctx.channel.allowedSenders| > 0 && SenderName(msg.sender.value) !in ctx.channel.allowedSenders
    case BlockedKeyword => AnyTerm(ctx.blockedKeywords, Lower(RawText(msg)))
    case LinkOrEmoji => HasUrl(RawText(msg)) || AnyTerm(ctx.blockedEmojis, RawText(msg))
    case SeenHash => Key(ctx, msg) in ctx.sentHashes
    case AlreadyStored => MessageIdTaken(db.posts, StoreKey(ctx, msg))
    case TooRecent => msg.date.Some? && now - msg.date.value < MinAge
    case HeavyPhoto => false
    case TooShort => false
  }

  /** "DEM PARTİSİ", written with Turkish dotted capitals, is caught by the keyword "dem parti". */
  lemma DottedCapitalsBlocked(ctx: Context, db: Db, msg: Message, now: int)
    requires ctx.blockedKeywords == BlockedKeywords
    requires RawText(msg) == "DEM PART\U{130}S\U{130}"
    ensures Fails(BlockedKeyword, ctx, db, msg, now)
  {
    DottedCapitalKeywordMatches();
    DemPartiBlocked();
    assert Contains(Lower(RawText(msg)), ctx.blockedKeywords[11]);
  }

  /** The checks that come before the age check, in loop order: the first failing one stops the message. */
  function ContentScreen(ctx: Context, db: Db, msg: Message): (r: Option<Reason>)
    ensures r.Some? ==> Screening(r.value) && !r.value.TooRecent?
  {
    if msg.text == "" || msg.sender.None? then Some(NoTextOrSender)
    else if |ctx.channel.allowedSenders| > 0 && SenderName(msg.sender.value) !in ctx.channel.allowedSenders then
      Some(SenderNotAllowed)
    else if AnyTerm(ctx.blockedKeywords, Lower(RawText(msg))) then Some(BlockedKeyword)
    else if HasUrl(RawText(msg)) || AnyTerm(ctx.blockedEmojis, RawText(msg)) then Some(LinkOrEmoji)
    else if Key(ctx, msg) in ctx.sentHashes then Some(SeenHash)
    else if FindByMessageId(db.posts, StoreKey(ctx, msg)).Some? then Some(AlreadyStored)
    else None
  }

  /**
    The checks before scoring, with the age check as evidently intended: a
    dated message younger than five minutes at the UTC instant `now` is left
    for a later pass. The first failing check stops the message.
  */
  function Screen(ctx: Context, db: Db, msg: Message, now: int): (r: Option<Reason>)
    ensures r.Some? ==> Screening(r.value)
  {
    match ContentScreen(ctx, db, msg)
    case Some(reason) => Some(reason)
    case None => if msg.date.Some? && now - msg.date.value < MinAge then Some(TooRecent) else None
  }

  /** What the checks of `process_channel` do with a message: stop it, clear it, or raise. */
  datatype Checked = Stopped(reason: Reason) | Cleared | Raised

  /**
    The checks as written: the age is `datetime.now() - message.date`, a
    naive local time minus a timezone-aware UTC date, which raises
    `TypeError`. So every dated message that reaches the age check raises,
    and nothing in the loop catches it. Every other message is judged as
    `Screen` judges it, at any clock reading.
  */
  function ScreenAsWritten(ctx: Context, db: Db, msg: Message): (r: Checked)
    ensures r.Raised? ==> msg.date.Some?
    ensures r.Raised? ==> forall now :: Screen(ctx, db, msg, now).None? || Screen(ctx, db, msg, now) == Some(TooRecent)
    ensures r.Stopped? ==> r.reason != TooRecent && forall now :: Screen(ctx, db, msg, now) == Some(r.reason)
    ensures r.Cleared? ==> msg.date.None? && forall now :: Screen(ctx, db, msg, now).None?
  {
    match ContentScreen(ctx, db, msg)
    case Some(reason) => Stopped(reason)
    case None => if msg.date.Some? then Raised else Cleared
  }

  /**
    Every dated message that the intended checks let through makes the
    checks as written raise: at any clock reading, a message old enough to
    pass the age check never gets past it.
  */
  lemma DatedMessageRaises(ctx: Context, db: Db, msg: Message, now: int)
    requires msg.date.Some? && Screen(ctx, db, msg, now).None?
    ensures ScreenAsWritten(ctx, db, msg) == Raised
  {
  }

  /** A message passes screening exactly when it fails none of the checks. */
  lemma ScreenPassesIffNoFailure(ctx: Context, db: Db, msg: Message, now: int)
    ensures Screen(ctx, db, msg, now).None? <==>
      forall k :: 0 <= k < |ScreenOrder| ==> !Fails(ScreenOrder[k], ctx, db, msg, now)
  {
    if Screen(ctx, db, msg, now).None? {
      forall k | 0 <= k < |ScreenOrder| ensures !Fails(ScreenOrder[k], ctx, db, msg, now) {
        if k == 5 {
          assert FindByMessageId(db.posts, StoreKey(ctx, msg)).None?;
        }
      }
    } else {
      ScreenIsFirstFailure(ctx, db, msg, now);
    }
  }

  /** Where a screening reason stands in `ScreenOrder`. */
  function Position(r: Reason): nat {
    match r
    case NoTextOrSender => 0
    case SenderNotAllowed => 1
    case BlockedKeyword => 2
    case LinkOrEmoji => 3
    case SeenHash => 4
    case AlreadyStored => 5
    case TooRecent => 6
    case HeavyPhoto => 7
    case TooShort => 8
  }

  /**
    A message stopped by screening is stopped by the first check in
    `ScreenOrder` that it fails: it fails that check and passed every check
    before it.
  */
  lemma ScreenIsFirstFailure(ctx: Context, db: Db, msg: Message, now: int)
    requires Screen(ctx, db, msg, now).Some?
    ensures var k := Position(Screen(ctx, db, msg, now).value);
      && k < |ScreenOrder|
      && ScreenOrder[k] == Screen(ctx, db, msg, now).value
      && Fails(ScreenOrder[k], ctx, db, msg, now)
      && forall j :: 0 <= j < k ==> !Fails(ScreenOrder[j], ctx, db, msg, now)
  {
    if ContentScreen(ctx, db, msg).Some? {
      ContentScreenIsFirstFailure(ctx, db, msg, now);
    } else {
      ContentScreenCleared(ctx, db, msg, now);
    }
  }

  /** A message stopped before the age check fails that check and passes the earlier ones. */
  lemma ContentScreenIsFirstFailure(ctx: Context, db: Db, msg: Message, now: int)
    requires ContentScreen(ctx, db, msg).Some?
    ensures var k := Position(ContentScreen(ctx, db, msg).value);
      && k < 6
      && ScreenOrder[k] == ContentScreen(ctx, db, msg).value
      && Fails(ScreenOrder[k], ctx, db, msg, now)
      && forall j :: 0 <= j < k ==> !Fails(ScreenOrder[j], ctx, db, msg, now)
  {
  }

  /** A message that clears the checks before the age check fails none of them. */
  lemma ContentScreenCleared(ctx: Context, db: Db, msg: Message, now: int)
    requires ContentScreen(ctx, db, msg).None?
    ensures !Fails(NoTextOrSender, ctx, db, msg, now) && !Fails(SenderNotAllowed, ctx, db, msg, now)
    ensures !Fails(BlockedKeyword, ctx, db, msg, now) && !Fails(LinkOrEmoji, ctx, db, msg, now)
    ensures !Fails(SeenHash, ctx, db, msg, now) && !Fails(AlreadyStored, ctx, db, msg, now)
  {
    assert FindByMessageId(db.posts, StoreKey(ctx, msg)).None?;
  }

  /** A message that passes screening has text and a sender, and its store key is free. */
  lemma ScreenPassed(ctx: Context, db: Db, msg: Message, now: int)
    requires Screen(ctx, db, msg, now).None?
    ensures msg.text != "" && msg.sender.Some?
    ensures !MessageIdTaken(db.posts, StoreKey(ctx, msg))
  {
  }

  /** Only a key found in the hash set read before the pass stops a message as seen. */
  lemma SeenOnlyIfInSet(ctx: Context, db: Db, msg: Message, now: int)
    requires Key(ctx, msg) !in ctx.sentHashes
    ensures Screen(ctx, db, msg, now) != Some(SeenHash)
  {
  }

  /** The model declined: an empty answer or "SKIP" in any case. */
  predicate Declined(translated: string) {
    translated == "" || Upper(translated) == "SKIP"
  }

  /** `https://t.me/<channel>/<message number>`. */
  function TelegramUrl(channel: string, id: nat): string {
    "https://t.me/" + channel + "/" + NatToString(id)
  }

  /** The dictionary handed to the store for a screened message. */
  function RowFor(ctx: Context, msg: Message, media: Media, translated: Option<string>, classification: string, status: string): PostInput
    requires msg.sender.Some?
  {
    var cleaned := RemoveHashtags(RawText(msg));
    PostInput(
      Some(StoreKey(ctx, msg)), Some(ctx.channel.name), Some(SenderName(msg.sender.value)),
      Some(cleaned), translated, media.kind, media.path, Some(classification),
      Some(ContentQuality(cleaned)), Some(BiasScore(cleaned)), Some(status),
      Some(Key(ctx, msg)), Some(ctx.hash(cleaned)), Some(ctx.channel.priority),
      Some(TelegramUrl(ctx.channel.name, msg.id)))
  }

  datatype Outcome =
    | Skipped(reason: Reason)
    | StoredRejected(inserted: Option<int>)   // stored as rejected; the insert's id, if it succeeded
    | NotStored                         // the pending insert failed
    | Published(id: int)                // stored, sent and marked posted

  /** The store after one message, its outcome, whether the model was asked, and the hash appended to the hash file. */
  datatype Step = Step(db: Db, outcome: Outcome, modelCalled: bool, savedHash: Option<string>)

  /** The loop body for one message. */
  function ProcessMessage(ctx: Context, db: Db, msg: Message, o: Oracles, now: int): (r: Step)
    ensures r.db.actions == db.actions
    ensures Valid(db) ==> Valid(r.db)
    ensures r.savedHash.Some? ==> r.savedHash == Some(Key(ctx, msg))
    ensures r.savedHash.Some? <==> r.outcome.StoredRejected? || r.outcome.Published?
  {
    match Screen(ctx, db, msg, now)
    case Some(reason) => Step(db, Skipped(reason), false, None)
    case None =>
      var media := FetchMedia(msg.media, o.download, o.pixels, MediaThreshold);
      if media.heavy then Step(db, Skipped(HeavyPhoto), false, None)
      else Classify(ctx, db, msg, media, Answer(o.reply), now)
  }

  /**
    The model's verdict on a screened message: a declined item is stored as
    rejected and its hash saved; a translation too short is dropped without
    a trace; any other is stored and posted.
  */
  function Classify(ctx: Context, db: Db, msg: Message, media: Media, translated: string, now: int): (r: Step)
    requires msg.sender.Some?
    ensures r.modelCalled
    ensures r.db.actions == db.actions
    ensures Valid(db) ==> Valid(r.db)
    ensures r.savedHash.Some? ==> r.savedHash == Some(Key(ctx, msg))
    ensures r.savedHash.Some? <==> r.outcome.StoredRejected? || r.outcome.Published?
  {
    if Declined(translated) then
      var ins := AddPost(db, RowFor(ctx, msg, media, None, "non_geopolitical", Rejected), now);
      Step(ins.db, StoredRejected(ins.id), true, Some(Key(ctx, msg)))
    else if |Strip(translated)| < MinTranslationLength then Step(db, Skipped(TooShort), true, None)
    else StoreAndPost(db, RowFor(ctx, msg, media, Some(translated), "geopolitical", Pending), Key(ctx, msg), now)
  }

  /**
    Storing an accepted item as pending, then, when the insert gave an id,
    saving its hash and marking it posted. In a consistent store an insert
    that violates nothing succeeds, and the new row, posted and stamped with
    the posting time, is the only change.
  */
  function StoreAndPost(db: Db, input: PostInput, key: string, now: int): (r: Step)
    ensures r.db.actions == db.actions
    ensures Valid(db) ==> Valid(r.db)
    ensures r.savedHash.Some? ==> r.savedHash == Some(key)
    ensures r.savedHash.Some? <==> r.outcome.Published?
    ensures Valid(db) && !Violates(db.posts, input) ==>
      && r.outcome == Published(db.nextPostId)
      && r.savedHash == Some(key)
      && |r.db.posts| == |db.posts| + 1
      && r.db.posts[..|db.posts|] == db.posts
      && StoredAs(r.db.posts[|db.posts|].(status := input.status.GetOr(Pending), postedAt := None), input, db.nextPostId, now)
      && r.db.posts[|db.posts|].status == Posted
      && r.db.posts[|db.posts|].postedAt == Some(now)
  {
    var ins := AddPost(db, input, now);
    if ins.id.None? || ins.id.value == 0 then Step(ins.db, NotStored, true, None)
    else
      var upd := UpdatePostStatus(ins.db, ins.id.value, Posted, None, now);
      PostedFreshRow(db, ins, upd, input, now);
      Step(upd.db, Published(ins.id.value), true, Some(key))
  }

  /** The facts behind `StoreAndPost` for a consistent store. */
  lemma PostedFreshRow(db: Db, ins: Inserted, upd: Updated, input: PostInput, now: int)
    requires ins == AddPost(db, input, now) && ins.id.Some?
    requires upd == UpdatePostStatus(ins.db, ins.id.value, Posted, None, now)
    ensures Valid(db) ==>
      && |upd.db.posts| == |db.posts| + 1
      && upd.db.posts[..|db.posts|] == db.posts
      && StoredAs(upd.db.posts[|db.posts|].(status := input.status.GetOr(Pending), postedAt := None), input, db.nextPostId, now)
      && upd.db.posts[|db.posts|].status == Posted
      && upd.db.posts[|db.posts|].postedAt == Some(now)
  {
    if Valid(db) {
      var row := ins.db.posts[|db.posts|];
      assert ins.db.posts == db.posts + [row];
      RestatusFreshRow(db, ins.db, row, now);
      assert upd.db.posts == db.posts + [Restatus(row, Posted, None, now)];
      assert upd.db.posts[..|db.posts|] == db.posts;
    }
  }

  /**
    A message stopped by a screening check is stopped before scoring and
    before the model is asked: the store is untouched and no hash is saved.
    Conversely, a screening reason as outcome means that check stopped it.
  */
  lemma ScreenedLeavesNoTrace(ctx: Context, db: Db, msg: Message, o: Oracles, now: int)
    ensures var r := ProcessMessage(ctx, db, msg, o, now);
      Screen(ctx, db, msg, now).Some? ==>
        r.outcome == Skipped(Screen(ctx, db, msg, now).value) && !r.modelCalled && r.db == db && r.savedHash.None?
    ensures var r := ProcessMessage(ctx, db, msg, o, now);
      r.outcome.Skipped? && Screening(r.outcome.reason) ==> Screen(ctx, db, msg, now) == Some(r.outcome.reason)
  {
  }

  /**
    A red/black-heavy photo is dropped before the model is asked, is not
    stored and its hash is not saved; any other media lets the message go on
    to the model.
  */
  lemma HeavyPhotoDropped(ctx: Context, db: Db, msg: Message, o: Oracles, now: int)
    requires Screen(ctx, db, msg, now).None?
    ensures var r := ProcessMessage(ctx, db, msg, o, now);
      r.outcome == Skipped(HeavyPhoto) <==> !r.modelCalled
    ensures var r := ProcessMessage(ctx, db, msg, o, now);
      r.outcome == Skipped(HeavyPhoto) <==>
        msg.media == PhotoMedia && o.download.Downloaded? && o.download.path.Some? && IsRedOrBlackHeavy(o.pixels, MediaThreshold)
    ensures var r := ProcessMessage(ctx, db, msg, o, now);
      r.outcome == Skipped(HeavyPhoto) ==> r.db == db && r.savedHash.None?
  {
    ScreenPassed(ctx, db, msg, now);
    var media := FetchMedia(msg.media, o.download, o.pixels, MediaThreshold);
    if media.heavy {
      assert ProcessMessage(ctx, db, msg, o, now) == Step(db, Skipped(HeavyPhoto), false, None);
    } else {
      assert ProcessMessage(ctx, db, msg, o, now) == Classify(ctx, db, msg, media, Answer(o.reply), now);
    }
  }

  /** The fields of a stored row that record the message and its scores. */
  predicate Records(p: Post, ctx: Context, msg: Message, id: int, now: int) {
    var cleaned := RemoveHashtags(RawText(msg));
    && p.id == id
    && p.messageId == StoreKey(ctx, msg)
    && p.channelName == ctx.channel.name
    && p.originalText == cleaned
    && p.qualityScore == ContentQuality(cleaned)
    && p.biasScore == BiasScore(cleaned)
    && p.contentHash == Some(Key(ctx, msg))
    && p.similarityHash == Some(ctx.hash(cleaned))
    && p.priority == ctx.channel.priority
    && p.createdAt == now
  }

  /**
    An empty or "SKIP" answer stores exactly one new row, as `rejected`
    and `non_geopolitical` with no translation and the computed scores, and
    saves the hash. In a consistent store the insert cannot fail, since the
    screening already found the message number free.
  */
  lemma DeclinedStoredAsRejected(ctx: Context, db: Db, msg: Message, o: Oracles, now: int)
    requires Valid(db)
    requires Screen(ctx, db, msg, now).None? && !FetchMedia(msg.media, o.download, o.pixels, MediaThreshold).heavy
    requires Declined(Answer(o.reply))
    ensures var r := ProcessMessage(ctx, db, msg, o, now);
      && r.outcome == StoredRejected(Some(db.nextPostId))
      && r.modelCalled
      && r.savedHash == Some(Key(ctx, msg))
      && |r.db.posts| == |db.posts| + 1
      && r.db.posts[..|db.posts|] == db.posts
      && Records(r.db.posts[|db.posts|], ctx, msg, db.nextPostId, now)
      && r.db.posts[|db.posts|].status == Rejected
      && r.db.posts[|db.posts|].classification == Some("non_geopolitical")
      && r.db.posts[|db.posts|].translatedText.None?
  {
    ScreenPassed(ctx, db, msg, now);
    var media := FetchMedia(msg.media, o.download, o.pixels, MediaThreshold);
    var input := RowFor(ctx, msg, media, None, "non_geopolitical", Rejected);
    var ins := AddPost(db, input, now);
    assert ins.id == Some(db.nextPostId);
    assert StoredAs(ins.db.posts[|db.posts|], input, db.nextPostId, now);
    assert ProcessMessage(ctx, db, msg, o, now) == Classify(ctx, db, msg, media, Answer(o.reply), now);
  }

  /** A translation shorter than ten characters is neither stored nor hash-saved. */
  lemma ShortTranslationDropped(ctx: Context, db: Db, msg: Message, o: Oracles, now: int)
    requires Screen(ctx, db, msg, now).None? && !FetchMedia(msg.media, o.download, o.pixels, MediaThreshold).heavy
    requires !Declined(Answer(o.reply)) && |Strip(Answer(o.reply))| < MinTranslationLength
    ensures var r := ProcessMessage(ctx, db, msg, o, now);
      r.outcome == Skipped(TooShort) && r.modelCalled && r.db == db && r.savedHash.None?
  {
  }

  /** Restatusing the row just appended under a fresh id changes only that row. */
  lemma RestatusFreshRow(db: Db, next: Db, row: Post, now: int)
    requires Valid(db) && row.id == db.nextPostId
    requires next.posts == db.posts + [row]
    ensures UpdatePostStatus(next, row.id, Posted, None, now).db.posts == db.posts + [Restatus(row, Posted, None, now)]
  {
    var upd := UpdatePostStatus(next, row.id, Posted, None, now);
    assert next.posts[|db.posts|] == row;
    forall i | 0 <= i < |db.posts| ensures upd.db.posts[i] == db.posts[i] {
      assert next.posts[i] == db.posts[i];
    }
  }

  /**
    An accepted translation is stored under a fresh id, its hash is saved,
    and the row ends up `posted`, stamped with the posting time, whatever
    became of the send. Nothing else in the store changes.
  */
  lemma AcceptedIsPublished(ctx: Context, db: Db, msg: Message, o: Oracles, now: int)
    requires Valid(db)
    requires Screen(ctx, db, msg, now).None? && !FetchMedia(msg.media, o.download, o.pixels, MediaThreshold).heavy
    requires !Declined(Answer(o.reply)) && |Strip(Answer(o.reply))| >= MinTranslationLength
    ensures var r := ProcessMessage(ctx, db, msg, o, now);
      && r.outcome == Published(db.nextPostId)
      && r.savedHash == Some(Key(ctx, msg))
      && |r.db.posts| == |db.posts| + 1
      && r.db.posts[..|db.posts|] == db.posts
      && Records(r.db.posts[|db.posts|], ctx, msg, db.nextPostId, now)
      && r.db.posts[|db.posts|].status == Posted
      && r.db.posts[|db.posts|].postedAt == Some(now)
      && r.db.posts[|db.posts|].classification == Some("geopolitical")
      && r.db.posts[|db.posts|].translatedText == Some(Answer(o.reply))
  {
    ScreenPassed(ctx, db, msg, now);
    var media := FetchMedia(msg.media, o.download, o.pixels, MediaThreshold);
    assert ProcessMessage(ctx, db, msg, o, now) == Classify(ctx, db, msg, media, Answer(o.reply), now);
    ClassifyAccepted(ctx, db, msg, media, Answer(o.reply), now);
  }

  /** `AcceptedIsPublished` once the message is past screening and the media check. */
  lemma ClassifyAccepted(ctx: Context, db: Db, msg: Message, media: Media, translated: string, now: int)
    requires Valid(db) && msg.sender.Some? && !MessageIdTaken(db.posts, StoreKey(ctx, msg))
    requires !Declined(translated) && |Strip(translated)| >= MinTranslationLength
    ensures var r := Classify(ctx, db, msg, media, translated, now);
      && r.outcome == Published(db.nextPostId)
      && r.savedHash == Some(Key(ctx, msg))
      && |r.db.posts| == |db.posts| + 1
      && r.db.posts[..|db.posts|] == db.posts
      && Records(r.db.posts[|db.posts|], ctx, msg, db.nextPostId, now)
      && r.db.posts[|db.posts|].status == Posted
      && r.db.posts[|db.posts|].postedAt == Some(now)
      && r.db.posts[|db.posts|].classification == Some("geopolitical")
      && r.db.posts[|db.posts|].translatedText == Some(translated)
  {
    var input := RowFor(ctx, msg, media, Some(translated), "geopolitical", Pending);
    assert !Violates(db.posts, input);
    var r := StoreAndPost(db, input, Key(ctx, msg), now);
    var p := r.db.posts[|db.posts|];
    RowRecords(ctx, msg, media, Some(translated), "geopolitical", Pending,
               p.(status := Pending, postedAt := None), db.nextPostId, now);
  }

  /** A row stored from `RowFor` records the message and carries the given classification and translation. */
  lemma RowRecords(ctx: Context, msg: Message, media: Media, translated: Option<string>, classification: string,
                   status: string, q: Post, id: int, now: int)
    requires msg.sender.Some?
    requires StoredAs(q, RowFor(ctx, msg, media, translated, classification, status), id, now)
    ensures Records(q, ctx, msg, id, now)
    ensures q.classification == Some(classification) && q.translatedText == translated
  {
  }

  /**
    The loop body as written: `None` when the age check raises, which ends
    the pass with the exception; otherwise the step `ProcessMessage` takes.
    As written, only undated messages are ever published.
  */
  function ProcessMessageAsWritten(ctx: Context, db: Db, msg: Message, o: Oracles, now: int): (r: Option<Step>)
    ensures r.None? <==> ScreenAsWritten(ctx, db, msg).Raised?
    ensures r.Some? && r.value.outcome.Published? ==> msg.date.None?
    ensures r.Some? && r.value.modelCalled ==> msg.date.None?
  {
    if ScreenAsWritten(ctx, db, msg).Raised? then None else Some(ProcessMessage(ctx, db, msg, o, now))
  }

  /**
    A dated message posted more than five minutes ago, which passes every
    check and which the model accepts, is published by the intended loop
    body, but makes the body as written raise before it is scored.
  */
  lemma OldDatedMessageRaises(ctx: Context, db: Db, msg: Message, o: Oracles, now: int)
    requires Valid(db) && msg.date.Some?
    requires Screen(ctx, db, msg, now).None? && !FetchMedia(msg.media, o.download, o.pixels, MediaThreshold).heavy
    requires !Declined(Answer(o.reply)) && |Strip(Answer(o.reply))| >= MinTranslationLength
    ensures ProcessMessageAsWritten(ctx, db, msg, o, now).None?
    ensures ProcessMessage(ctx, db, msg, o, now).outcome == Published(db.nextPostId)
  {
    DatedMessageRaises(ctx, db, msg, now);
    AcceptedIsPublished(ctx, db, msg, o, now);
  }

  /**
    Every text that contains one of the zionist-family terms is stopped as a
    blocked keyword, so the bias score never sees it.
  */
  lemma ZionistTextBlocked(ctx: Context, db: Db, msg: Message, o: Oracles, now: int, k: nat)
    requires ctx.blockedKeywords == BlockedKeywords
    requires msg.text != "" && msg.sender.Some?
    requires |ctx.channel.allowedSenders| == 0 || SenderName(msg.sender.value) in ctx.channel.allowedSenders
    requires k < |ZionistTerms| && Contains(Lower(RawText(msg)), ZionistTerms[k])
    ensures ProcessMessage(ctx, db, msg, o, now).outcome == Skipped(BlockedKeyword)
    ensures ProcessMessage(ctx, db, msg, o, now).db == db
  {
    AnyTermOfSuffix(BaseBlockedKeywords, ZionistTerms, Lower(RawText(msg)), k);
    assert Screen(ctx, db, msg, now) == Some(BlockedKeyword);
    ScreenedLeavesNoTrace(ctx, db, msg, o, now);
  }

  /**
    The channel's store after a pass; the outcomes of the messages handled
    without publishing, in order; the id published, if one was; and the
    hashes appended to the hash file.
  */
  datatype Pass = Pass(db: Db, skipped: seq<Outcome>, published: Option<int>, savedHashes: seq<string>)

  /** No message among `outs` was published. */
  predicate NonePublished(outs: seq<Outcome>) {
    forall j :: 0 <= j < |outs| ==> !outs[j].Published?
  }

  /** The hashes a step appends to the hash file. */
  function Saved(step: Step): seq<string> {
    if step.savedHash.Some? then [step.savedHash.value] else []
  }

  /**
    The loop over `msgs[k..]`, with the hash set read before the pass: it
    returns after the first message it publishes, so every message before
    that one was not published, and when none is published every message
    is handled.
  */
  function PassFrom(ctx: Context, db: Db, msgs: seq<Message>, oracles: nat -> Oracles, now: int, k: nat): (r: Pass)
    requires k <= |msgs|
    ensures NonePublished(r.skipped)
    ensures r.published.None? ==> |r.skipped| == |msgs| - k
    ensures r.published.Some? ==> |r.skipped| < |msgs| - k
    ensures r.db.actions == db.actions
    ensures Valid(db) ==> Valid(r.db)
    decreases |msgs| - k
  {
    if k == |msgs| then Pass(db, [], None, [])
    else
      var step := ProcessMessage(ctx, db, msgs[k], oracles(k), now);
      if step.outcome.Published? then Pass(step.db, [], Some(step.outcome.id), Saved(step))
      else
        var rest := PassFrom(ctx, step.db, msgs, oracles, now, k + 1);
        Pass(rest.db, [step.outcome] + rest.skipped, rest.published, Saved(step) + rest.savedHashes)
  }

  /**
    `process_channel`: the newest `MESSAGE_LIMIT` messages of the history
    (newest first), processed in order until the first one published. At
    most that many are handled; all of them when none is published.
  */
  function ProcessChannel(ctx: Context, db: Db, history: seq<Message>, oracles: nat -> Oracles, now: int): (r: Pass)
    ensures NonePublished(r.skipped)
    ensures |r.skipped| + (if r.published.Some? then 1 else 0) <= MessageLimit
    ensures r.published.None? ==> |r.skipped| == Min(MessageLimit, |history|)
    ensures Valid(db) ==> Valid(r.db)
  {
    PassFrom(ctx, db, history[..Min(MessageLimit, |history|)], oracles, now, 0)
  }

  /** How a pass goes on after a first message that is not published. */
  lemma PassAfterFirst(ctx: Context, db: Db, msgs: seq<Message>, oracles: nat -> Oracles, now: int)
    requires |msgs| >= 2
    requires !ProcessMessage(ctx, db, msgs[0], oracles(0), now).outcome.Published?
    ensures var first := ProcessMessage(ctx, db, msgs[0], oracles(0), now);
      var second := ProcessMessage(ctx, first.db, msgs[1], oracles(1), now);
      var r := PassFrom(ctx, db, msgs, oracles, now, 0);
      && r.skipped[0] == first.outcome
      && (second.outcome.Published? ==> r.published == Some(second.outcome.id))
      && (!second.outcome.Published? ==> |r.skipped| >= 2 && r.skipped[1] == second.outcome)
      && (first.savedHash.Some? ==> r.savedHashes[0] == first.savedHash.value)
  {
    var first := ProcessMessage(ctx, db, msgs[0], oracles(0), now);
    var rest := PassFrom(ctx, first.db, msgs, oracles, now, 1);
    var second := ProcessMessage(ctx, first.db, msgs[1], oracles(1), now);
    if !second.outcome.Published? {
      assert rest.skipped[0] == second.outcome;
    }
  }

  /**
    The hash set is not updated during a pass: when the first message is
    not published, a second message with the same text is not stopped as a
    seen hash, even when the first one's hash was just appended to the file.
  */
  lemma HashSetReadOnce(ctx: Context, db: Db, msgs: seq<Message>, oracles: nat -> Oracles, now: int)
    requires |msgs| >= 2 && msgs[1].text == msgs[0].text && Key(ctx, msgs[0]) !in ctx.sentHashes
    requires !ProcessMessage(ctx, db, msgs[0], oracles(0), now).outcome.Published?
    ensures var first := ProcessMessage(ctx, db, msgs[0], oracles(0), now);
      var second := ProcessMessage(ctx, first.db, msgs[1], oracles(1), now);
      var r := PassFrom(ctx, db, msgs, oracles, now, 0);
      && second.outcome != Skipped(SeenHash)
      && (!second.outcome.Published? ==> |r.skipped| >= 2 && r.skipped[1] == second.outcome)
      && (first.outcome.StoredRejected? ==> r.savedHashes[0] == Key(ctx, msgs[1]))
  {
    var first := ProcessMessage(ctx, db, msgs[0], oracles(0), now);
    PassAfterFirst(ctx, db, msgs, oracles, now);
    assert Key(ctx, msgs[1]) == Key(ctx, msgs[0]);
    SeenOnlyIfInSet(ctx, first.db, msgs[1], now);
    ScreenedLeavesNoTrace(ctx, first.db, msgs[1], oracles(1), now);
  }
}

=== FILE: pipeline_main.dfy ===
/**
  The standalone forwarding loop (`main`): every pass reads the hash file
  once, then walks the newest messages of each followed channel. A message
  that survives the sender, keyword, link, emoji and duplicate checks is
  asked about in three model calls — is it geopolitical, how important is
  it, and its English rewrite — and is then sent, with its media, to the
  review chat; the important ones also go to Twitter. There is no store.

  The digest, the model replies, the media download and the photo decoding
  are inputs; sending, logging and sleeping are not modelled.
*/
module MainPipeline {
  import opened Common
  import opened Text
  import opened Config
  import opened Fingerprint
  import opened MediaGate
  import opened Inbound

  /** A followed channel: its name, language and the only sender names accepted from it. */
  datatype MainChannel = MainChannel(name: string, lang: string, allowedSenders: seq<string>)

  /** `channel_usernames`, in declaration order. */
  const MainChannels: seq<MainChannel> := [
    MainChannel("conflict_tr", "tr", ["ConflictTR"]),
    MainChannel("ww3media", "tr", ["3. Dünya Savaşı"]),
    MainChannel("ateobreaking", "ru", ["Ateo Breaking"])
  ]

  /** The importance level dropped before translation. */
  const Unimportant: string := "Önemsiz"

  /** The importance assumed when the importance call raised. */
  const UnknownImportance: string := "Bilinmiyor"

  /**
    The channel being walked, the digest function, the hashes read from
    the hash file at the start of the pass, and the blocked lists.
  */
  datatype Context = Context(
    hash: string -> string,
    channel: MainChannel,
    sentHashes: set<string>,
    blockedKeywords: seq<string>,
    blockedEmojis: seq<string>)

  /** What the outside world answers for one message. */
  datatype Oracles = Oracles(
    geo: Option<string>,              // reply to "is it geopolitical?", `None` when the call raised
    importance: Option<string>,       // reply to the importance question, `None` when the call raised
    translation: Option<string>,      // the rewrite, `None` when the call raised
    download: Download,               // the media download
    pixels: Option<seq<Pixel>>)       // the downloaded photo's pixels, `None` when it cannot be opened

  datatype Reason =
    | NoTextOrSender | SenderNotAllowed | BlockedKeyword | Link | Emoji | SeenHash
    | NotGeopolitical | NotImportant | HeavyPhoto

  /** The checks made before any model call, in the order they are applied. */
  const ScreenOrder: seq<Reason> := [NoTextOrSender, SenderNotAllowed, BlockedKeyword, Link, Emoji, SeenHash]

  /** The reasons the screening checks give. */
  predicate Screening(reason: Reason) {
    !reason.NotGeopolitical? && !reason.NotImportant? && !reason.HeavyPhoto?
  }

  /** The key saved in the hash file: the digest of channel name and raw text. */
  function Key(ctx: Context, msg: Message): string {
    ContentHash(ctx.hash, ctx.channel.name, RawText(msg))
  }

  /** Whether a message fails one screening check, judged on its own. */
  predicate Fails(reason: Reason, ctx: Context, msg: Message) {
    match reason
    case NoTextOrSender => msg.text == "" || msg.sender.None?
    case SenderNotAllowed => msg.sender.Some? && SenderName(msg.sender.value) !in ctx.channel.allowedSenders
    case BlockedKeyword => AnyTerm(ctx.blockedKeywords, Lower(RawText(msg)))
    case Link => HasUrl(RawText(msg))
    case Emoji => AnyTerm(ctx.blockedEmojis, RawText(msg))
    case SeenHash => Key(ctx, msg) in ctx.sentHashes
    case NotGeopolitical => false
    case NotImportant => false
    case HeavyPhoto => false
  }

  /** "DEM PARTİSİ", written with Turkish dotted capitals, is caught by the keyword "dem parti". */
  lemma DottedCapitalsBlocked(ctx: Context, msg: Message)
    requires ctx.blockedKeywords == BaseBlockedKeywords
    requires RawText(msg) == "DEM PART\U{130}S\U{130}"
    ensures Fails(BlockedKeyword, ctx, msg)
  {
    DottedCapitalKeywordMatches();
    DemPartiBlocked();
    assert Contains(Lower(RawText(msg)), ctx.blockedKeywords[11]);
  }

  /** The checks before the model is asked: the first failing one stops the message. */
  function Screen(ctx: Context, msg: Message): (r: Option<Reason>)
    ensures r.Some? ==> Screening(r.value)
  {
    if msg.text == "" || msg.sender.None? then Some(NoTextOrSender)
    else if SenderName(msg.sender.value) !in ctx.channel.allowedSenders then Some(SenderNotAllowed)
    else if AnyTerm(ctx.blockedKeywords, Lower(RawText(msg))) then Some(BlockedKeyword)
    else if HasUrl(RawText(msg)) then Some(Link)
    else if AnyTerm(ctx.blockedEmojis, RawText(msg)) then Some(Emoji)
    else if Key(ctx, msg) in ctx.sentHashes then Some(SeenHash)
    else None
  }

  /** Where a screening reason stands in `ScreenOrder`. */
  function Position(r: Reason): nat {
    match r
    case NoTextOrSender => 0
    case SenderNotAllowed => 1
    case BlockedKeyword => 2
    case Link => 3
    case Emoji => 4
    case SeenHash => 5
    case NotGeopolitical => 6
    case NotImportant => 7
    case HeavyPhoto => 8
  }

  /** A message passes screening exactly when it fails none of the checks. */
  lemma ScreenPassesIffNoFailure(ctx: Context, msg: Message)
    ensures Screen(ctx, msg).None? <==>
      forall k :: 0 <= k < |ScreenOrder| ==> !Fails(ScreenOrder[k], ctx, msg)
  {
    if Screen(ctx, msg).Some? {
      ScreenIsFirstFailure(ctx, msg);
    }
  }

  /**
    A message stopped by screening is stopped by the first check in
    `ScreenOrder` that it fails: it fails that check and passed every check
    before it.
  */
  lemma ScreenIsFirstFailure(ctx: Context, msg: Message)
    requires Screen(ctx, msg).Some?
    ensures var k := Position(Screen(ctx, msg).value);
      && k < |ScreenOrder|
      && ScreenOrder[k] == Screen(ctx, msg).value
      && Fails(ScreenOrder[k], ctx, msg)
      && forall j :: 0 <= j < k ==> !Fails(ScreenOrder[j], ctx, msg)
  {
  }

  /**
    The allow-list is strict: a channel listing no sender accepts nobody,
    and every message with text and a sender is stopped there.
  */
  lemma EmptyAllowListAcceptsNobody(ctx: Context, msg: Message)
    requires |ctx.channel.allowedSenders| == 0
    ensures Screen(ctx, msg).Some?
    ensures msg.text != "" && msg.sender.Some? ==> Screen(ctx, msg) == Some(SenderNotAllowed)
  {
  }

  /** The geopolitical gate: the reply, stripped and upper-cased, is exactly "YES"; a failed call says no. */
  predicate IsGeopolitical(reply: Option<string>) {
    reply.Some? && Upper(Strip(reply.value)) == "YES"
  }

  /** The gate accepts "yes" in any mix of cases, and a failed call says no. */
  lemma GeoAcceptsYesInAnyCase(s: string)
    requires |s| == 3 && UpperChar(s[0]) == 'Y' && UpperChar(s[1]) == 'E' && UpperChar(s[2]) == 'S'
    ensures IsGeopolitical(Some(s))
    ensures !IsGeopolitical(None)
  {
    StripUnpadded(s);
    assert Upper(s) == "YES";
  }

  /** A reply that is not three letters once stripped, such as "YES.", is a no; so is "NO". */
  lemma GeoRejectsOthers(s: string)
    requires |Strip(s)| != 3
    ensures !IsGeopolitical(Some(s))
    ensures !IsGeopolitical(Some("NO"))
  {
    assert |Upper(Strip(s))| != |"YES"|;
    StripUnpadded("NO");
    assert Upper("NO")[0] == 'N';
  }

  /** The importance level: the stripped reply, or "Bilinmiyor" when the call raised. */
  function Importance(reply: Option<string>): (level: string)
    ensures reply.None? ==> level == UnknownImportance
  {
    match reply
    case None => UnknownImportance
    case Some(s) => Strip(s)
  }

  /** Only the two top levels are also posted to Twitter. */
  predicate ToTwitter(level: string) {
    level == "Çok Önemli" || level == "Önemli"
  }

  datatype Outcome =
    | Dropped(reason: Reason)
    | Sent(text: string, mediaPath: Option<string>, isVideo: bool, toTwitter: bool)

  /** One message's outcome, which model calls were made, and the hash appended to the hash file. */
  datatype Step = Step(outcome: Outcome, geoAsked: bool, importanceAsked: bool, translated: bool, savedHash: Option<string>)

  /** The loop body after screening: the three model calls, then the media. */
  function Decide(ctx: Context, msg: Message, o: Oracles): (r: Step)
    ensures r.geoAsked
    ensures r.translated ==> r.importanceAsked
    ensures r.savedHash.Some? <==> r.outcome.Sent?
    ensures r.savedHash.Some? ==> r.savedHash == Some(Key(ctx, msg))
    ensures r.outcome.Dropped? ==> !Screening(r.outcome.reason)
    ensures r.outcome.Sent? ==> r.translated && r.outcome.text == Answer(o.translation)
    ensures r.outcome.Sent? ==> (r.outcome.toTwitter <==> ToTwitter(Importance(o.importance)))
  {
    if !IsGeopolitical(o.geo) then Step(Dropped(NotGeopolitical), true, false, false, None)
    else
      var level := Importance(o.importance);
      if level == Unimportant then Step(Dropped(NotImportant), true, true, false, None)
      else
        var media := FetchMedia(msg.media, o.download, o.pixels, DefaultThreshold);
        if media.heavy then Step(Dropped(HeavyPhoto), true, true, true, None)
        else Step(Sent(Answer(o.translation), media.path, media.isVideo, ToTwitter(level)), true, true, true, Some(Key(ctx, msg)))
  }

  /** The loop body for one message. */
  function ProcessMessage(ctx: Context, msg: Message, o: Oracles): (r: Step)
    ensures r.translated ==> r.importanceAsked
    ensures r.importanceAsked ==> r.geoAsked
    ensures r.savedHash.Some? <==> r.outcome.Sent?
    ensures r.savedHash.Some? ==> r.savedHash == Some(Key(ctx, msg))
    ensures r.outcome.Sent? ==> (r.outcome.toTwitter <==> ToTwitter(Importance(o.importance)))
  {
    match Screen(ctx, msg)
    case Some(reason) => Step(Dropped(reason), false, false, false, None)
    case None => Decide(ctx, msg, o)
  }

  /**
    A message stopped by screening costs no model call and leaves no hash,
    and a message dropped for a screening reason was stopped by screening.
  */
  lemma ScreenedBeforeModel(ctx: Context, msg: Message, o: Oracles)
    ensures var r := ProcessMessage(ctx, msg, o);
      Screen(ctx, msg).Some? ==>
        && r.outcome == Dropped(Screen(ctx, msg).value)
        && !r.geoAsked && r.savedHash.None?
    ensures var r := ProcessMessage(ctx, msg, o);
      r.outcome.Dropped? && Screening(r.outcome.reason) ==> Screen(ctx, msg) == Some(r.outcome.reason)
  {
    if Screen(ctx, msg).None? {
      assert ProcessMessage(ctx, msg, o) == Decide(ctx, msg, o);
    }
  }

  /** After screening, the geopolitical answer alone decides whether the message goes on to the importance question. */
  lemma GeoGate(ctx: Context, msg: Message, o: Oracles)
    requires Screen(ctx, msg).None?
    ensures var r := ProcessMessage(ctx, msg, o);
      && r.geoAsked
      && (r.outcome == Dropped(NotGeopolitical) <==> !IsGeopolitical(o.geo))
      && (r.importanceAsked <==> IsGeopolitical(o.geo))
  {
    assert ProcessMessage(ctx, msg, o) == Decide(ctx, msg, o);
  }

  /**
    A geopolitical message rated "Önemsiz" is dropped before translation;
    every other rating, including the one assumed when the call raised,
    goes on to the translation.
  */
  lemma UnimportantNotTranslated(ctx: Context, msg: Message, o: Oracles)
    requires Screen(ctx, msg).None? && IsGeopolitical(o.geo)
    ensures var r := ProcessMessage(ctx, msg, o);
      && (r.outcome == Dropped(NotImportant) <==> Importance(o.importance) == Unimportant)
      && (r.translated <==> Importance(o.importance) != Unimportant)
      && (o.importance.None? ==> r.translated)
  {
    assert ProcessMessage(ctx, msg, o) == Decide(ctx, msg, o);
  }

  /**
    The colour gate runs after the translation: a heavy photo is dropped
    although the rewrite was already paid for, and its hash is not saved,
    so the message is asked about again on the next pass.
  */
  lemma HeavyPhotoAfterTranslation(ctx: Context, msg: Message, o: Oracles)
    requires Screen(ctx, msg).None? && IsGeopolitical(o.geo) && Importance(o.importance) != Unimportant
    ensures var r := ProcessMessage(ctx, msg, o);
      && r.translated
      && (r.outcome == Dropped(HeavyPhoto) <==> FetchMedia(msg.media, o.download, o.pixels, DefaultThreshold).heavy)
      && (r.outcome == Dropped(HeavyPhoto) ==> r.savedHash.None?)
  {
    assert ProcessMessage(ctx, msg, o) == Decide(ctx, msg, o);
  }

  /**
    A message that clears every gate is sent with its media and its hash is
    saved — even when the translation call raised and the text is empty.
    Only the two top ratings go to Twitter, never the rating assumed for a
    failed importance call.
  */
  lemma AcceptedIsSent(ctx: Context, msg: Message, o: Oracles)
    requires Screen(ctx, msg).None? && IsGeopolitical(o.geo) && Importance(o.importance) != Unimportant
    requires !FetchMedia(msg.media, o.download, o.pixels, DefaultThreshold).heavy
    ensures var r := ProcessMessage(ctx, msg, o);
      var media := FetchMedia(msg.media, o.download, o.pixels, DefaultThreshold);
      && r.outcome.Sent?
      && r.outcome.mediaPath == media.path && r.outcome.isVideo == media.isVideo
      && r.savedHash == Some(Key(ctx, msg))
      && (o.translation.None? ==> r.outcome.text == "")
      && (o.importance.None? ==> !r.outcome.toTwitter)
  {
    assert ProcessMessage(ctx, msg, o) == Decide(ctx, msg, o);
  }

  /**
    One channel: its newest `MessageLimit` messages, newest first, each
    judged against the context of the pass — the hash set read when the
    pass began, never a hash saved during it.
  */
  function ChannelRun(ctx: Context, history: seq<Message>, oracles: nat -> Oracles): (r: seq<Step>)
    ensures |r| == Min(MessageLimit, |history|)
    ensures |r| <= MessageLimit
  {
    var msgs := history[..Min(MessageLimit, |history|)];
    seq(|msgs|, j requires 0 <= j < |msgs| => ProcessMessage(ctx, msgs[j], oracles(j)))
  }

  /** The lines a run appends to the hash file, in order. */
  function SavedHashes(steps: seq<Step>): (lines: seq<string>)
    ensures |lines| <= |steps|
  {
    if |steps| == 0 then []
    else (if steps[0].savedHash.Some? then [steps[0].savedHash.value] else []) + SavedHashes(steps[1..])
  }

  /** How many of the steps sent their message. */
  function SentCount(steps: seq<Step>): nat {
    if |steps| == 0 then 0 else (if steps[0].outcome.Sent? then 1 else 0) + SentCount(steps[1..])
  }

  /** The keys of the messages whose step sent them, in message order. */
  function SentKeys(ctx: Context, msgs: seq<Message>, steps: seq<Step>): seq<string>
    requires |msgs| == |steps|
  {
    if |steps| == 0 then []
    else (if steps[0].outcome.Sent? then [Key(ctx, msgs[0])] else []) + SentKeys(ctx, msgs[1..], steps[1..])
  }

  /**
    A run appends exactly one hash per message sent: the hash file gains the
    keys of the sent messages, in the order they were read, and nothing else.
  */
  lemma {:induction false} OneHashPerSend(ctx: Context, history: seq<Message>, oracles: nat -> Oracles)
    ensures var r := ChannelRun(ctx, history, oracles);
      && |SavedHashes(r)| == SentCount(r)
      && SavedHashes(r) == SentKeys(ctx, history[..|r|], r)
  {
    var r := ChannelRun(ctx, history, oracles);
    var msgs := history[..|r|];
    forall j | 0 <= j < |r|
      ensures (r[j].savedHash.Some? <==> r[j].outcome.Sent?)
      ensures r[j].savedHash.Some? ==> r[j].savedHash.value == Key(ctx, msgs[j])
    {
      assert r[j] == ProcessMessage(ctx, history[j], oracles(j));
    }
    SavedMatchesSent(r);
    SavedAreSentKeys(ctx, msgs, r);
  }

  /** The hash file lines of steps that each save a hash exactly when they send. */
  lemma {:induction false} SavedMatchesSent(steps: seq<Step>)
    requires forall j :: 0 <= j < |steps| ==> (steps[j].savedHash.Some? <==> steps[j].outcome.Sent?)
    ensures |SavedHashes(steps)| == SentCount(steps)
  {
    if |steps| > 0 {
      SavedMatchesSent(steps[1..]);
    }
  }

  /** Steps that save their own message's key exactly when they send it append the sent messages' keys, in order. */
  lemma {:induction false} SavedAreSentKeys(ctx: Context, msgs: seq<Message>, steps: seq<Step>)
    requires |msgs| == |steps|
    requires forall j :: 0 <= j < |steps| ==> (steps[j].savedHash.Some? <==> steps[j].outcome.Sent?)
    requires forall j :: 0 <= j < |steps| && steps[j].savedHash.Some? ==> steps[j].savedHash.value == Key(ctx, msgs[j])
    ensures SavedHashes(steps) == SentKeys(ctx, msgs, steps)
  {
    if |steps| > 0 {
      SavedAreSentKeys(ctx, msgs[1..], steps[1..]);
    }
  }

  /** Two copies of a post: same text, same sender, same media, possibly different numbers and ages. */
  predicate Repost(m1: Message, m2: Message) {
    m2.text == m1.text && m2.sender == m1.sender && m2.media == m1.media
  }

  /** A repost is judged like the original: the loop looks at nothing else of a message. */
  lemma RepostJudgedAlike(ctx: Context, m1: Message, m2: Message, o: Oracles)
    requires Repost(m1, m2)
    ensures ProcessMessage(ctx, m2, o) == ProcessMessage(ctx, m1, o)
  {
    assert RawText(m2) == RawText(m1);
    assert Key(ctx, m2) == Key(ctx, m1);
    ScreenAlike(ctx, m1, m2);
    assert Decide(ctx, m2, o) == Decide(ctx, m1, o);
  }

  /** Screening looks only at the text and the sender. */
  lemma ScreenAlike(ctx: Context, m1: Message, m2: Message)
    requires Repost(m1, m2)
    ensures Screen(ctx, m2) == Screen(ctx, m1)
  {
    assert RawText(m2) == RawText(m1);
  }

  /**
    The same text posted twice in a channel is sent twice in one pass, and
    its key is appended twice: the second copy is checked against the hash
    set read before the pass, which does not hold the first copy's hash.
  */
  lemma RepostSentTwice(ctx: Context, m1: Message, m2: Message, oracles: nat -> Oracles)
    requires Repost(m1, m2) && oracles(1) == oracles(0)
    requires ProcessMessage(ctx, m1, oracles(0)).outcome.Sent?
    ensures var r := ChannelRun(ctx, [m1, m2], oracles);
      && r[0].outcome.Sent? && r[1].outcome == r[0].outcome
      && SavedHashes(r) == [Key(ctx, m1), Key(ctx, m1)]
  {
    RepostJudgedAlike(ctx, m1, m2, oracles(0));
    var r := ChannelRun(ctx, [m1, m2], oracles);
    assert r[0] == ProcessMessage(ctx, m1, oracles(0));
    assert r[1] == r[0];
    assert SavedHashes(r[1..]) == [Key(ctx, m1)] by {
      assert SavedHashes(r[1..][1..]) == [];
    }
  }

  /** The context of one channel in a pass: the configured `BLOCKED_KEYWORDS` and `BLOCKED_EMOJIS`. */
  function ChannelContext(hash: string -> string, c: MainChannel, sentHashes: set<string>): Context {
    Context(hash, c, sentHashes, BaseBlockedKeywords, BlockedEmojis)
  }

  /**
    One pass over the channels, in order. Every channel is judged against
    the same hash set, the one read when the pass began; `oracles(c, j)`
    answers for the `j`-th message of the `c`-th channel.
  */
  function MainPass(hash: string -> string, sentHashes: set<string>, inbox: string -> seq<Message>,
                    oracles: (nat, nat) -> Oracles): (r: seq<seq<Step>>)
    ensures |r| == |MainChannels|
    ensures forall c :: 0 <= c < |r| ==> |r[c]| <= MessageLimit
  {
    var r := seq(|MainChannels|, c requires 0 <= c < |MainChannels| =>
      ChannelRun(ChannelContext(hash, MainChannels[c], sentHashes), inbox(MainChannels[c].name), (j: nat) => oracles(c, j)));
    assert forall c :: 0 <= c < |r| ==> |r[c]| <= MessageLimit by {
      forall c | 0 <= c < |r| ensures |r[c]| <= MessageLimit {
        var run := ChannelRun(ChannelContext(hash, MainChannels[c], sentHashes), inbox(MainChannels[c].name), (j: nat) => oracles(c, j));
        assert r[c] == run;
      }
    }
    r
  }

  /** The number of messages sent in a pass (`new_messages`). */
  function NewMessages(runs: seq<seq<Step>>): nat {
    if |runs| == 0 then 0 else SentCount(runs[0]) + NewMessages(runs[1..])
  }

  /** A run never sends more messages than it has. */
  lemma {:induction false} SentCountBounded(steps: seq<Step>)
    ensures SentCount(steps) <= |steps|
  {
    if |steps| > 0 {
      SentCountBounded(steps[1..]);
    }
  }

  /** A pass sends at most `MessageLimit` messages per channel. */
  lemma {:induction false} NewMessagesBounded(runs: seq<seq<Step>>)
    requires forall c :: 0 <= c < |runs| ==> |runs[c]| <= MessageLimit
    ensures NewMessages(runs) <= MessageLimit * |runs|
  {
    if |runs| > 0 {
      SentCountBounded(runs[0]);
      NewMessagesBounded(runs[1..]);
      assert NewMessages(runs) == SentCount(runs[0]) + NewMessages(runs[1..]);
      assert MessageLimit * |runs| == MessageLimit + MessageLimit * |runs[1..]|;
    }
  }

  /** A pass over the three channels sends at most twelve messages. */
  lemma PassSendsAtMostTwelve(hash: string -> string, sentHashes: set<string>, inbox: string -> seq<Message>,
                              oracles: (nat, nat) -> Oracles)
    ensures NewMessages(MainPass(hash, sentHashes, inbox, oracles)) <= 12
  {
    NewMessagesBounded(MainPass(hash, sentHashes, inbox, oracles));
  }
}

=== FILE: scoring.dfy ===
/**
  Heuristic scores computed for every stored item, independent of the
  classifier: a quality score built from additive, capped lexical signals and
  clamped to [0, 1], and a bias score proportional to matched bias terms.
  Scores are exact reals; each step (0.1, 0.15, 0.2, 0.25, ...) is a decimal.
*/
module Scoring {
  import opened Text

  const BreakingTerms: seq<string> := ["breaking", "urgent", "just in", "developing", "latest", "update"]
  const OfficialTerms: seq<string> := ["confirmed", "official", "statement", "announces", "declares", "reports"]
  const GeoTerms: seq<string> := [
    "government", "military", "president", "minister", "embassy", "border", "sanctions",
    "diplomatic", "treaty", "alliance", "conflict", "peace", "war", "crisis", "summit"
  ]
  const CountryTerms: seq<string> := [
    "russia", "ukraine", "israel", "palestine", "china", "taiwan", "iran", "syria",
    "turkey", "germany", "france", "uk", "usa", "nato", "eu", "un"
  ]
  const PromoTerms: seq<string> := ["subscribe", "follow", "join", "channel", "link", "click", "download"]

  /** The bias lexicon of `calculate_bias_score`. */
  const BiasTerms: seq<string> := [
    "zionist", "siyonist", "zionism", "siyonizm", "zionist regime", "sionist",
    "puppet government", "puppet regime", "puppet state",
    "evil empire", "axis of evil", "terrorist state", "rogue state",
    "nazi", "fascist", "terrorist regime", "dictator regime"
  ]

  /** Base score every text starts from. */
  const BaseQuality: real := 0.5

  /** `sum(1 for term in terms if term in text)`: how many listed terms occur in `text`. */
  function TermsPresent(terms: seq<string>, text: string): (n: nat)
    ensures n <= |terms|
  {
    if |terms| == 0 then 0
    else (if Contains(text, terms[0]) then 1 else 0) + TermsPresent(terms[1..], text)
  }

  /** The count is zero exactly when no listed term occurs. */
  lemma {:induction false} TermsPresentZero(terms: seq<string>, text: string)
    ensures TermsPresent(terms, text) == 0 <==> forall k :: 0 <= k < |terms| ==> !Contains(text, terms[k])
  {
    if |terms| > 0 {
      TermsPresentZero(terms[1..], text);
      assert forall k :: 1 <= k < |terms| ==> terms[k] == terms[1..][k - 1];
    }
  }

  /** `min(count * step, cap)`. */
  function Capped(count: nat, step: real, cap: real): (r: real)
    requires step > 0.0 && cap >= 0.0
    ensures 0.0 <= r <= cap
    ensures r == cap <==> count as real * step >= cap
    ensures r < cap ==> r == count as real * step
  {
    if count as real * step < cap then count as real * step else cap
  }

  /** Length signal: best in 80..250 characters, good in 50..300, penalised above 300. */
  function LengthSignal(length: nat): (r: real)
    ensures -0.1 <= r <= 0.3
    ensures r == 0.3 <==> 80 <= length <= 250
    ensures r > 0.0 <==> 50 <= length <= 300
    ensures r < 0.0 <==> length > 300
    ensures 50 <= length <= 300 && !(80 <= length <= 250) ==> r == 0.2
  {
    if 80 <= length <= 250 then 0.3
    else if 50 <= length <= 300 then 0.2
    else if length > 300 then -0.1
    else 0.0
  }

  /** `text.count('!') + text.count('?') + text.count('...')`. */
  function PunctuationCount(text: string): nat {
    CountOccurrences(text, "!") + CountOccurrences(text, "?") + CountOccurrences(text, "...")
  }

  /** Penalty of 0.2 for more than three exclamation marks, question marks or ellipses. */
  function PunctuationSignal(text: string): (r: real)
    ensures r == -0.2 <==> PunctuationCount(text) > 3
    ensures r == 0.0 <==> PunctuationCount(text) <= 3
  {
    if PunctuationCount(text) > 3 then -0.2 else 0.0
  }

  /** Some character among the first ten is upper case (`any(c.isupper() for c in text[:10])`). */
  predicate HasLeadingCapital(text: string) {
    exists i :: 0 <= i < |text| && i < 10 && IsUpper(text[i])
  }

  /** Bonus of 0.1 for a capital among the first ten characters. */
  function CapitalSignal(text: string): (r: real)
    ensures r == 0.1 <==> HasLeadingCapital(text)
    ensures r == 0.0 <==> !HasLeadingCapital(text)
  {
    if HasLeadingCapital(text) then 0.1 else 0.0
  }

  /** Turkish, Polish and Czech capitals count: "İsrail", "Łódź" and "Žatec" each earn the bonus. */
  lemma ExtendedCapitalsEarnBonus()
    ensures CapitalSignal("\U{130}srail") == 0.1
    ensures CapitalSignal("\U{141}\U{F3}d\U{17A}") == 0.1
    ensures CapitalSignal("\U{17D}atec") == 0.1
  {
    assert IsUpper("\U{130}srail"[0]);
    assert IsUpper("\U{141}\U{F3}d\U{17A}"[0]);
    assert IsUpper("\U{17D}atec"[0]);
  }

  /** The eight additive adjustments to the base score, one per heuristic. */
  datatype QualitySignals = QualitySignals(
    length: real, breaking: real, official: real, geo: real,
    country: real, promo: real, punctuation: real, capital: real)
  {
    function Sum(): real {
      length + breaking + official + geo + country - promo + punctuation + capital
    }
  }

  /** The adjustments `calculate_content_quality` applies to `text`. */
  function Signals(text: string): (s: QualitySignals)
    ensures -0.1 <= s.length <= 0.3
    ensures 0.0 <= s.breaking <= 0.3
    ensures 0.0 <= s.official <= 0.2
    ensures 0.0 <= s.geo <= 0.4
    ensures 0.0 <= s.country <= 0.3
    ensures 0.0 <= s.promo <= 0.4
    ensures -0.2 <= s.punctuation <= 0.0
    ensures 0.0 <= s.capital <= 0.1
  {
    var lowered := Lower(text);
    QualitySignals(
      LengthSignal(|text|),
      Capped(TermsPresent(BreakingTerms, lowered), 0.15, 0.3),
      Capped(TermsPresent(OfficialTerms, lowered), 0.1, 0.2),
      Capped(TermsPresent(GeoTerms, lowered), 0.15, 0.4),
      Capped(TermsPresent(CountryTerms, lowered), 0.1, 0.3),
      Capped(TermsPresent(PromoTerms, lowered), 0.2, 0.4),
      PunctuationSignal(text),
      CapitalSignal(text))
  }

  /** `min(max(x, 0), 1)`. */
  function Clamp01(x: real): (r: real)
    ensures 0.0 <= r <= 1.0
    ensures 0.0 <= x <= 1.0 ==> r == x
    ensures x < 0.0 ==> r == 0.0
    ensures x > 1.0 ==> r == 1.0
  {
    if x < 0.0 then 0.0 else if x > 1.0 then 1.0 else x
  }

  /**
    `calculate_content_quality(text, sender_name, channel)`: the base score plus
    the adjustments, clamped to [0, 1]. The sender and channel arguments are
    unused by the source and so are absent here.
  */
  function ContentQuality(text: string): (r: real)
    ensures 0.0 <= r <= 1.0
  {
    Clamp01(BaseQuality + Signals(text).Sum())
  }

  /** A larger count never gives a smaller capped signal. */
  lemma CappedMonotone(c1: nat, c2: nat, step: real, cap: real)
    requires step > 0.0 && cap >= 0.0 && c1 <= c2
    ensures Capped(c1, step, cap) <= Capped(c2, step, cap)
  {
    assert c1 as real * step <= c2 as real * step;
  }

  /** Raising a bonus or lowering the promotional penalty never lowers the clamped score. */
  lemma QualityMonotone(s1: QualitySignals, s2: QualitySignals)
    requires s1.length <= s2.length && s1.breaking <= s2.breaking && s1.official <= s2.official
    requires s1.geo <= s2.geo && s1.country <= s2.country && s1.punctuation <= s2.punctuation
    requires s1.capital <= s2.capital && s2.promo <= s1.promo
    ensures Clamp01(BaseQuality + s1.Sum()) <= Clamp01(BaseQuality + s2.Sum())
  {
  }

  /**
    A promotional term never raises the score: of two texts alike in every
    other signal, the one with at least as many promotional terms scores no
    higher.
  */
  lemma PromoNeverRaises(t1: string, t2: string)
    requires Signals(t1).(promo := 0.0) == Signals(t2).(promo := 0.0)
    requires TermsPresent(PromoTerms, Lower(t1)) <= TermsPresent(PromoTerms, Lower(t2))
    ensures ContentQuality(t2) <= ContentQuality(t1)
  {
    CappedMonotone(TermsPresent(PromoTerms, Lower(t1)), TermsPresent(PromoTerms, Lower(t2)), 0.2, 0.4);
    QualityMonotone(Signals(t2), Signals(t1));
  }

  /** `calculate_bias_score(text)`: a quarter point per bias term present, at most 1. */
  function BiasScore(text: string): (r: real)
    ensures 0.0 <= r <= 1.0
    ensures r == 1.0 <==> TermsPresent(BiasTerms, Lower(text)) >= 4
    ensures r == 0.0 <==> TermsPresent(BiasTerms, Lower(text)) == 0
    ensures r < 1.0 ==> r == 0.25 * TermsPresent(BiasTerms, Lower(text)) as real
  {
    Capped(TermsPresent(BiasTerms, Lower(text)), 0.25, 1.0)
  }

  /** A listed term that occurs counts: the group count is at least one. */
  lemma {:induction false} TermsPresentCounts(terms: seq<string>, text: string, k: nat)
    requires k < |terms| && Contains(text, terms[k])
    ensures TermsPresent(terms, text) >= 1
  {
    if k > 0 {
      TermsPresentCounts(terms[1..], text, k - 1);
    }
  }

  /** No non-empty term occurs in an empty text. */
  lemma TermsAbsentFromEmpty(terms: seq<string>, text: string)
    requires |text| == 0 && forall k :: 0 <= k < |terms| ==> |terms[k]| > 0
    ensures TermsPresent(terms, text) == 0
  {
    TermsPresentZero(terms, text);
  }

  /** An empty text carries no signal and scores exactly the base 0.5; its bias score is 0. */
  lemma EmptyTextScoresBase(text: string)
    requires |text| == 0
    ensures ContentQuality(text) == BaseQuality
    ensures BiasScore(text) == 0.0
  {
    var lowered := Lower(text);
    assert |lowered| == 0;
    TermsAbsentFromEmpty(BreakingTerms, lowered);
    TermsAbsentFromEmpty(OfficialTerms, lowered);
    TermsAbsentFromEmpty(GeoTerms, lowered);
    TermsAbsentFromEmpty(CountryTerms, lowered);
    TermsAbsentFromEmpty(PromoTerms, lowered);
    TermsAbsentFromEmpty(BiasTerms, lowered);
    assert !HasLeadingCapital(text);
    assert PunctuationCount(text) == 0;
  }

  /** Bias scoring is case-insensitive. */
  lemma BiasScoreIgnoresCase(text: string)
    ensures BiasScore(Lower(text)) == BiasScore(text)
  {
    LowerIsLowered(text);
  }

  /**
    A capitalised text of 50 to 300 characters that mentions "breaking", an
    official marker and "government", with no promotional term and at most
    three `!`/`?`/`...`, reaches the maximum score of 1.
  */
  lemma StrongSignalsSaturate(text: string)
    requires Contains(Lower(text), "breaking")
    requires Contains(Lower(text), "official")
    requires Contains(Lower(text), "government")
    requires 50 <= |text| <= 300
    requires HasLeadingCapital(text)
    requires TermsPresent(PromoTerms, Lower(text)) == 0
    requires PunctuationCount(text) <= 3
    ensures ContentQuality(text) == 1.0
  {
    var lowered := Lower(text);
    TermsPresentCounts(BreakingTerms, lowered, 0);
    TermsPresentCounts(OfficialTerms, lowered, 1);
    TermsPresentCounts(GeoTerms, lowered, 0);
    var s := Signals(text);
    assert s.breaking >= 0.15 && s.official >= 0.1 && s.geo >= 0.15;
    assert s.length >= 0.2;
    assert s.capital == 0.1 && s.promo == 0.0 && s.punctuation == 0.0;
  }
}

=== FILE: split_session.dfy ===
/**
  The helper that cuts a long session string into parts short enough for one
  environment variable each, named `SESSION_B64_1`, `SESSION_B64_2`, ..., and
  how the configuration code puts those parts back together.
*/
module SplitSession {
  import opened Common
  import opened Text
  import opened Config

  /** Default longest part, below the host's 32768-character limit per variable. */
  const DefaultMaxLength: int := 32000

  /** What `split_session_string` does with its input. */
  datatype SplitOutcome =
    | NoSplitNeeded
    | Parts(chunks: seq<string>)
    /** `range(0, n, 0)` raises `ValueError` for a zero step. */
    | RangeError

  /** Joining distributes over concatenation of part lists. */
  lemma {:induction false} ConcatAppend(a: seq<string>, b: seq<string>)
    ensures Concat(a + b) == Concat(a) + Concat(b)
  {
    if |a| == 0 {
      assert a + b == b;
    } else {
      assert (a + b)[1..] == a[1..] + b;
      ConcatAppend(a[1..], b);
    }
  }

  /** Multiplying by a positive number preserves strict order, read backwards. */
  lemma MulCancelLt(a: int, b: int, m: int)
    requires m > 0 && a * m < b * m
    ensures a < b
  {
  }

  /** Integer division is pinned down by the quotient's bracket. */
  lemma DivUnique(x: int, m: int, q: int)
    requires m > 0 && q * m <= x < q * m + m
    ensures x / m == q
  {
    var d := x / m;
    assert d * m + x % m == x;
    MulCancelLt(d, q + 1, m);
    MulCancelLt(q, d + 1, m);
  }

  /** `ceil(n / m)` in integers: `n` fits in `k` parts of `m` and not in `k - 1`. */
  lemma CeilDivision(n: nat, m: nat, k: nat)
    requires m > 0 && n <= k * m && (k == 0 || (k - 1) * m < n)
    ensures k == (n + m - 1) / m
  {
    if k > 0 {
      assert (k - 1) * m == k * m - m;
    }
    DivUnique(n + m - 1, m, k);
  }

  /** Appending the next slice `s[i:i+m]` to parts that join to `s[:i]` gives parts that join to `s[:i+m]`. */
  lemma ChunkStep(s: string, chunks: seq<string>, i: nat, m: nat)
    requires i < |s| && m > 0 && Concat(chunks) == s[..i]
    ensures Concat(chunks + [s[i..Min(i + m, |s|)]]) == s[..Min(i + m, |s|)]
  {
    var chunk := s[i..Min(i + m, |s|)];
    ConcatAppend(chunks, [chunk]);
    assert Concat([chunk]) == chunk by {
      assert [chunk][1..] == [];
    }
    assert s[..Min(i + m, |s|)] == s[..i] + chunk;
  }

  /** The chunking loop of `split_session_string` for a positive `m`. */
  method Chunk(s: string, m: int) returns (chunks: seq<string>)
    requires m > 0
    ensures Concat(chunks) == s
    ensures forall k :: 0 <= k < |chunks| ==> 0 < |chunks[k]| <= m
    ensures forall k :: 0 <= k < |chunks| - 1 ==> |chunks[k]| == m
    ensures |chunks| == (|s| + m - 1) / m
  {
    chunks := [];
    var i := 0;
    while i < |s|
      invariant i == |chunks| * m
      invariant i < |s| + m
      invariant Concat(chunks) == s[..Min(i, |s|)]
      invariant forall k :: 0 <= k < |chunks| ==> 0 < |chunks[k]| <= m
      invariant forall k :: 0 <= k < |chunks| ==> |chunks[k]| == m || (k == |chunks| - 1 && i > |s|)
      decreases |s| - i
    {
      var chunk := s[i..Min(i + m, |s|)];
      ChunkStep(s, chunks, i, m);
      MulSucc(|chunks|, m);
      chunks := chunks + [chunk];
      i := i + m;
    }
    assert s[..Min(i, |s|)] == s;
    if |chunks| > 0 {
      MulSucc(|chunks| - 1, m);
    }
    CeilDivision(|s|, m, |chunks|);
  }

  /** `(k + 1) * m == k * m + m`. */
  lemma MulSucc(k: nat, m: int)
    ensures (k + 1) * m == k * m + m
  {
  }

  /**
    `split_session_string(session_b64, max_length)`: a string that fits is
    not split; otherwise the parts are the slices `s[i:i+max_length]` for
    `i` in `range(0, len(s), max_length)`. A negative `max_length` gives an
    empty range, hence no parts.
  */
  method SplitSessionString(s: string, maxLength: int) returns (out: SplitOutcome)
    ensures |s| <= maxLength <==> out == NoSplitNeeded
    ensures out == RangeError <==> |s| > maxLength && maxLength == 0
    ensures out.Parts? && maxLength < 0 ==> out.chunks == []
    ensures out.Parts? && maxLength > 0 ==> Concat(out.chunks) == s
    ensures out.Parts? && maxLength > 0 ==>
      forall k :: 0 <= k < |out.chunks| ==> 0 < |out.chunks[k]| <= maxLength
    ensures out.Parts? && maxLength > 0 ==>
      forall k :: 0 <= k < |out.chunks| - 1 ==> |out.chunks[k]| == maxLength
    ensures out.Parts? && maxLength > 0 ==> |out.chunks| == (|s| + maxLength - 1) / maxLength
  {
    if |s| <= maxLength {
      return NoSplitNeeded;
    }
    if maxLength == 0 {
      return RangeError;
    }
    if maxLength < 0 {
      return Parts([]);
    }
    var chunks := Chunk(s, maxLength);
    return Parts(chunks);
  }

  // ---------------------------------------------------------------------------
  // Reassembly
  // ---------------------------------------------------------------------------

  /** The environment the instructions ask for: `SESSION_B64_k` set to the `k`-th part, and nothing else. */
  function PartsEnv(chunks: seq<string>): (env: Env)
    ensures forall i: nat :: 1 <= i <= |chunks| ==> PartName(i) in env && env[PartName(i)] == chunks[i - 1]
    ensures forall i: nat :: (i == 0 || i > |chunks|) ==> PartName(i) !in env
    ensures "SESSION_B64" !in env
  {
    if |chunks| == 0 then map[]
    else
      var n := |chunks|;
      var before := PartsEnv(chunks[..n - 1]);
      var env := before[PartName(n) := chunks[n - 1]];
      assert forall i: nat :: i != n ==> (PartName(i) in env <==> PartName(i) in before) by {
        forall i: nat | i != n ensures PartName(i) in env <==> PartName(i) in before {
          PartNameInjective(i, n);
        }
      }
      assert forall i: nat :: 1 <= i < n ==> env[PartName(i)] == before[PartName(i)] by {
        forall i: nat | 1 <= i < n ensures env[PartName(i)] == before[PartName(i)] {
          PartNameInjective(i, n);
        }
      }
      assert "SESSION_B64" != PartName(n) by {
        assert |PartName(n)| > 12;
      }
      env
  }

  /** Reading the parts back from `SESSION_B64_i` on returns the chunks from index `i - 1`, up to the ninth. */
  lemma {:induction false} PartsReadBack(chunks: seq<string>, i: nat)
    requires forall k :: 0 <= k < |chunks| ==> chunks[k] != ""
    requires 1 <= i <= MaxSessionParts + 1
    ensures SessionPartsFrom(PartsEnv(chunks), i) ==
      if i - 1 < Min(|chunks|, MaxSessionParts) then chunks[i - 1..Min(|chunks|, MaxSessionParts)] else []
    decreases MaxSessionParts + 1 - i
  {
    var env := PartsEnv(chunks);
    if i <= MaxSessionParts && i <= |chunks| {
      PartsReadBack(chunks, i + 1);
      var hi := Min(|chunks|, MaxSessionParts);
      assert chunks[i - 1..hi] == [chunks[i - 1]] + chunks[i..hi];
    }
  }

  /** The first `n` chunks, joined, are shorter than all of them when a non-empty chunk is left out. */
  lemma ConcatPrefixShorter(chunks: seq<string>, n: nat)
    requires n < |chunks| && forall k :: 0 <= k < |chunks| ==> chunks[k] != ""
    ensures |Concat(chunks[..n])| < |Concat(chunks)|
  {
    assert chunks == chunks[..n] + chunks[n..];
    ConcatAppend(chunks[..n], chunks[n..]);
    assert chunks[n..][0] != "";
  }

  /** The session string read from the parts' environment is the join of the first nine parts at most. */
  lemma ReadBackAll(chunks: seq<string>)
    requires forall k :: 0 <= k < |chunks| ==> chunks[k] != ""
    ensures SessionString(PartsEnv(chunks)) == Concat(chunks[..Min(|chunks|, MaxSessionParts)])
  {
    var env := PartsEnv(chunks);
    PartsReadBack(chunks, 1);
    assert SessionPartsFrom(env, 1) == chunks[..Min(|chunks|, MaxSessionParts)] by {
      if Min(|chunks|, MaxSessionParts) == 0 {
      } else {
        assert chunks[0..Min(|chunks|, MaxSessionParts)] == chunks[..Min(|chunks|, MaxSessionParts)];
      }
    }
  }

  /** The first nine parts join to the whole string exactly when there are at most nine. */
  lemma FirstPartsJoinWhole(s: string, chunks: seq<string>)
    requires Concat(chunks) == s
    requires forall k :: 0 <= k < |chunks| ==> chunks[k] != ""
    ensures Concat(chunks[..Min(|chunks|, MaxSessionParts)]) == s <==> |chunks| <= MaxSessionParts
  {
    if |chunks| <= MaxSessionParts {
      assert chunks[..|chunks|] == chunks;
    } else {
      ConcatPrefixShorter(chunks, MaxSessionParts);
    }
  }

  /**
    Splitting round-trips through the environment exactly when there are at
    most nine parts: the configuration reads `SESSION_B64_1` to
    `SESSION_B64_9` only, so a tenth part and beyond are silently dropped.
  */
  lemma ReassemblyRoundTrip(s: string, chunks: seq<string>)
    requires Concat(chunks) == s && |chunks| > 0
    requires forall k :: 0 <= k < |chunks| ==> chunks[k] != ""
    ensures SessionString(PartsEnv(chunks)) == s <==> |chunks| <= MaxSessionParts
  {
    ReadBackAll(chunks);
    FirstPartsJoinWhole(s, chunks);
  }
}

=== FILE: store.dfy ===
/**
  The item store behind the pipeline and the API: the `posts` table, written
  by ingestion and reviewed by the dashboard, and the append-only
  `user_actions` log. The database is a value; every write returns the next
  value. Timestamps are integer seconds supplied by the caller in place of
  SQLite's `CURRENT_TIMESTAMP`.
*/
module Store {
  import opened Common

  const Pending: string := "pending"
  const Posted: string := "posted"
  const Processed: string := "processed"
  const Rejected: string := "rejected"
  const Archived: string := "archived"
  const Deleted: string := "deleted"
  const Approved: string := "approved"

  /** One row of `posts`. Nullable columns are `Option`s. */
  datatype Post = Post(
    id: int,
    messageId: string,
    channelName: string,
    senderName: Option<string>,
    originalText: string,
    translatedText: Option<string>,
    mediaType: Option<string>,
    mediaPath: Option<string>,
    classification: Option<string>,
    qualityScore: real,
    biasScore: real,
    status: string,
    createdAt: int,
    processedAt: Option<int>,
    postedAt: Option<int>,
    twitterUrl: Option<string>,
    telegramUrl: Option<string>,
    contentHash: Option<string>,
    similarityHash: Option<string>,
    priority: int)

  /** One row of `user_actions`. */
  datatype UserAction = UserAction(id: int, postId: int, actionType: string, timestamp: int, notes: Option<string>)

  /**
    The two tables, with the AUTOINCREMENT counters: the next id is one past
    the largest ever handed out, so ids are never reused.
  */
  datatype Db = Db(posts: seq<Post>, actions: seq<UserAction>, nextPostId: int, nextActionId: int)

  /** A fresh database. */
  const Empty: Db := Db([], [], 1, 1)

  /**
    The table constraints and the counters' meaning: ids are positive,
    increasing in insertion order and below the counter; `message_id` is
    UNIQUE.
  */
  predicate Valid(db: Db) {
    && db.nextPostId >= 1 && db.nextActionId >= 1
    && (forall i :: 0 <= i < |db.posts| ==> 1 <= db.posts[i].id < db.nextPostId)
    && (forall i, j :: 0 <= i < j < |db.posts| ==> db.posts[i].id < db.posts[j].id)
    && (forall i, j :: 0 <= i < j < |db.posts| ==> db.posts[i].messageId != db.posts[j].messageId)
    && (forall i :: 0 <= i < |db.actions| ==> 1 <= db.actions[i].id < db.nextActionId)
    && (forall i, j :: 0 <= i < j < |db.actions| ==> db.actions[i].id < db.actions[j].id)
  }

  lemma EmptyValid()
    ensures Valid(Empty)
  {
  }

  /** Some row has this `message_id`. */
  predicate MessageIdTaken(posts: seq<Post>, messageId: string) {
    exists i :: 0 <= i < |posts| && posts[i].messageId == messageId
  }

  /** Some row has this id. */
  predicate HasPost(posts: seq<Post>, id: int) {
    exists i :: 0 <= i < |posts| && posts[i].id == id
  }

  // ---------------------------------------------------------------------------
  // add_post
  // ---------------------------------------------------------------------------

  /**
    The dictionary handed to `add_post`: `None` is a key that is absent, which
    inserts NULL or, where the code passes a default to `.get`, that default.
    A key present with the value `None` is not told apart from an absent one:
    Python inserts NULL for it even where `.get` has a default.
  */
  datatype PostInput = PostInput(
    messageId: Option<string>,
    channelName: Option<string>,
    senderName: Option<string>,
    originalText: Option<string>,
    translatedText: Option<string>,
    mediaType: Option<string>,
    mediaPath: Option<string>,
    classification: Option<string>,
    qualityScore: Option<real>,
    biasScore: Option<real>,
    status: Option<string>,
    contentHash: Option<string>,
    similarityHash: Option<string>,
    priority: Option<int>,
    telegramUrl: Option<string>)

  /** The outcome of an insert: the next database and `lastrowid`, or `None` on an integrity error. */
  datatype Inserted = Inserted(db: Db, id: Option<int>)

  /** An insert violates a NOT NULL column or the UNIQUE `message_id`. */
  predicate Violates(posts: seq<Post>, input: PostInput) {
    || input.messageId.None?
    || input.channelName.None?
    || input.originalText.None?
    || MessageIdTaken(posts, input.messageId.value)
  }

  /**
    The row stored for `input`: the given columns, the `.get` defaults
    (quality and bias 0, status `pending`, priority 1), creation time `now`,
    and no processing, posting or Twitter data yet.
  */
  predicate StoredAs(p: Post, input: PostInput, id: int, now: int)
    requires !input.messageId.None? && !input.channelName.None? && !input.originalText.None?
  {
    && p.id == id
    && p.messageId == input.messageId.value
    && p.channelName == input.channelName.value
    && p.originalText == input.originalText.value
    && p.senderName == input.senderName
    && p.translatedText == input.translatedText
    && p.mediaType == input.mediaType
    && p.mediaPath == input.mediaPath
    && p.classification == input.classification
    && p.qualityScore == input.qualityScore.GetOr(0.0)
    && p.biasScore == input.biasScore.GetOr(0.0)
    && p.status == input.status.GetOr(Pending)
    && p.contentHash == input.contentHash
    && p.similarityHash == input.similarityHash
    && p.priority == input.priority.GetOr(1)
    && p.telegramUrl == input.telegramUrl
    && p.createdAt == now
    && p.processedAt.None? && p.postedAt.None? && p.twitterUrl.None?
  }

  /**
    `add_post(post_data)`: an integrity error (a missing required column or a
    `message_id` already stored) returns `None` and leaves the database
    unchanged; otherwise exactly one row is appended under a fresh id.
  */
  function AddPost(db: Db, input: PostInput, now: int): (r: Inserted)
    ensures r.id.None? <==> Violates(db.posts, input)
    ensures r.id.None? ==> r.db == db
    ensures r.id.Some? ==>
      && r.id.value == db.nextPostId
      && r.db.nextPostId == db.nextPostId + 1
      && |r.db.posts| == |db.posts| + 1
      && r.db.posts[..|db.posts|] == db.posts
      && StoredAs(r.db.posts[|db.posts|], input, r.id.value, now)
    ensures r.db.actions == db.actions && r.db.nextActionId == db.nextActionId
    ensures Valid(db) ==> Valid(r.db)
  {
    if Violates(db.posts, input) then Inserted(db, None)
    else
      var row := Post(
        db.nextPostId, input.messageId.value, input.channelName.value, input.senderName,
        input.originalText.value, input.translatedText, input.mediaType, input.mediaPath,
        input.classification, input.qualityScore.GetOr(0.0), input.biasScore.GetOr(0.0),
        input.status.GetOr(Pending), now, None, None, None, input.telegramUrl,
        input.contentHash, input.similarityHash, input.priority.GetOr(1));
      var next := db.(posts := db.posts + [row], nextPostId := db.nextPostId + 1);
      assert next.posts[..|db.posts|] == db.posts;
      Inserted(next, Some(db.nextPostId))
  }

  /** Inserting the same item twice stores it once: the second insert fails and changes nothing. */
  lemma AddPostTwice(db: Db, input: PostInput, now: int, later: int)
    ensures AddPost(AddPost(db, input, now).db, input, later).id.None?
    ensures AddPost(AddPost(db, input, now).db, input, later).db == AddPost(db, input, now).db
  {
    var first := AddPost(db, input, now);
    if first.id.Some? {
      assert first.db.posts[|db.posts|].messageId == input.messageId.value;
    }
  }

  /** `get_post_by_message_id`: the stored row with this `message_id`, if any. */
  function FindByMessageId(posts: seq<Post>, messageId: string): (r: Option<Post>)
    ensures r.Some? <==> MessageIdTaken(posts, messageId)
    ensures r.Some? ==> r.value in posts && r.value.messageId == messageId
  {
    if |posts| == 0 then None
    else if posts[0].messageId == messageId then Some(posts[0])
    else
      var rest := FindByMessageId(posts[1..], messageId);
      assert MessageIdTaken(posts[1..], messageId) ==> MessageIdTaken(posts, messageId) by {
        if MessageIdTaken(posts[1..], messageId) {
          var i :| 0 <= i < |posts[1..]| && posts[1..][i].messageId == messageId;
          assert posts[i + 1].messageId == messageId;
        }
      }
      rest
  }

  /** An item just inserted is found again by its `message_id`. */
  lemma AddedIsFound(db: Db, input: PostInput, now: int)
    requires AddPost(db, input, now).id.Some?
    ensures FindByMessageId(AddPost(db, input, now).db.posts, input.messageId.value).Some?
  {
    var r := AddPost(db, input, now);
    assert r.db.posts[|db.posts|].messageId == input.messageId.value;
  }

  /** The row with this id, if any. */
  function FindById(posts: seq<Post>, id: int): (r: Option<Post>)
    ensures r.Some? <==> HasPost(posts, id)
    ensures r.Some? ==> r.value in posts && r.value.id == id
  {
    if |posts| == 0 then None
    else if posts[0].id == id then Some(posts[0])
    else
      var rest := FindById(posts[1..], id);
      assert HasPost(posts[1..], id) ==> HasPost(posts, id) by {
        if HasPost(posts[1..], id) {
          var i :| 0 <= i < |posts[1..]| && posts[1..][i].id == id;
          assert posts[i + 1].id == id;
        }
      }
      rest
  }

  // ---------------------------------------------------------------------------
  // update_post_status
  // ---------------------------------------------------------------------------

  /** `b` differs from `a` at most in status, processing and posting times, and Twitter link. */
  predicate SameContent(a: Post, b: Post) {
    a.(status := b.status, processedAt := b.processedAt, postedAt := b.postedAt, twitterUrl := b.twitterUrl) == b
  }

  /**
    `q` is `p` after `update_post_status` set `status`: the content is kept,
    `posted_at` is stamped with `now` for `posted` and `processed_at` for
    `processed`, neither stamp moves otherwise, and the Twitter link changes
    only to a link that was passed.
  */
  predicate Restatused(p: Post, q: Post, status: string, twitterUrl: Option<string>, now: int) {
    && q.status == status
    && SameContent(p, q)
    && (q.postedAt != p.postedAt ==> status == Posted && q.postedAt == Some(now))
    && (status == Posted ==> q.postedAt == Some(now))
    && (q.processedAt != p.processedAt ==> status == Processed && q.processedAt == Some(now))
    && (status == Processed ==> q.processedAt == Some(now))
    && q.twitterUrl == (if twitterUrl.Some? then twitterUrl else p.twitterUrl)
  }

  /** Setting the same status twice without a link, at the same time, is one restatus. */
  lemma RestatusedTwice(p: Post, q: Post, q2: Post, status: string, now: int)
    requires Restatused(p, q, status, None, now) && Restatused(q, q2, status, None, now)
    ensures Restatused(p, q2, status, None, now)
  {
  }

  /** The SET list of `update_post_status` applied to one row. */
  function Restatus(p: Post, status: string, twitterUrl: Option<string>, now: int): (q: Post)
    ensures q.id == p.id && q.messageId == p.messageId
    ensures Restatused(p, q, status, twitterUrl, now)
  {
    p.(status := status,
       postedAt := if status == Posted then Some(now) else p.postedAt,
       processedAt := if status == Processed then Some(now) else p.processedAt,
       twitterUrl := if twitterUrl.Some? then twitterUrl else p.twitterUrl)
  }

  /** The outcome of an update: the next database and whether a row matched. */
  datatype Updated = Updated(db: Db, success: bool)

  /**
    `update_post_status(post_id, status, twitter_url=...)`: no row with the
    id means failure and no change. Otherwise only that row changes: its
    status becomes `status`, whatever it was; `posted_at` is stamped only for
    `posted` and `processed_at` only for `processed`; `twitter_url` is set
    only when passed.
  */
  function UpdatePostStatus(db: Db, id: int, status: string, twitterUrl: Option<string>, now: int): (r: Updated)
    ensures r.success <==> HasPost(db.posts, id)
    ensures !r.success ==> r.db == db
    ensures |r.db.posts| == |db.posts|
    ensures r.db.actions == db.actions && r.db.nextPostId == db.nextPostId && r.db.nextActionId == db.nextActionId
    ensures forall i :: 0 <= i < |db.posts| ==> r.db.posts[i].id == db.posts[i].id
    ensures forall i :: 0 <= i < |db.posts| && db.posts[i].id != id ==> r.db.posts[i] == db.posts[i]
    ensures forall i :: 0 <= i < |db.posts| && db.posts[i].id == id ==>
      Restatused(db.posts[i], r.db.posts[i], status, twitterUrl, now)
    ensures Valid(db) ==> Valid(r.db)
  {
    if !HasPost(db.posts, id) then Updated(db, false)
    else
      var posts := seq(|db.posts|, i requires 0 <= i < |db.posts| =>
        if db.posts[i].id == id then Restatus(db.posts[i], status, twitterUrl, now) else db.posts[i]);
      SameKeysValid(db, posts);
      Updated(db.(posts := posts), true)
  }

  /** Replacing rows by rows with the same ids and message ids keeps the table well formed. */
  lemma SameKeysValid(db: Db, posts: seq<Post>)
    requires |posts| == |db.posts|
    requires forall i :: 0 <= i < |posts| ==> posts[i].id == db.posts[i].id && posts[i].messageId == db.posts[i].messageId
    ensures Valid(db) ==> Valid(db.(posts := posts))
  {
  }

  /** Transitions are not checked: any row can be moved to any status, `posted` back to `pending` included. */
  lemma AnyTransitionAccepted(db: Db, i: nat, status: string, now: int)
    requires Valid(db) && i < |db.posts|
    ensures UpdatePostStatus(db, db.posts[i].id, status, None, now).success
    ensures FindById(UpdatePostStatus(db, db.posts[i].id, status, None, now).db.posts, db.posts[i].id)
      == Some(Restatus(db.posts[i], status, None, now))
  {
    var r := UpdatePostStatus(db, db.posts[i].id, status, None, now);
    FindByIdAt(r.db.posts, i);
  }

  /** With increasing ids, the row at index `i` is the one found by its id. */
  lemma {:induction false} FindByIdAt(posts: seq<Post>, i: nat)
    requires i < |posts|
    requires forall a, b :: 0 <= a < b < |posts| ==> posts[a].id < posts[b].id
    ensures FindById(posts, posts[i].id) == Some(posts[i])
  {
    if i > 0 {
      assert posts[0].id < posts[i].id;
      FindByIdAt(posts[1..], i - 1);
    }
  }

  // ---------------------------------------------------------------------------
  // add_user_action
  // ---------------------------------------------------------------------------

  /**
    `add_user_action(post_id, action_type, notes)`: appends exactly one
    action row under a fresh id and never touches the posts. The foreign key
    is declared but not enforced, so `post_id` need not exist.
  */
  function AddUserAction(db: Db, postId: int, actionType: string, notes: Option<string>, now: int): (r: Db)
    ensures r.posts == db.posts && r.nextPostId == db.nextPostId
    ensures |r.actions| == |db.actions| + 1 && r.actions[..|db.actions|] == db.actions
    ensures r.nextActionId == db.nextActionId + 1
    ensures r.actions[|db.actions|] == UserAction(db.nextActionId, postId, actionType, now, notes)
    ensures Valid(db) ==> Valid(r) && forall i :: 0 <= i < |db.actions| ==> db.actions[i].id < r.actions[|db.actions|].id
  {
    var next := db.(actions := db.actions + [UserAction(db.nextActionId, postId, actionType, now, notes)],
                    nextActionId := db.nextActionId + 1);
    assert next.actions[..|db.actions|] == db.actions;
    next
  }

  // ---------------------------------------------------------------------------
  // cleanup_old_posts
  // ---------------------------------------------------------------------------

  /** Seconds in a day (`timedelta(days=1)`). */
  const SecondsPerDay: int := 86400

  /** Rows the retention sweep archives: created before the cutoff and neither `posted` nor `pending`. */
  predicate Stale(p: Post, cutoff: int) {
    p.createdAt < cutoff && p.status != Posted && p.status != Pending
  }

  datatype Cleaned = Cleaned(db: Db, archived: nat)

  function ArchiveStale(posts: seq<Post>, cutoff: int): (r: seq<Post>)
    ensures |r| == |posts|
    ensures forall i :: 0 <= i < |posts| ==> r[i] == if Stale(posts[i], cutoff) then posts[i].(status := Archived) else posts[i]
  {
    seq(|posts|, i requires 0 <= i < |posts| => if Stale(posts[i], cutoff) then posts[i].(status := Archived) else posts[i])
  }

  /**
    `cleanup_old_posts(days)`: every row older than `now - days` whose status
    is neither `posted` nor `pending` becomes `archived`; other rows are
    untouched and no row is removed. The returned count is the number of
    rows the UPDATE matched, rows already archived included.
  */
  function CleanupOldPosts(db: Db, days: int, now: int): (r: Cleaned)
    ensures |r.db.posts| == |db.posts|
    ensures forall i :: 0 <= i < |db.posts| ==> r.db.posts[i].id == db.posts[i].id
    ensures forall i :: 0 <= i < |db.posts| && Stale(db.posts[i], now - days * SecondsPerDay) ==>
      r.db.posts[i] == db.posts[i].(status := Archived)
    ensures forall i :: 0 <= i < |db.posts| && !Stale(db.posts[i], now - days * SecondsPerDay) ==>
      r.db.posts[i] == db.posts[i]
    ensures r.archived == CountWhere(db.posts, p => Stale(p, now - days * SecondsPerDay))
    ensures r.db.actions == db.actions && r.db.nextPostId == db.nextPostId && r.db.nextActionId == db.nextActionId
    ensures Valid(db) ==> Valid(r.db)
  {
    var cutoff := now - days * SecondsPerDay;
    Cleaned(db.(posts := ArchiveStale(db.posts, cutoff)), CountWhere(db.posts, p => Stale(p, cutoff)))
  }

  /**
    Sweeping twice with the same clock changes nothing the second time, and
    reports the same count again: archived rows still match the condition.
  */
  lemma CleanupTwice(db: Db, days: int, now: int)
    ensures CleanupOldPosts(CleanupOldPosts(db, days, now).db, days, now).db == CleanupOldPosts(db, days, now).db
    ensures CleanupOldPosts(CleanupOldPosts(db, days, now).db, days, now).archived == CleanupOldPosts(db, days, now).archived
  {
    var cutoff := now - days * SecondsPerDay;
    var once := CleanupOldPosts(db, days, now);
    var twice := CleanupOldPosts(once.db, days, now);
    assert twice.db.posts == once.db.posts;
    StaleCountStable(db.posts, cutoff);
  }

  /** Archiving keeps exactly the same rows stale. */
  lemma {:induction false} StaleCountStable(posts: seq<Post>, cutoff: int)
    ensures CountWhere(ArchiveStale(posts, cutoff), p => Stale(p, cutoff)) == CountWhere(posts, p => Stale(p, cutoff))
  {
    if |posts| > 0 {
      StaleCountStable(posts[1..], cutoff);
      assert ArchiveStale(posts, cutoff)[1..] == ArchiveStale(posts[1..], cutoff);
    }
  }
}

=== FILE: store_analytics.dfy ===
/**
  `get_analytics(days)`: grouped counts and score averages over the items
  created in the last `days` days, and the reviewers' actions over the same
  window.
*/
module StoreAnalytics {
  import opened Common
  import opened Store
  import opened Tally

  datatype QualityMetrics = QualityMetrics(avgQuality: real, avgBias: real, totalPosts: nat)

  datatype Analytics = Analytics(
    postsByStatus: Counts<string>,
    postsByChannel: Counts<string>,
    dailyPosts: Counts<int>,
    userActions: Counts<string>,
    qualityMetrics: QualityMetrics)

  /** Start of the window: `now - timedelta(days=days)`. */
  function WindowStart(days: int, now: int): int {
    now - days * SecondsPerDay
  }

  /** `DATE(created_at)`, as a day number. */
  function Day(p: Post): int {
    p.createdAt / SecondsPerDay
  }

  /** Sum of quality scores. */
  function SumQuality(ps: seq<Post>): real {
    if |ps| == 0 then 0.0 else ps[0].qualityScore + SumQuality(ps[1..])
  }

  /** Sum of bias scores. */
  function SumBias(ps: seq<Post>): real {
    if |ps| == 0 then 0.0 else ps[0].biasScore + SumBias(ps[1..])
  }

  /** `AVG(x) or 0`: SQL's AVG over no rows is NULL, which the code turns into 0. */
  function AverageOrZero(sum: real, n: nat): real {
    if n == 0 then 0.0 else sum / n as real
  }

  /** Every stored score lies in [0, 1], as the scoring functions guarantee. */
  predicate ScoresInRange(posts: seq<Post>) {
    forall i :: 0 <= i < |posts| ==>
      0.0 <= posts[i].qualityScore <= 1.0 && 0.0 <= posts[i].biasScore <= 1.0
  }

  /**
    `get_analytics(days)`: per-status, per-channel and per-day counts of the
    items in the window, per-type counts of the actions in the window, and
    the average scores and number of items in the window. The per-status
    counts add up to the window's total, and with scores in [0, 1] so do the
    averages.
  */
  function GetAnalytics(db: Db, days: int, now: int): (a: Analytics)
    ensures a.qualityMetrics.totalPosts == CountWhere(db.posts, (p: Post) => p.createdAt >= WindowStart(days, now))
    ensures Total(a.postsByStatus) == a.qualityMetrics.totalPosts
    ensures Total(a.postsByChannel) == a.qualityMetrics.totalPosts
    ensures Total(a.dailyPosts) == a.qualityMetrics.totalPosts
    ensures a.qualityMetrics.totalPosts == 0 ==> a.qualityMetrics.avgQuality == 0.0 && a.qualityMetrics.avgBias == 0.0
    ensures ScoresInRange(db.posts) ==>
      0.0 <= a.qualityMetrics.avgQuality <= 1.0 && 0.0 <= a.qualityMetrics.avgBias <= 1.0
  {
    var start := WindowStart(days, now);
    var window := Select(db.posts, (p: Post) => p.createdAt >= start);
    var actions := Select(db.actions, (x: UserAction) => x.timestamp >= start);
    var statuses := Project(window, (p: Post) => p.status);
    var channels := Project(window, (p: Post) => p.channelName);
    var daysOf := Project(window, Day);
    GroupCounts(statuses);
    GroupCounts(channels);
    GroupCounts(daysOf);
    AveragesInRange(db.posts, window);
    Analytics(
      Group(statuses),
      Group(channels),
      Group(daysOf),
      Group(Project(actions, (x: UserAction) => x.actionType)),
      QualityMetrics(AverageOrZero(SumQuality(window), |window|), AverageOrZero(SumBias(window), |window|), |window|))
  }

  /** Scores in range give sums between zero and the number of items. */
  lemma {:induction false} SumsBounded(ps: seq<Post>)
    requires ScoresInRange(ps)
    ensures 0.0 <= SumQuality(ps) <= |ps| as real
    ensures 0.0 <= SumBias(ps) <= |ps| as real
  {
    if |ps| > 0 {
      SumsBounded(ps[1..]);
    }
  }

  /** A sum between zero and `n` averages into [0, 1]. */
  lemma AverageBounded(sum: real, n: nat)
    requires 0.0 <= sum <= n as real
    ensures 0.0 <= AverageOrZero(sum, n) <= 1.0
  {
    if n > 0 {
      assert AverageOrZero(sum, n) * n as real == sum;
    }
  }

  /** The window's averages lie in [0, 1] when every stored score does. */
  lemma AveragesInRange(posts: seq<Post>, window: seq<Post>)
    requires forall p :: p in window ==> p in posts
    ensures ScoresInRange(posts) ==>
      0.0 <= AverageOrZero(SumQuality(window), |window|) <= 1.0 &&
      0.0 <= AverageOrZero(SumBias(window), |window|) <= 1.0
  {
    if ScoresInRange(posts) {
      assert ScoresInRange(window) by {
        forall i | 0 <= i < |window| ensures 0.0 <= window[i].qualityScore <= 1.0 && 0.0 <= window[i].biasScore <= 1.0 {
          assert window[i] in posts;
        }
      }
      SumsBounded(window);
      AverageBounded(SumQuality(window), |window|);
      AverageBounded(SumBias(window), |window|);
    }
  }

  /**
    Each status is counted exactly: the count under `s` is the number of
    items in the window with status `s`, and no status is listed twice.
  */
  lemma StatusCountsExact(db: Db, days: int, now: int, s: string)
    ensures DistinctKeys(GetAnalytics(db, days, now).postsByStatus)
    ensures CountOf(GetAnalytics(db, days, now).postsByStatus, s) ==
      CountWhere(db.posts, (p: Post) => p.createdAt >= WindowStart(days, now) && p.status == s)
  {
    var start := WindowStart(days, now);
    var window := Select(db.posts, (p: Post) => p.createdAt >= start);
    var statuses := Project(window, (p: Post) => p.status);
    GroupCounts(statuses);
    ProjectCount(window, (p: Post) => p.status, s, (p: Post) => p.status == s);
    SelectCount(db.posts, (p: Post) => p.createdAt >= start, (p: Post) => p.status == s,
      (p: Post) => p.createdAt >= start && p.status == s);
  }

  /** Each action type is counted exactly over the actions in the window. */
  lemma ActionCountsExact(db: Db, days: int, now: int, t: string)
    ensures DistinctKeys(GetAnalytics(db, days, now).userActions)
    ensures CountOf(GetAnalytics(db, days, now).userActions, t) ==
      CountWhere(db.actions, (x: UserAction) => x.timestamp >= WindowStart(days, now) && x.actionType == t)
  {
    var start := WindowStart(days, now);
    var actions := Select(db.actions, (x: UserAction) => x.timestamp >= start);
    var types := Project(actions, (x: UserAction) => x.actionType);
    GroupCounts(types);
    ProjectCount(actions, (x: UserAction) => x.actionType, t, (x: UserAction) => x.actionType == t);
    SelectCount(db.actions, (x: UserAction) => x.timestamp >= start, (x: UserAction) => x.actionType == t,
      (x: UserAction) => x.timestamp >= start && x.actionType == t);
  }
}

=== FILE: store_query.dfy ===
/**
  `get_posts(status, limit, offset)`: the rows with the requested status,
  newest first, one page at a time. The page is the SQL
  `ORDER BY created_at DESC LIMIT ? OFFSET ?`; rows created in the same
  second come newest id first.
*/
module StoreQuery {
  import opened Common
  import opened Store

  /** `if status:` adds the WHERE clause, so a missing or empty status selects every row. */
  predicate Selected(p: Post, status: Option<string>) {
    status.None? || status.value == "" || p.status == status.value
  }

  /** `a` comes strictly before `b` in the result order. */
  predicate Newer(a: Post, b: Post) {
    a.createdAt > b.createdAt || (a.createdAt == b.createdAt && a.id > b.id)
  }

  /** No later element comes strictly before an earlier one. */
  predicate NewestFirst(s: seq<Post>) {
    forall i, j :: 0 <= i < j < |s| ==> !Newer(s[j], s[i])
  }

  /** No two rows share an id. */
  predicate DistinctIds(s: seq<Post>) {
    forall i, j :: 0 <= i < j < |s| ==> s[i].id != s[j].id
  }

  /** The rows the WHERE clause keeps, in table order. */
  function Filter(posts: seq<Post>, status: Option<string>): seq<Post> {
    Select(posts, p => Selected(p, status))
  }

  /** Filtering keeps ids distinct. */
  lemma {:induction false} SelectDistinct(posts: seq<Post>, f: Post -> bool)
    requires DistinctIds(posts)
    ensures DistinctIds(Select(posts, f))
  {
    if |posts| > 0 {
      var rest := Select(posts[1..], f);
      SelectDistinct(posts[1..], f);
      forall p | p in rest ensures p.id != posts[0].id {
        var k :| 0 <= k < |posts[1..]| && posts[1..][k] == p;
        assert posts[k + 1] == p;
      }
    }
  }

  /** Places `p` before the first element that does not come strictly before it. */
  function Insert(p: Post, s: seq<Post>): (r: seq<Post>)
    ensures multiset(r) == multiset(s) + multiset{p}
  {
    if |s| == 0 then [p]
    else if !Newer(s[0], p) then [p] + s
    else
      assert s == [s[0]] + s[1..];
      [s[0]] + Insert(p, s[1..])
  }

  /** The elements of an insertion are the inserted row and the old ones. */
  lemma InsertMembers(p: Post, s: seq<Post>)
    ensures forall q :: q in Insert(p, s) <==> q == p || q in s
  {
    forall q ensures q in Insert(p, s) <==> q == p || q in s {
      assert q in Insert(p, s) <==> q in multiset(Insert(p, s));
    }
  }

  /** Insertion keeps a list in result order. */
  lemma {:induction false} InsertOrdered(p: Post, s: seq<Post>)
    requires NewestFirst(s)
    ensures NewestFirst(Insert(p, s))
  {
    if |s| > 0 && Newer(s[0], p) {
      var rest := Insert(p, s[1..]);
      InsertOrdered(p, s[1..]);
      InsertMembers(p, s[1..]);
      forall k | 0 <= k < |rest| ensures !Newer(rest[k], s[0]) {
        if rest[k] != p {
          assert rest[k] in rest;
          assert rest[k] in s[1..];
          var m :| 0 <= m < |s[1..]| && s[1..][m] == rest[k];
          assert s[m + 1] == rest[k];
        }
      }
      assert Insert(p, s) == [s[0]] + rest;
    }
  }

  /** Inserting a row whose id is new keeps ids distinct. */
  lemma {:induction false} InsertDistinct(p: Post, s: seq<Post>)
    requires DistinctIds(s) && forall q :: q in s ==> q.id != p.id
    ensures DistinctIds(Insert(p, s))
  {
    if |s| > 0 && Newer(s[0], p) {
      var rest := Insert(p, s[1..]);
      InsertDistinct(p, s[1..]);
      InsertMembers(p, s[1..]);
      forall k | 0 <= k < |rest| ensures rest[k].id != s[0].id {
        if rest[k] != p {
          assert rest[k] in rest;
          assert rest[k] in s[1..];
          var m :| 0 <= m < |s[1..]| && s[1..][m] == rest[k];
          assert s[m + 1] == rest[k];
        }
      }
      assert Insert(p, s) == [s[0]] + rest;
    }
  }

  /** Insertion sort into result order. */
  function Sort(xs: seq<Post>): (r: seq<Post>)
    ensures multiset(r) == multiset(xs)
  {
    if |xs| == 0 then []
    else
      assert xs == [xs[0]] + xs[1..];
      Insert(xs[0], Sort(xs[1..]))
  }

  /** Sorting yields result order. */
  lemma {:induction false} SortOrdered(xs: seq<Post>)
    ensures NewestFirst(Sort(xs))
  {
    if |xs| > 0 {
      SortOrdered(xs[1..]);
      InsertOrdered(xs[0], Sort(xs[1..]));
    }
  }

  /** Sorting keeps ids distinct. */
  lemma {:induction false} SortDistinct(xs: seq<Post>)
    requires DistinctIds(xs)
    ensures DistinctIds(Sort(xs))
  {
    if |xs| > 0 {
      var rest := Sort(xs[1..]);
      SortDistinct(xs[1..]);
      forall q | q in rest ensures q.id != xs[0].id {
        assert q in multiset(rest);
        var m :| 0 <= m < |xs[1..]| && xs[1..][m] == q;
        assert xs[m + 1] == q;
      }
      InsertDistinct(xs[0], rest);
    }
  }

  /** Inserting adds one to a count exactly when the inserted row is counted. */
  lemma {:induction false} InsertCount(p: Post, s: seq<Post>, f: Post -> bool)
    ensures CountWhere(Insert(p, s), f) == CountWhere(s, f) + (if f(p) then 1 else 0)
  {
    if |s| > 0 && Newer(s[0], p) {
      InsertCount(p, s[1..], f);
      assert Insert(p, s)[1..] == Insert(p, s[1..]);
    } else if |s| > 0 {
      assert Insert(p, s)[1..] == s;
    }
  }

  /** Sorting preserves every count. */
  lemma {:induction false} SortCount(xs: seq<Post>, f: Post -> bool)
    ensures CountWhere(Sort(xs), f) == CountWhere(xs, f)
  {
    if |xs| > 0 {
      SortCount(xs[1..], f);
      InsertCount(xs[0], Sort(xs[1..]), f);
    }
  }

  /**
    In a result-ordered list with distinct ids, exactly `i` rows come
    strictly before the row at index `i`.
  */
  lemma PositionIsRank(s: seq<Post>, i: nat)
    requires NewestFirst(s) && DistinctIds(s) && i < |s|
    ensures CountWhere(s, q => Newer(q, s[i])) == i
  {
    var f := q => Newer(q, s[i]);
    assert s == s[..i] + s[i..];
    CountWhereAppend(s[..i], s[i..], f);
    forall k | 0 <= k < i ensures f(s[..i][k]) {
      assert s[..i][k] == s[k];
      assert !Newer(s[i], s[k]) && s[k].id != s[i].id;
    }
    CountWhereAll(s[..i], f);
    forall k | 0 <= k < |s[i..]| ensures !f(s[i..][k]) {
      assert s[i..][k] == s[i + k];
    }
    CountWhereNone(s[i..], f);
  }

  /** Rows skipped: SQLite treats a negative OFFSET as zero. */
  function Skip(offset: int): nat {
    if offset < 0 then 0 else offset
  }

  /** Rows on a page of `n` matches: a negative LIMIT means no limit. */
  function PageSize(n: nat, limit: int, offset: int): nat {
    var left := if Skip(offset) <= n then n - Skip(offset) else 0;
    if limit < 0 then left else Min(limit, left)
  }

  /** The LIMIT/OFFSET window of an ordered list. */
  function Page(s: seq<Post>, limit: int, offset: int): (r: seq<Post>)
    ensures |r| == PageSize(|s|, limit, offset)
    ensures forall i :: 0 <= i < |r| ==> r[i] == s[Skip(offset) + i]
  {
    var from := Min(Skip(offset), |s|);
    var to := if limit < 0 then |s| else Min(from + limit, |s|);
    s[from..to]
  }

  /** Number of selected rows strictly ahead of `p` in the result order. */
  function Rank(posts: seq<Post>, status: Option<string>, p: Post): nat {
    CountWhere(posts, q => Selected(q, status) && Newer(q, p))
  }

  /**
    `get_posts(status, limit, offset)`: only rows with the requested status,
    newest first, at most `limit` of them (when `limit` is not negative), as
    many as remain after skipping `offset`; and the row at position `i` has
    exactly `offset + i` selected rows ahead of it, so the page is exactly
    the slice of the ordered selection starting at `offset`.
  */
  function GetPosts(db: Db, status: Option<string>, limit: int, offset: int): (r: seq<Post>)
    ensures forall i :: 0 <= i < |r| ==> r[i] in db.posts && Selected(r[i], status)
    ensures |r| == PageSize(CountWhere(db.posts, p => Selected(p, status)), limit, offset)
    ensures limit >= 0 ==> |r| <= limit
    ensures Valid(db) ==> forall i, j :: 0 <= i < j < |r| ==> Newer(r[i], r[j])
    ensures Valid(db) ==> forall i :: 0 <= i < |r| ==> Rank(db.posts, status, r[i]) == Skip(offset) + i
  {
    var ordered := Sort(Filter(db.posts, status));
    GetPostsMembers(db, status, ordered);
    GetPostsOrdered(db, status, ordered, limit, offset);
    Page(ordered, limit, offset)
  }

  /** The ordered selection holds selected rows of the table, as many as the WHERE clause matches. */
  lemma GetPostsMembers(db: Db, status: Option<string>, ordered: seq<Post>)
    requires ordered == Sort(Filter(db.posts, status))
    ensures forall p :: p in ordered ==> p in db.posts && Selected(p, status)
    ensures |ordered| == CountWhere(db.posts, p => Selected(p, status))
  {
    var selected := Filter(db.posts, status);
    assert |ordered| == |multiset(ordered)| == |selected|;
    forall p | p in ordered ensures p in selected {
      assert p in multiset(ordered);
    }
  }

  /** The ordering and rank facts behind `GetPosts`, for a table whose ids are distinct. */
  lemma GetPostsOrdered(db: Db, status: Option<string>, ordered: seq<Post>, limit: int, offset: int)
    requires ordered == Sort(Filter(db.posts, status))
    ensures Valid(db) ==> forall i, j :: 0 <= i < j < |Page(ordered, limit, offset)| ==>
      Newer(Page(ordered, limit, offset)[i], Page(ordered, limit, offset)[j])
    ensures Valid(db) ==> forall i :: 0 <= i < |Page(ordered, limit, offset)| ==>
      Rank(db.posts, status, Page(ordered, limit, offset)[i]) == Skip(offset) + i
  {
    if Valid(db) {
      var selected := Filter(db.posts, status);
      var r := Page(ordered, limit, offset);
      assert DistinctIds(db.posts);
      SelectDistinct(db.posts, p => Selected(p, status));
      SortDistinct(selected);
      SortOrdered(selected);
      forall i, j | 0 <= i < j < |r| ensures Newer(r[i], r[j]) {
        assert r[i] == ordered[Skip(offset) + i] && r[j] == ordered[Skip(offset) + j];
      }
      forall i | 0 <= i < |r| ensures Rank(db.posts, status, r[i]) == Skip(offset) + i {
        var p := r[i];
        var k := Skip(offset) + i;
        assert p == ordered[k];
        PositionIsRank(ordered, k);
        SortCount(selected, q => Newer(q, p));
        SelectCount(db.posts, q => Selected(q, status), q => Newer(q, p), q => Selected(q, status) && Newer(q, p));
      }
    }
  }

  /** A status filter returns no row of another status. */
  lemma FilteredPageHasStatus(db: Db, status: string, limit: int, offset: int)
    requires status != ""
    ensures forall p :: p in GetPosts(db, Some(status), limit, offset) ==> p.status == status
  {
  }

  /** Two adjacent LIMIT/OFFSET windows of the same size make up the window twice as large. */
  lemma PagesTile(s: seq<Post>, limit: nat, offset: nat)
    ensures Page(s, limit, offset) + Page(s, limit, offset + limit) == Page(s, 2 * limit, offset)
  {
    var from := Min(offset, |s|);
    var mid := Min(from + limit, |s|);
    assert Min(offset + limit, |s|) == mid;
    assert Min(mid + limit, |s|) == Min(from + 2 * limit, |s|);
    assert s[from..mid] + s[mid..Min(from + 2 * limit, |s|)] == s[from..Min(from + 2 * limit, |s|)];
  }

  /**
    Paging through `get_posts` with a fixed `limit` misses and repeats
    nothing: the page at `offset` followed by the page at `offset + limit`
    is the page at `offset` of twice the size.
  */
  lemma GetPostsPagesTile(db: Db, status: Option<string>, limit: nat, offset: nat)
    ensures GetPosts(db, status, limit, offset) + GetPosts(db, status, limit, offset + limit)
      == GetPosts(db, status, 2 * limit, offset)
  {
    PagesTile(Sort(Filter(db.posts, status)), limit, offset);
  }
}

=== FILE: tally.dfy ===
/**
  `SELECT key, COUNT(*) ... GROUP BY key` read into a dict: an association
  list from each distinct key to the number of rows carrying it. Groups
  appear in first-occurrence order. The status and action queries leave the
  group order to the database; the channel and daily queries sort their groups
  (by count, by date), an order this list does not record.
*/
module Tally {

  type Counts<K> = seq<(K, nat)>

  /** Keys of an association list, in order. */
  function KeysOf<K>(t: Counts<K>): (ks: seq<K>)
    ensures |ks| == |t|
  {
    if |t| == 0 then [] else [t[0].0] + KeysOf(t[1..])
  }

  /** No key appears twice. */
  ghost predicate DistinctKeys<K>(t: Counts<K>) {
    forall i, j :: 0 <= i < j < |t| ==> t[i].0 != t[j].0
  }

  /** Total of the counts. */
  function Total<K>(t: Counts<K>): nat {
    if |t| == 0 then 0 else t[0].1 + Total(t[1..])
  }

  /** The count recorded for `k`, 0 when `k` has no entry. */
  function CountOf<K(==)>(t: Counts<K>, k: K): nat {
    if |t| == 0 then 0
    else (if t[0].0 == k then t[0].1 else 0) + CountOf(t[1..], k)
  }

  /** Record one more row with key `k`: bump its entry, or append `(k, 1)` when it has none. */
  function Add<K(==)>(t: Counts<K>, k: K): (r: Counts<K>)
    ensures |r| == |t| || |r| == |t| + 1
  {
    if |t| == 0 then [(k, 1)]
    else if t[0].0 == k then [(k, t[0].1 + 1)] + t[1..]
    else [t[0]] + Add(t[1..], k)
  }

  /** The grouped counts of `keys`, taking the rows in order. */
  function Group<K(==)>(keys: seq<K>): Counts<K> {
    if |keys| == 0 then [] else Add(Group(keys[..|keys| - 1]), keys[|keys| - 1])
  }

  /** Adding one row raises the total by one. */
  lemma {:induction false} AddTotal<K>(t: Counts<K>, k: K)
    ensures Total(Add(t, k)) == Total(t) + 1
  {
    if |t| > 0 && t[0].0 != k {
      AddTotal(t[1..], k);
      assert Add(t, k)[1..] == Add(t[1..], k);
    } else if |t| > 0 {
      assert Add(t, k)[1..] == t[1..];
    }
  }

  /** Adding `k` raises the count of `k` by one and leaves every other count alone. */
  lemma {:induction false} AddCountOf<K>(t: Counts<K>, k: K, x: K)
    ensures CountOf(Add(t, k), x) == CountOf(t, x) + (if x == k then 1 else 0)
  {
    if |t| == 0 {
      assert Add(t, k)[1..] == [];
    } else if t[0].0 == k {
      assert Add(t, k)[1..] == t[1..];
    } else {
      AddCountOf(t[1..], k, x);
      assert Add(t, k)[1..] == Add(t[1..], k);
    }
  }

  /** The keys after adding are the old keys, plus `k` when it was new. */
  lemma {:induction false} AddKeys<K>(t: Counts<K>, k: K)
    ensures k in KeysOf(t) ==> KeysOf(Add(t, k)) == KeysOf(t)
    ensures k !in KeysOf(t) ==> KeysOf(Add(t, k)) == KeysOf(t) + [k]
  {
    if |t| == 0 {
    } else if t[0].0 == k {
      assert Add(t, k)[1..] == t[1..];
    } else {
      AddKeys(t[1..], k);
      assert Add(t, k)[1..] == Add(t[1..], k);
    }
  }

  /** Keys are distinct exactly when their list has no repetition. */
  lemma {:induction false} DistinctKeysOf<K>(t: Counts<K>)
    ensures DistinctKeys(t) <==> forall i, j :: 0 <= i < j < |t| ==> KeysOf(t)[i] != KeysOf(t)[j]
  {
    KeysOfIndex(t);
    if DistinctKeys(t) {
      forall i, j | 0 <= i < j < |t| ensures KeysOf(t)[i] != KeysOf(t)[j] {
        assert t[i].0 != t[j].0;
      }
    } else {
      var i, j :| 0 <= i < j < |t| && t[i].0 == t[j].0;
      assert KeysOf(t)[i] == KeysOf(t)[j];
    }
  }

  lemma {:induction false} KeysOfIndex<K>(t: Counts<K>)
    ensures forall i :: 0 <= i < |t| ==> KeysOf(t)[i] == t[i].0
  {
    if |t| > 0 {
      KeysOfIndex(t[1..]);
    }
  }

  /** Adding keeps the keys distinct. */
  lemma AddDistinct<K>(t: Counts<K>, k: K)
    requires DistinctKeys(t)
    ensures DistinctKeys(Add(t, k))
  {
    var r := Add(t, k);
    AddKeys(t, k);
    DistinctKeysOf(t);
    DistinctKeysOf(r);
    KeysOfIndex(t);
    if k !in KeysOf(t) {
      forall i, j | 0 <= i < j < |r| ensures KeysOf(r)[i] != KeysOf(r)[j] {
        if j == |t| {
          assert KeysOf(r)[i] == KeysOf(t)[i];
        }
      }
    }
  }

  /** Every listed key has a positive count, so a key is listed exactly when its count is positive. */
  lemma {:induction false} CountOfListed<K>(t: Counts<K>, k: K)
    requires forall i :: 0 <= i < |t| ==> t[i].1 > 0
    ensures CountOf(t, k) > 0 <==> k in KeysOf(t)
  {
    if |t| > 0 {
      CountOfListed(t[1..], k);
    }
  }

  lemma {:induction false} AddPositive<K>(t: Counts<K>, k: K)
    requires forall i :: 0 <= i < |t| ==> t[i].1 > 0
    ensures forall i :: 0 <= i < |Add(t, k)| ==> Add(t, k)[i].1 > 0
  {
    if |t| > 0 && t[0].0 != k {
      AddPositive(t[1..], k);
      assert Add(t, k)[1..] == Add(t[1..], k);
    }
  }

  /**
    The grouping is exact: the keys are distinct, every key's count is the
    number of rows carrying it, a key is listed exactly when some row carries
    it, and the counts add up to the number of rows.
  */
  lemma {:induction false} GroupCounts<K>(keys: seq<K>)
    ensures DistinctKeys(Group(keys))
    ensures Total(Group(keys)) == |keys|
    ensures forall x :: CountOf(Group(keys), x) == multiset(keys)[x]
    ensures forall x :: x in KeysOf(Group(keys)) <==> x in keys
    ensures forall i :: 0 <= i < |Group(keys)| ==> Group(keys)[i].1 > 0
  {
    if |keys| > 0 {
      var init := keys[..|keys| - 1];
      var k := keys[|keys| - 1];
      GroupCounts(init);
      var t := Group(init);
      AddDistinct(t, k);
      AddTotal(t, k);
      AddPositive(t, k);
      assert keys == init + [k];
      forall x ensures CountOf(Group(keys), x) == multiset(keys)[x] {
        AddCountOf(t, k, x);
      }
      forall x ensures x in KeysOf(Group(keys)) <==> x in keys {
        CountOfListed(Group(keys), x);
        CountOfListed(t, x);
      }
    }
  }

  /** With distinct keys, the count recorded under a listed key is that entry's count. */
  lemma {:induction false} CountOfEntry<K>(t: Counts<K>, i: nat)
    requires DistinctKeys(t) && i < |t|
    ensures CountOf(t, t[i].0) == t[i].1
  {
    if i == 0 {
      KeysOfIndex(t[1..]);
      CountOfAbsent(t[1..], t[0].0);
    } else {
      CountOfEntry(t[1..], i - 1);
    }
  }

  lemma {:induction false} CountOfAbsent<K>(t: Counts<K>, k: K)
    requires forall i :: 0 <= i < |t| ==> KeysOf(t)[i] != k
    ensures CountOf(t, k) == 0
  {
    if |t| > 0 {
      assert KeysOf(t)[0] != k;
      assert forall i :: 0 <= i < |t| - 1 ==> KeysOf(t[1..])[i] == KeysOf(t)[i + 1];
      CountOfAbsent(t[1..], k);
    }
  }
}

=== FILE: text.dfy ===
/**
  String primitives the pipeline relies on, stated for Python `str` semantics:
  whitespace as `str.isspace` (and regex `\s`), case mapping, `in` as substring
  search, `strip`, `split()` and code-point lexicographic ordering.
*/
module Text {

  /** Python's `str.isspace()` set, which is also what `\s` matches in a `str` regex. */
  predicate IsSpace(c: char) {
    || c == ' '
    || ('\U{9}' <= c <= '\U{D}')
    || ('\U{1C}' <= c <= '\U{1F}')
    || c == '\U{85}' || c == '\U{A0}' || c == '\U{1680}'
    || ('\U{2000}' <= c <= '\U{200A}')
    || c == '\U{2028}' || c == '\U{2029}' || c == '\U{202F}' || c == '\U{205F}' || c == '\U{3000}'
  }

  /**
    Single-character lower-case mapping for the scripts the monitored channels
    use: ASCII, Latin-1, all of Latin Extended-A (Turkish Ğ, Ş, İ, Polish Ł, Ż,
    Czech Ž, ...) and Cyrillic with its supplement. Capital dotted İ maps to
    plain `i` here; `LowerOf` adds the combining dot Python appends to it.
  */
  function LowerChar(c: char): (d: char)
    ensures IsSpace(d) == IsSpace(c)
  {
    if 'A' <= c <= 'Z' then (c as int + 32) as char
    else if '\U{C0}' <= c <= '\U{DE}' && c != '\U{D7}' then (c as int + 32) as char
    else if c == '\U{130}' then 'i'
    else if c == '\U{178}' then '\U{FF}'
    else if ('\U{100}' <= c <= '\U{137}' || '\U{14A}' <= c <= '\U{177}') && c as int % 2 == 0 then (c as int + 1) as char
    else if ('\U{139}' <= c <= '\U{148}' || '\U{179}' <= c <= '\U{17E}') && c as int % 2 == 1 then (c as int + 1) as char
    else if '\U{400}' <= c <= '\U{40F}' then (c as int + 80) as char
    else if '\U{410}' <= c <= '\U{42F}' then (c as int + 32) as char
    else if c == '\U{4C0}' then '\U{4CF}'
    else if ('\U{460}' <= c <= '\U{481}' || '\U{48A}' <= c <= '\U{4BF}' || '\U{4D0}' <= c <= '\U{52F}') && c as int % 2 == 0 then (c as int + 1) as char
    else if '\U{4C1}' <= c <= '\U{4CE}' && c as int % 2 == 1 then (c as int + 1) as char
    else c
  }

  /** Upper-case mapping: the inverse direction of `LowerChar`, plus dotless ı → I, long ſ → S and micro µ → Greek Μ. */
  function UpperChar(c: char): (d: char)
    ensures IsSpace(d) == IsSpace(c)
  {
    if 'a' <= c <= 'z' then (c as int - 32) as char
    else if '\U{E0}' <= c <= '\U{FE}' && c != '\U{F7}' then (c as int - 32) as char
    else if c == '\U{B5}' then '\U{39C}'
    else if c == '\U{FF}' then '\U{178}'
    else if c == '\U{131}' then 'I'
    else if c == '\U{17F}' then 'S'
    else if ('\U{100}' <= c <= '\U{137}' || '\U{14A}' <= c <= '\U{177}') && c as int % 2 == 1 then (c as int - 1) as char
    else if ('\U{139}' <= c <= '\U{148}' || '\U{179}' <= c <= '\U{17E}') && c as int % 2 == 0 then (c as int - 1) as char
    else if '\U{430}' <= c <= '\U{44F}' then (c as int - 32) as char
    else if '\U{450}' <= c <= '\U{45F}' then (c as int - 80) as char
    else if c == '\U{4CF}' then '\U{4C0}'
    else if ('\U{460}' <= c <= '\U{481}' || '\U{48A}' <= c <= '\U{4BF}' || '\U{4D0}' <= c <= '\U{52F}') && c as int % 2 == 1 then (c as int - 1) as char
    else if '\U{4C1}' <= c <= '\U{4CE}' && c as int % 2 == 0 then (c as int - 1) as char
    else c
  }

  /** A cased upper-case character (Python `char.isupper()`). */
  predicate IsUpper(c: char) {
    LowerChar(c) != c
  }

  lemma LowerCharIdempotent(c: char)
    ensures LowerChar(LowerChar(c)) == LowerChar(c)
  {
  }

  /** Capital I with dot above, the one character whose lower-case form is two characters long. */
  const DottedCapitalI: char := '\U{130}'

  /** Python's lower-case form of one character: `[LowerChar(c)]`, except that İ becomes `i` followed by a combining dot above (U+0307). */
  function LowerOf(c: char): (r: string)
    ensures |r| == (if c == DottedCapitalI then 2 else 1)
    ensures r[0] == LowerChar(c)
    ensures IsLowered(r)
  {
    LowerCharIdempotent(c);
    if c == DottedCapitalI then "i\U{307}" else [LowerChar(c)]
  }

  /** Python `s.lower()`: each character replaced by its lower-case form. */
  function Lower(s: string): (r: string)
    ensures |r| >= |s|
    ensures IsLowered(r)
    ensures DottedCapitalI !in s ==> |r| == |s| && forall i :: 0 <= i < |s| ==> r[i] == LowerChar(s[i])
  {
    LowerEachFacts(s);
    LowerEach(s)
  }

  /** The character-by-character recursion behind `Lower`. */
  function LowerEach(s: string): string {
    if |s| == 0 then "" else LowerOf(s[0]) + LowerEach(s[1..])
  }

  /** `LowerEach` never shortens, leaves only lower-case characters, and maps index by index when there is no İ. */
  lemma {:induction false} LowerEachFacts(s: string)
    ensures |LowerEach(s)| >= |s|
    ensures IsLowered(LowerEach(s))
    ensures DottedCapitalI !in s ==> |LowerEach(s)| == |s| && forall i :: 0 <= i < |s| ==> LowerEach(s)[i] == LowerChar(s[i])
  {
    if |s| > 0 {
      var head, rest := LowerOf(s[0]), LowerEach(s[1..]);
      LowerEachFacts(s[1..]);
      assert LowerEach(s) == head + rest;
      assert DottedCapitalI !in s ==> DottedCapitalI !in s[1..];
      assert forall i :: 1 <= i < |s| ==> s[i] == s[1..][i - 1];
    }
  }

  /** Python `s.upper()`. */
  function Upper(s: string): (r: string)
    ensures |r| == |s|
    ensures forall i :: 0 <= i < |s| ==> r[i] == UpperChar(s[i])
  {
    seq(|s|, i requires 0 <= i < |s| => UpperChar(s[i]))
  }

  /** Every character is already in lower case. */
  predicate IsLowered(s: string) {
    forall i :: 0 <= i < |s| ==> LowerChar(s[i]) == s[i]
  }

  /** Lower-casing works character by character, so it distributes over concatenation. */
  lemma LowerAppend(a: string, b: string)
    ensures Lower(a + b) == Lower(a) + Lower(b)
  {
    LowerEachAppend(a, b);
  }

  lemma {:induction false} LowerEachAppend(a: string, b: string)
    ensures LowerEach(a + b) == LowerEach(a) + LowerEach(b)
  {
    if |a| == 0 {
      assert a + b == b;
    } else {
      var ab := a + b;
      assert ab[0] == a[0] && ab[1..] == a[1..] + b;
      LowerEachAppend(a[1..], b);
      var h := LowerOf(a[0]);
      assert LowerEach(ab) == h + (LowerEach(a[1..]) + LowerEach(b));
      assert LowerEach(a) == h + LowerEach(a[1..]);
    }
  }

  /** A string already in lower case is its own lower-case form. */
  lemma {:induction false} LowerOfLowered(s: string)
    requires IsLowered(s)
    ensures Lower(s) == s
  {
    if |s| > 0 {
      assert LowerChar(s[0]) == s[0];
      LowerOfLowered(s[1..]);
      assert LowerEach(s) == LowerOf(s[0]) + LowerEach(s[1..]);
      assert s == [s[0]] + s[1..];
    }
  }

  /** Lower-casing is idempotent. */
  lemma LowerIsLowered(s: string)
    ensures IsLowered(Lower(s))
    ensures Lower(Lower(s)) == Lower(s)
  {
    LowerOfLowered(Lower(s));
  }

  /**
    Turkish capitals reach the keyword tests lower-cased the way Python does it:
    "DEM PARTİSİ" becomes "dem parti̇si̇", each dotted capital İ turning into
    `i` and a combining dot, and so still contains "dem parti".
  */
  lemma DottedCapitalKeywordMatches()
    ensures Lower("DEM PART\U{130}S\U{130}") == "dem parti\U{307}si\U{307}"
    ensures Contains(Lower("DEM PART\U{130}S\U{130}"), "dem parti")
  {
    var dotted, tail := "\U{130}", "\U{130}S\U{130}";
    assert "DEM PART\U{130}S\U{130}" == "DEM PART" + tail;
    assert tail == dotted + ("S" + dotted);
    LowerAppend("DEM PART", tail);
    LowerAppend(dotted, "S" + dotted);
    LowerAppend("S", dotted);
    LowerSmallPieces();
    LiteralPieces();
    assert OccursAt("dem parti\U{307}si\U{307}", "dem parti", 0);
  }

  /** The lower-case forms of the pieces of "DEM PARTİSİ". */
  lemma LowerSmallPieces()
    ensures Lower("\U{130}") == "i\U{307}"
    ensures Lower("S") == "s"
    ensures Lower("DEM PART") == "dem part"
  {
    var dotted := "\U{130}";
    assert Lower(dotted) == LowerOf(dotted[0]) + Lower(dotted[1..]);
    assert dotted[1..] == "";
    assert "S"[1..] == "";
    LowerDemPart();
  }

  lemma LowerDemPart()
    ensures Lower("DEM PART") == "dem part"
  {
    LiteralPieces();
    LowerAppend("DEM ", "PART");
    LowerDem();
    LowerPart();
  }

  lemma LowerDem()
    ensures Lower("DEM ") == "dem "
  {
    var u := "DEM ";
    assert DottedCapitalI !in u;
    var l := Lower(u);
    assert l[0] == LowerChar('D') && l[1] == LowerChar('E') && l[2] == LowerChar('M') && l[3] == LowerChar(' ');
  }

  lemma LowerPart()
    ensures Lower("PART") == "part"
  {
    var u := "PART";
    assert DottedCapitalI !in u;
    var l := Lower(u);
    assert l[0] == LowerChar('P') && l[1] == LowerChar('A') && l[2] == LowerChar('R') && l[3] == LowerChar('T');
  }

  /** The lower-cased pieces reassemble to the expected literal. */
  lemma LiteralPieces()
    ensures "dem part" + ("i\U{307}" + ("s" + "i\U{307}")) == "dem parti\U{307}si\U{307}"
    ensures ("dem parti\U{307}si\U{307}")[..9] == "dem parti"
    ensures "DEM " + "PART" == "DEM PART" && "dem " + "part" == "dem part"
  {
  }

  /** `p` is a prefix of `s`. */
  predicate StartsWith(s: string, p: string) {
    |p| <= |s| && s[..|p|] == p
  }

  /** `p` occurs in `s` at position `i`. */
  predicate OccursAt(s: string, p: string, i: int) {
    0 <= i && i + |p| <= |s| && s[i..i + |p|] == p
  }

  /** Python `p in s`: substring search, left to right. */
  function Contains(s: string, p: string): (r: bool)
    ensures r <==> exists i :: OccursAt(s, p, i)
    decreases |s|
  {
    if StartsWith(s, p) then
      assert OccursAt(s, p, 0);
      true
    else if |s| == 0 then
      false
    else
      var rest := Contains(s[1..], p);
      ContainsShift(s, p);
      rest
  }

  /** An occurrence in `s[1..]` is an occurrence in `s` one position later, and conversely for positions past 0. */
  lemma ContainsShift(s: string, p: string)
    requires |s| > 0
    ensures (exists i :: OccursAt(s[1..], p, i)) <==> (exists j :: 1 <= j && OccursAt(s, p, j))
  {
    if exists i :: OccursAt(s[1..], p, i) {
      var i :| OccursAt(s[1..], p, i);
      assert s[1..][i..i + |p|] == s[i + 1..i + 1 + |p|];
      assert OccursAt(s, p, i + 1);
    }
    if exists j :: 1 <= j && OccursAt(s, p, j) {
      var j :| 1 <= j && OccursAt(s, p, j);
      assert s[1..][j - 1..j - 1 + |p|] == s[j..j + |p|];
      assert OccursAt(s[1..], p, j - 1);
    }
  }

  /** An occurrence inside a slice is an occurrence in the whole string. */
  lemma ContainsInSlice(s: string, p: string, lo: int, hi: int)
    requires 0 <= lo <= hi <= |s|
    requires Contains(s[lo..hi], p)
    ensures Contains(s, p)
  {
    var i :| OccursAt(s[lo..hi], p, i);
    var j := lo + i;
    var whole, part := s[j..j + |p|], s[lo..hi][i..i + |p|];
    assert forall k :: 0 <= k < |whole| ==> whole[k] == part[k];
    assert whole == p;
    assert OccursAt(s, p, lo + i);
  }

  /** Python `s.count(p)` for a non-empty `p`: non-overlapping occurrences, scanning left to right. */
  function CountOccurrences(s: string, p: string): (n: nat)
    requires |p| > 0
    ensures n > 0 ==> Contains(s, p)
    ensures n <= |s|
    decreases |s|
  {
    if |s| < |p| then 0
    else if StartsWith(s, p) then
      assert OccursAt(s, p, 0);
      1 + CountOccurrences(s[|p|..], p)
    else
      var n := CountOccurrences(s[1..], p);
      assert n > 0 ==> Contains(s, p) by {
        if n > 0 {
          assert s[1..|s|] == s[1..];
          ContainsInSlice(s, p, 1, |s|);
        }
      }
      n
  }

  /** Length of the leading run of non-whitespace characters (a greedy `\S*`). */
  function NonSpaceRun(s: string): (n: nat)
    ensures n <= |s|
    ensures forall i :: 0 <= i < n ==> !IsSpace(s[i])
    ensures n < |s| ==> IsSpace(s[n])
  {
    if |s| == 0 || IsSpace(s[0]) then 0 else 1 + NonSpaceRun(s[1..])
  }

  /** Length of the leading run of whitespace characters (a greedy `\s*`). */
  function SpaceRun(s: string): (n: nat)
    ensures n <= |s|
    ensures forall i :: 0 <= i < n ==> IsSpace(s[i])
    ensures n < |s| ==> !IsSpace(s[n])
  {
    if |s| == 0 || !IsSpace(s[0]) then 0 else 1 + SpaceRun(s[1..])
  }

  /** Length of the trailing run of whitespace characters. */
  function TrailingSpaceRun(s: string): (n: nat)
    ensures n <= |s|
    ensures forall i :: |s| - n <= i < |s| ==> IsSpace(s[i])
    ensures n < |s| ==> !IsSpace(s[|s| - n - 1])
  {
    if |s| == 0 || !IsSpace(s[|s| - 1]) then 0 else 1 + TrailingSpaceRun(s[..|s| - 1])
  }

  /** Python `s.strip()`: the slice between the leading and the trailing whitespace. */
  function Strip(s: string): (r: string)
    ensures |r| <= |s|
    ensures |r| > 0 ==> !IsSpace(r[0]) && !IsSpace(r[|r| - 1])
    ensures Contains(s, r)
    ensures (forall i :: 0 <= i < |s| ==> IsSpace(s[i])) <==> |r| == 0
  {
    var lead := SpaceRun(s);
    var rest := s[lead..];
    var r := rest[..|rest| - TrailingSpaceRun(rest)];
    assert r == s[lead..lead + |r|];
    assert OccursAt(s, r, lead);
    assert lead < |s| ==> |r| > 0 by {
      if lead < |s| {
        assert !IsSpace(rest[0]);
      }
    }
    r
  }

  /** A string with no whitespace at either end is its own `strip()`. */
  lemma StripUnpadded(s: string)
    requires |s| > 0 ==> !IsSpace(s[0]) && !IsSpace(s[|s| - 1])
    ensures Strip(s) == s
  {
    if |s| > 0 {
      assert SpaceRun(s) == 0;
      assert TrailingSpaceRun(s[0..]) == 0;
    }
  }

  /** Python `s.split()` with no argument: maximal runs of non-whitespace, empty strings discarded. */
  function Words(s: string): (ws: seq<string>)
    ensures forall k :: 0 <= k < |ws| ==> IsWord(ws[k])
    ensures forall k, i :: 0 <= k < |ws| && 0 <= i < |ws[k]| ==> ws[k][i] in s
    decreases |s|
  {
    if |s| == 0 then []
    else if IsSpace(s[0]) then Words(s[1..])
    else
      var n := NonSpaceRun(s);
      var rest := Words(s[n..]);
      assert forall k, i :: 0 <= k < |rest| && 0 <= i < |rest[k]| ==> rest[k][i] in s by {
        forall k, i | 0 <= k < |rest| && 0 <= i < |rest[k]| ensures rest[k][i] in s {
          assert rest[k][i] in s[n..];
        }
      }
      [s[..n]] + rest
  }

  /** A token `split()` can produce: non-empty, no whitespace. */
  predicate IsWord(w: string) {
    |w| > 0 && forall i :: 0 <= i < |w| ==> !IsSpace(w[i])
  }

  /** Python `sep.join(ws)`. */
  function Join(ws: seq<string>, sep: string): string {
    if |ws| == 0 then ""
    else if |ws| == 1 then ws[0]
    else ws[0] + sep + Join(ws[1..], sep)
  }

  /** Splitting a single-space join of words gives back the words. */
  lemma {:induction false} WordsOfJoin(ws: seq<string>)
    requires forall k :: 0 <= k < |ws| ==> IsWord(ws[k])
    ensures Words(Join(ws, " ")) == ws
  {
    if |ws| == 0 {
    } else if |ws| == 1 {
      WordsOfWord(ws[0], "");
      assert ws[0] + "" == ws[0];
    } else {
      var rest := Join(ws[1..], " ");
      assert Join(ws, " ") == ws[0] + (" " + rest);
      WordsOfWord(ws[0], " " + rest);
      assert Words(" " + rest) == Words(rest) by {
        assert (" " + rest)[1..] == rest;
      }
      WordsOfJoin(ws[1..]);
      assert ws == [ws[0]] + ws[1..];
    }
  }

  /** A word followed by text that is empty or starts with whitespace is split off as the first token. */
  lemma WordsOfWord(w: string, tail: string)
    requires IsWord(w)
    requires |tail| == 0 || IsSpace(tail[0])
    ensures Words(w + tail) == [w] + Words(tail)
  {
    var s := w + tail;
    assert NonSpaceRun(s) == |w| by {
      NonSpaceRunOfWord(w, tail);
    }
    assert s[..|w|] == w;
    assert s[|w|..] == tail;
  }

  lemma {:induction false} NonSpaceRunOfWord(w: string, tail: string)
    requires forall i :: 0 <= i < |w| ==> !IsSpace(w[i])
    requires |tail| == 0 || IsSpace(tail[0])
    ensures NonSpaceRun(w + tail) == |w|
  {
    if |w| > 0 {
      assert (w + tail)[1..] == w[1..] + tail;
      NonSpaceRunOfWord(w[1..], tail);
    } else {
      assert w + tail == tail;
    }
  }

  /** Python's `<=` on `str`: code-point lexicographic order, a proper prefix sorting first. */
  predicate LexLe(a: string, b: string)
    decreases |a|
  {
    |a| == 0 || (|b| > 0 && (a[0] < b[0] || (a[0] == b[0] && LexLe(a[1..], b[1..]))))
  }

  lemma {:induction false} LexLeTotal(a: string, b: string)
    ensures LexLe(a, b) || LexLe(b, a)
    decreases |a|
  {
    if |a| > 0 && |b| > 0 && a[0] == b[0] {
      LexLeTotal(a[1..], b[1..]);
    }
  }

  lemma {:induction false} LexLeAntisymmetric(a: string, b: string)
    requires LexLe(a, b) && LexLe(b, a)
    ensures a == b
    decreases |a|
  {
    if |a| > 0 && |b| > 0 {
      LexLeAntisymmetric(a[1..], b[1..]);
      assert a == [a[0]] + a[1..];
      assert b == [b[0]] + b[1..];
    }
  }

  lemma {:induction false} LexLeTransitive(a: string, b: string, c: string)
    requires LexLe(a, b) && LexLe(b, c)
    ensures LexLe(a, c)
    decreases |a|
  {
    if |a| > 0 && a[0] == b[0] && b[0] == c[0] {
      LexLeTransitive(a[1..], b[1..], c[1..]);
    }
  }

  lemma LexLeReflexive(a: string)
    ensures LexLe(a, a)
  {
  }

  /** Ascending under `LexLe`. */
  predicate Sorted(s: seq<string>) {
    forall i, j :: 0 <= i < j < |s| ==> LexLe(s[i], s[j])
  }

  /** A word not above the head of a sorted sequence is not above any of it. */
  lemma BelowHeadBelowAll(w: string, s: seq<string>)
    requires Sorted(s) && |s| > 0 && LexLe(w, s[0])
    ensures forall j :: 0 <= j < |s| ==> LexLe(w, s[j])
  {
    forall j | 0 <= j < |s| ensures LexLe(w, s[j]) {
      if j > 0 {
        assert LexLe(s[0], s[j]);
        LexLeTransitive(w, s[0], s[j]);
      }
    }
  }

  /** The head of a sorted sequence is below every word of it and below a larger word added to the rest. */
  lemma HeadBelowInserted(w: string, s: seq<string>, tail: seq<string>)
    requires Sorted(s) && |s| > 0 && LexLe(s[0], w)
    requires multiset(tail) == multiset(s[1..]) + multiset{w}
    ensures forall j :: 0 <= j < |tail| ==> LexLe(s[0], tail[j])
  {
    forall j | 0 <= j < |tail|
      ensures LexLe(s[0], tail[j])
    {
      assert tail[j] in multiset(tail);
      assert tail[j] in multiset(s[1..]) || tail[j] == w;
      if tail[j] != w {
        var k :| 0 <= k < |s[1..]| && s[1..][k] == tail[j];
        assert s[k + 1] == tail[j];
      }
    }
  }

  /** Insert `w` into a sorted sequence at the first position whose word is not smaller. */
  function InsertWord(w: string, s: seq<string>): (r: seq<string>)
    requires Sorted(s)
    ensures Sorted(r)
    ensures multiset(r) == multiset(s) + multiset{w}
    ensures |r| == |s| + 1
  {
    if |s| == 0 then [w]
    else if LexLe(w, s[0]) then
      BelowHeadBelowAll(w, s);
      [w] + s
    else
      LexLeTotal(w, s[0]);
      var tail := InsertWord(w, s[1..]);
      assert s == [s[0]] + s[1..];
      HeadBelowInserted(w, s, tail);
      [s[0]] + tail
  }

  /** Python `sorted(ws)` / `ws.sort()` on strings. */
  function SortWords(ws: seq<string>): (r: seq<string>)
    ensures Sorted(r)
    ensures multiset(r) == multiset(ws)
    ensures |r| == |ws|
  {
    if |ws| == 0 then []
    else
      assert ws == [ws[0]] + ws[1..];
      InsertWord(ws[0], SortWords(ws[1..]))
  }

  /** The least element of a non-empty sorted sequence is its first. */
  lemma SortedHeadIsLeast(s: seq<string>, x: string)
    requires Sorted(s) && x in multiset(s)
    ensures LexLe(s[0], x)
  {
    var k :| 0 <= k < |s| && s[k] == x;
    if k > 0 { } else { LexLeReflexive(x); }
  }

  /** A sorted arrangement of a multiset of strings is unique. */
  lemma {:induction false} SortedUnique(a: seq<string>, b: seq<string>)
    requires Sorted(a) && Sorted(b)
    requires multiset(a) == multiset(b)
    ensures a == b
    decreases |a|
  {
    if |a| == 0 {
      assert |multiset(b)| == 0;
    } else {
      assert |b| == |multiset(b)| == |multiset(a)| == |a|;
      assert a[0] in multiset(b) by { assert a[0] in multiset(a); }
      assert b[0] in multiset(a) by { assert b[0] in multiset(b); }
      SortedHeadIsLeast(b, a[0]);
      SortedHeadIsLeast(a, b[0]);
      LexLeAntisymmetric(a[0], b[0]);
      assert a == [a[0]] + a[1..];
      assert b == [b[0]] + b[1..];
      assert multiset(a[1..]) == multiset(b[1..]) by {
        calc {
          multiset(a[1..]);
          multiset(a) - multiset{a[0]};
          multiset(b) - multiset{b[0]};
          multiset(b[1..]);
        }
      }
      SortedUnique(a[1..], b[1..]);
    }
  }

  /** A decimal digit character. */
  predicate IsDigit(c: char) {
    '0' <= c <= '9'
  }

  /** Python `str(n)` for a non-negative integer. */
  function NatToString(n: nat): (s: string)
    ensures |s| > 0
    ensures forall i :: 0 <= i < |s| ==> IsDigit(s[i])
    ensures n >= 10 ==> |s| >= 2
  {
    var d := ['0' + (n % 10) as char];
    if n < 10 then d else NatToString(n / 10) + d
  }

  /** Distinct numbers print differently. */
  lemma {:induction false} NatToStringInjective(m: nat, n: nat)
    ensures NatToString(m) == NatToString(n) ==> m == n
  {
    var sm, sn := NatToString(m), NatToString(n);
    if m >= 10 && n >= 10 {
      assert sm[..|sm| - 1] == NatToString(m / 10);
      assert sn[..|sn| - 1] == NatToString(n / 10);
      NatToStringInjective(m / 10, n / 10);
      if sm == sn {
        assert sm[|sm| - 1] == sn[|sn| - 1];
      }
    } else if m < 10 && n < 10 {
      if sm == sn {
        assert sm[0] == sn[0];
      }
    } else {
      assert |sm| != |sn|;
    }
  }
}
